=== FILE: README.md ===
# Veerenstael QuickScan: report arithmetic and text handling

The QuickScan is a questionnaire page (`script.js`) that posts its form as a
flat JSON object to one of four handlers:

- the Flask route `submit` in `app.py`;
- its Netlify copy `handler` in `netlify/functions/submit.py`;
- the Netlify JavaScript function `functions/submit.js`;
- the older Netlify JavaScript function `netlify/functions/submit.js`.

Every handler turns the `<section>_<index>_answer` / `_label` /
`_customer_score` fields into question items. The two Python handlers and
`functions/submit.js` then group the items per section, write a PDF report
and mail it. `netlify/functions/submit.js` mails a plain-text summary instead.

This project models, as pure Dafny functions:

- the form and its field-naming convention (`Form`);
- the three extraction dialects:
  - Python `rsplit("_", 1)`, `int()` and the `""`-keeping `.get` (`PyItems`);
  - JavaScript `split('_').slice(0, -1).join(' ')`, `||` defaults and
    `parseInt` (`JsItems`, `Numerals`);
- the grouping in first-seen order (`Grouping`);
- the per-section averages, the overall average of `app.py`, and the closed
  radar series (`Aggregation`, `Stats`, `Radar`);
- the layout of the PDF's answer table:
  - the greedy line counter `_nb_lines`, over an abstract per-character width
    function (`Wrap`);
  - the row geometry of `row_two_cols` (`Rows`);
- the Latin-1 fallback used when the Unicode fonts are missing (`Latin1`);
- the traffic-light overlay (`Stoplight`):
  - `norm_name`;
  - `bucket_for_score`;
  - the position table;
  - the clamped placement of the housing and its three lamps;
- the collection loop, averages and PDF text of `functions/submit.js`
  (`JsReport`), and the mail text of `netlify/functions/submit.js` (`JsMail`);
- what each handler answers: status code and JSON body (`Mail`, `Reports`).

Behaviour of the code worth knowing. The member named in each bullet proves
the modelled part of it; what a bullet says about drawing is outside the
model:

- **The counter and the drawn answer part on a long word.** `_nb_lines`
  breaks a word character by character only when the word starts a line. An
  over-long word after another word counts as one line. Every answer cell
  starts with `"Antwoord: "`, so the counter gives an answer of one long word
  at most two lines (`Wrap.AnswerAtMostTwoLines`), and the row height and the
  score band are computed from that count. The drawing call `multi_cell`
  (app.py:197) does wrap such a word over as many lines as it needs. The
  drawn answer then runs past the counted lines into the score band and out
  of the row. The model covers the counted lines and the geometry built on
  them, not the drawn text.
- **One strategy section gets no light.** The questionnaire's own section
  "Asset Management Strategie" contains no `am`, so `norm_name` does not map
  it to the `am-strategie` key and it gets no light
  (`Stoplight.AssetManagementStrategieNoLight`).
- **Overall average.** The overall average of `app.py` is the flat mean over
  all scored items, not the mean of the section averages
  (`Aggregation.TotalIsFlatMean`, `Aggregation.MeanOfMeansDiffers`).
- **Inherited object names.** In `functions/submit.js`, a section name that a
  plain JavaScript object already has (`constructor`, `toString`, ...)
  makes `.push` throw a `TypeError`, and the handler answers 500
  (`Reports.JsSubmitFails`).
- **The dialects disagree on score text.** `parseInt` accepts `"4x"` and
  `"0x1F"`, which `int()` rejects, and reads `"1_0"` as 1 where `int()`
  reads 10 (`Numerals.DialectsDisagree`).
- **Section names with `_`.** For such a name the Python section keeps the
  `_` and the JavaScript one turns it into a space
  (`JsItems.SectionsAgreeIff`).

- **Scores are not range-checked.** Any integer `int()` accepts is kept as a
  score, 0, 7 and negative ones included (`PyItems.PyScoreNoRangeCheck`).
- **A huge score ends in 500.** A section average is `int / int` (app.py:389,
  netlify/functions/submit.py:254), and Python raises `OverflowError` when
  the quotient is 2^1024 - 2^970 or more in magnitude. A score of `"1"`
  followed by 309 zeros does that. Both Python handlers then answer 500 with
  the error's message, and no mail goes out (`Reports.AppSubmit`,
  `Reports.NetlifyPySubmit`, `Aggregation.MeanOverflowsMeaning`). Scores
  below that bound never overflow (`Aggregation.SmallScoresNoOverflow`).
- **Every average is over customer scores.** The handlers read only the
  `_customer_score` field of a question (`PyItems.PyItem`,
  `JsItems.JsEntry`), and every average is taken over those scores
  (`Aggregation.TotalIsFlatMean`, `JsReport.AveragesSpec`).
- **A form without answers.** There is no average, no section and no radar
  chart, and the JavaScript loop collects nothing (`Reports.NoAnswers`).

The helper code in `netlify/functions/submit.py` is a line-for-line copy of
the one in `app.py`:

- `sanitize_text_for_latin1`, lines 52-62;
- `ufont`, `utext` and `_nb_lines`, lines 75-115;
- `_col_widths` and `row_two_cols`, lines 145-184;
- extraction, lines 202-215;
- grouping, lines 231-257;
- radar series, lines 260-269.

One Dafny member models each such pair, and the table cites the `app.py`
lines.

## Model

| member | source | states |
|---|---|---|
| Text.StripEmptyIffAllWhitespace | app.py:346 | `str(raw).strip()` is empty exactly when every character is `str.isspace` whitespace |
| Text.SplitJoin | app.py:111 | splitting on `"\n"` and joining again gives the text back; no piece holds the separator; there is one more piece than separators |
| Text.RSplitHead | app.py:342 | `rsplit("_", 1)[0]` is the whole string when it has no `_`, else the part before the last `_` |
| Text.RSplitHeadOf | app.py:342 | `head + "_" + tail` with no `_` in `tail` splits to `head`, whatever `head` holds |
| Text.JoinSplitSwap | functions/submit.js:27 | splitting on `_` and joining with a space replaces every `_` by a space |
| Text.Lower | app.py:219 | `lower()` keeps the length, leaves no capital letter, keeps every other character and moves each capital 32 code points up to its small letter |
| Text.LowerIdempotent | app.py:219 | lowering twice is lowering once |
| Text.ContainsPairAppend | app.py:225 | a two-character substring of `x + y` lies in `x`, in `y`, or across the seam |
| Numerals.ParseIntToString | app.py:347 | `int(str(n)) == n` for every integer |
| Numerals.IntToStringNotDash | app.py:344-347 | a printed integer is never the placeholder `"-"` |
| Numerals.BlankDoesNotParse | app.py:345-349 | text that `strip()` empties never parses, so the emptiness test before `int()` changes no outcome |
| Numerals.JsParseIntToString | functions/submit.js:39 | `parseInt` reads back every integer Python prints |
| Numerals.DigitPrefix | functions/submit.js:39 | `parseInt` reads the longest prefix of digits of the radix, stopping at the first other character |
| Numerals.DialectsDisagree | functions/submit.js:38-42 | `parseInt` gives 4 for `"4x"`, 31 for `"0x1F"` and 1 for `" 1_0 "`, where `int()` rejects the first two and gives 10 |
| Latin1.SanitizeIsReference | app.py:59-69 | the nine `replace` passes followed by the Latin-1 round trip equal the per-character map: table entry, the character itself when it is Latin-1, `?` otherwise |
| Latin1.SanitizeSingle | app.py:62-67 | one character becomes its table value (’ ‘ → `'`, “ ” → `"`, – — → `-`, … → `...`, € → `EUR`, NBSP → space), itself when Latin-1, `?` otherwise |
| Latin1.SanitizeAppend | app.py:64-67 | sanitising works character by character: it distributes over concatenation |
| Latin1.TableShape | app.py:62-63 | every table key lies above ASCII and every table value inside it |
| Latin1.SanitizeOutput | app.py:66-67 | every output character is Latin-1 and not NBSP |
| Latin1.SanitizeKeepsPlain | app.py:59-69 | text of Latin-1 characters other than NBSP is unchanged |
| Latin1.SanitizeIdempotent | app.py:59-69 | sanitising twice equals sanitising once |
| Latin1.UTextParagraphs | app.py:103-111 | `utext` keeps the number of `"\n"`-separated paragraphs in both font modes |
| Latin1.UText | app.py:103-104 | the text is unchanged with the Unicode fonts loaded; in the fallback mode every character handed to the PDF is at most U+00FF |
| Form.Get | app.py:340-343 | property access finds a pair of the form, and nothing exactly when no pair has the key |
| Form.GetIsFirst | app.py:340-343 | property access returns the value of the first pair with the key |
| Form.JsOr | functions/submit.js:28-30 | `data[key] \|\| d` is the value of the first pair with the key when that value is non-empty, and `d` when it is `""` or no pair has the key |
| Form.AnswerKeysMembers | app.py:338 | the answer keys are exactly the keys of the form that end in `_answer` |
| Form.AnswerKeysAppend | app.py:338 | the answer keys of two parts of a form are those of the first part, then those of the second |
| Form.Prefix | app.py:339 | `k[:-7]` followed by `_answer` gives `k` back |
| Form.QuestionFields | script.js:78-97 | a question block sends three fields when a dot was clicked, two otherwise |
| Form.BaseNameInjective | script.js:79 | two blocks with the same base name `${section}_${index}` have the same section and index |
| Form.QuestionFormLookup | script.js:78-97 | in a questionnaire form, each block's answer, label and score are found under its own base name; the score is found exactly when a dot was clicked |
| Form.QuestionFormAnswerKeys | script.js:102-111 | the answer keys of a questionnaire are the blocks' answer fields, one per block, in block order |
| Form.OtherFieldsInvisible | script.js:146-147 | contact fields without a question suffix hide no question field |
| Form.OtherFieldsNoAnswers | script.js:146-147 | contact fields without a question suffix add no answer key |
| PyItems.PyScore | app.py:343-349 | the stored score is `"-"` or an integer printed by `str(int(...))` |
| PyItems.PyScoreMeaning | app.py:343-349 | the stored score is `str(int(raw))` exactly when `int` accepts the text, and `"-"` otherwise |
| PyItems.PyScoreNoRangeCheck | app.py:345-347 | every integer is kept as it is: there is no range check |
| PyItems.PyScoreReparses | app.py:382-387 | a stored score other than `"-"` parses again to the same value, so the `except` during grouping never fires |
| PyItems.PySectionOfBlock | app.py:342 | the Python section of a questionnaire key is its section name, whatever that holds, `_` included |
| PyItems.PyItem | app.py:338-349 | the item of an answer key: the label, or the key when no label field is sent (an empty label is kept); the answer or `""`; the prefix up to its last `_`, or the whole prefix without `_`; the score printed by `str(int(...))`, or `"-"` |
| PyItems.PyExtract | app.py:337-350 | one item per answer key, in key order, item `i` being the item of key `i` as above, each with a well-formed score |
| PyItems.PyExtractQuestionnaire | app.py:337-350 | a questionnaire form gives one item per block, in block order: its text (even an empty one), its answer, its section, and `"-"` when no dot was clicked |
| JsItems.JsEntry | functions/submit.js:28-30 | the record of an answer key: the label, or the key when the label is absent or empty; the answer or `''`; the score field, or `'-'` when it is absent or empty; question and score are never empty |
| JsItems.JsSectionNoUnderscore | functions/submit.js:27 | a prefix without `_` has the empty section name |
| JsItems.JsSectionOfBlock | functions/submit.js:27 | the JavaScript section of a questionnaire key is its section name with every `_` turned into a space |
| JsItems.SectionsAgreeIff | functions/submit.js:27 | the Python and JavaScript sections of a block agree exactly when its section name has no `_` |
| JsItems.JsEntryOfBlock | functions/submit.js:28-30 | a block's record: an empty question text falls back to the key, an absent or empty score reads `'-'` |
| JsItems.LabelDialects | netlify/functions/submit.js:24 | on an empty question text Python keeps the empty text and JavaScript shows the key |
| JsItems.Entries | netlify/functions/submit.js:20-29 | one record per answer key, in key order, record `i` being the record of key `i` as above |
| JsItems.EntriesQuestionnaire | netlify/functions/submit.js:20-29 | a questionnaire form gives one record per block, in block order, whatever other fields the page sends |
| JsItems.JsScoreValue | functions/submit.js:38-42 | `'-'` is not counted and any other score counts with its `parseInt` value; a score Python printed counts exactly when it is not `'-'`, with the value `int()` gave it |
| JsItems.JsScoreValueOfPrinted | functions/submit.js:38-42 | every score Python prints is counted with its own value, and `'-'` is not counted |
| Grouping.EnsureKey | app.py:369 | `setdefault` makes the key present and keeps the existing groups in place; it adds one empty group at the end exactly when the key was missing, and keeps the names distinct |
| Grouping.EnsureKeyNames | app.py:369 | the names after `setdefault` are the old names, with the key added at the end when it was new |
| Grouping.FirstSeenSpec | app.py:366-369 | the reference lists every name once, and in order of first occurrence |
| Grouping.GroupByIsReference | app.py:366-369 | the grouping loop's names are the first-seen order of the row names, and each list holds exactly that name's rows, in row order |
| Grouping.GroupByNames | app.py:366-369 | the groups have distinct names, one per distinct row name |
| Grouping.GroupByTotal | app.py:366-369 | grouping neither drops nor duplicates a row |
| Grouping.GroupBySumBy | app.py:366-391 | summing per group and then over the groups gives the sum over all rows |
| Grouping.AddRowNew | app.py:369 | a new name opens a group of its own at the end |
| Grouping.TotalSizeAddRow | app.py:369 | adding a row adds one value over all groups |
| Aggregation.ScoreOf | app.py:382-387 | `int(cust)` is only attempted for a score other than `"-"`; on a stored score it succeeds exactly for a score other than `"-"`, and gives back the printed value |
| Aggregation.SubjectAverage | app.py:380-389 | `subj_avg` is the sum of the group's score weights over its number of scored rows, or 0 when none is scored |
| Aggregation.RadarValues | app.py:389-391 | one radar value per group, in group order, each the weighted average of that group |
| Aggregation.ScoresWeights | app.py:380-389 | a group's scores sum to its score weight and number its scored rows |
| Aggregation.AllScoresWeights | app.py:468 | the flat score list sums and counts like the items' weights |
| Aggregation.TotalIsFlatMean | app.py:467-472 | the overall average is the sum of the group sums over the number of scored items; it is absent exactly when no item is scored |
| Aggregation.TotalIgnoresUnscored | app.py:468 | an item without a score leaves the overall average unchanged |
| Aggregation.RadarSectionsFirstSeen | app.py:366-391 | the radar sections are the item sections in first-seen order, distinct, and each group holds its section's rows in item order |
| Aggregation.SubjectAverageRange | app.py:389 | with scores in 1-5 a section average is the sentinel 0 or lies in [1, 5] |
| Aggregation.MeanOverflowsMeaning | app.py:389 | the division raises `OverflowError` exactly when the section has a score and its exact average is 2^1024 - 2^970 or more in magnitude |
| Aggregation.ScoreSumBound | app.py:380-389 | when every score lies within a bound, the section's sum lies within the bound times its number of scores |
| Aggregation.SmallScoresNoOverflow | app.py:389 | a section whose scores are all below 2^1024 - 2^970 in magnitude never overflows |
| Aggregation.GroupedSeparate | app.py:366-369 | two items of different sections open a group each |
| Aggregation.GroupedThenSame | app.py:366-369 | a third item of the second item's section joins that group |
| Aggregation.AverageOfOne | app.py:389 | a section with one score averages to that score |
| Aggregation.AverageOfTwo | app.py:389 | a section with two scores averages to their half sum |
| Aggregation.ExampleTotal | app.py:467-469 | section A scored 1 and section B scored 2 and 3 give the overall average 2 |
| Aggregation.ExampleRadar | app.py:374-391 | the same items give the radar values 1 and 2.5 |
| Aggregation.MeanOfMeansDiffers | app.py:467-469 | on that example the overall average, 2, is not the mean of the section averages, 1.75 |
| Stats.MeanBounds | app.py:389 | a mean lies between the least and the greatest value |
| Stats.SumAppend | app.py:389 | the sum of two lists is the sum of their sums |
| Radar.Close | app.py:402-404 | closing a non-empty series adds one point, equal to the first, and keeps the rest |
| Radar.Angles | app.py:403 | `linspace(0, 2π, N, endpoint=False)` has `N` angles, angle `k` being `k/N` of a full turn; they start at 0, rise and stay below a full turn |
| Radar.RadarChart | app.py:395-404 | a chart exists exactly when there is a section; its values and angles have `N + 1` points and end where they start |
| Wrap.WidthAppend | app.py:119 | widths add up over concatenation |
| Wrap.WidthPrefix | app.py:125 | with non-negative character widths, a prefix is never wider than the string |
| Wrap.NbLines | app.py:106-136 | the count is at least 1 and at least the number of paragraphs, and the font is as it was before the call |
| Wrap.NbLinesEmpty | app.py:109-136 | no text, or the empty text, is one line |
| Wrap.ParLines | app.py:111-134 | a paragraph adds at least one line; the `if not words` branch is dead |
| Wrap.CountLines | app.py:110-136 | the paragraphs add at least one line each |
| Wrap.BreakSpec | app.py:122-130 | the hard-break pieces put the word back together, and each piece fits or is one character |
| Wrap.BreakGreedy | app.py:124-129 | a finished piece followed by the next character is too wide |
| Wrap.BreakStartsWith | app.py:127-129 | the piece after a break starts with the character that did not fit |
| Wrap.BreakWide | app.py:122-130 | a word comes back as one piece only when it fits |
| Wrap.WordStep | app.py:117-133 | a word that fits joins the line; after another word, a word that does not fit starts exactly one new line and becomes that line; it is never broken |
| Wrap.WideWordAloneBreaks | app.py:122-130 | a word too wide for the column, alone on its line, takes at least two lines |
| Wrap.FittingWords | app.py:117-120 | while the text read so far fits, the loop starts no line |
| Wrap.FittingParagraphOneLine | app.py:117-134 | a paragraph of single-spaced words that fits the column is one line |
| Wrap.NbLinesOneParagraph | app.py:106-136 | with the Unicode fonts loaded, a text without a newline counts the lines of its one paragraph |
| Wrap.NbLinesFittingWords | app.py:106-136 | the same for the whole counter: a fitting paragraph is one line |
| Wrap.AnswerAtMostTwoLines | app.py:117-134 | `"Antwoord: " + X` for a one-word `X` is one line when it fits and two otherwise, however wide `X` is |
| Wrap.AnswerCellLines | app.py:187 | the same for the counter called on an answer cell |
| Rows.ColWidths | app.py:166-169 | the question column is 48% of the printable width and the two columns fill it |
| Rows.RowLayout | app.py:188-205 | both cells start at `y0` with one height `h = max(h_left, h_txt + band_h)`, side by side and as wide as the page; the band lies below the counted answer lines and closes the answer cell; the score cell sits inside the band; the cursor ends at `(x0, y0 + h)` |
| Rows.RowTwoCols | app.py:180-188 | the line counts are those of the bold question and of `"Antwoord: " + right` over the widths inside the padding; every row is at least one line, its padding and the band high; the font mode is kept |
| Rows.RowIsLayout | app.py:180-205 | the row is the layout of its two line counts |
| Rows.ShortRow | app.py:180-205 | a one-line question beside a fitting one-word answer gives the minimum row |
| Stoplight.BucketForScore | app.py:231-236 | red below 2.5, yellow from 2.5 to 3.5 with both ends included, green above 3.5 |
| Stoplight.BucketMonotone | app.py:231-236 | a higher score never gets a worse colour |
| Stoplight.SentinelIsRed | app.py:231-233 | the sentinel average 0 shows red |
| Stoplight.Keys | app.py:208-216 | one key per position-table entry |
| Stoplight.Lookup | app.py:208-216 | `key in toppos` holds exactly for a table key, `toppos[key]` is its entry, and every position found lies in the unit square |
| Stoplight.NormNameUnchanged | app.py:218-229 | a lower-case, stripped name without `&`, double spaces, renamings or rules is its own normal form |
| Stoplight.AmpersandRoundTrip | app.py:220 | the `&` of a name `a & b` is widened and folded back to what it was |
| Stoplight.ReplaceSame | app.py:220 | replacing a quote by the same quote changes nothing |
| Stoplight.MreFixed | app.py:218-229 | the maintenance & reliability key normalises to itself |
| Stoplight.KeysAreNormal | app.py:208-229 | every key of the position table is its own normal form |
| Stoplight.AssetManagementStrategieSkipped | app.py:218-229 | "Asset Management Strategie" normalises to a name that is not a key |
| Stoplight.PlaceLight | app.py:260-303 | on an image of non-negative size the clamped housing lies on the image, wherever the position; the lamps are red, yellow and green from top to bottom, inside the housing, strictly one below the other on a non-empty image; exactly one lamp is lit, the one of the score's bucket |
| Stoplight.LightsOfPairs | app.py:265-269 | every light belongs to one label and score pair, in order, and its name has a position |
| Stoplight.LightsAllKnown | app.py:265-309 | when every name has a position there is one light per pair, placed at that position |
| Stoplight.Overlay | app.py:245-248 | there is no overlay exactly when there is no base image |
| Stoplight.AssetManagementStrategieNoLight | app.py:265-268 | the questionnaire's strategy section gets no light |
| JsReport.Rows | functions/submit.js:24-30 | one row per answer key |
| JsReport.Counted | functions/submit.js:38-42 | a record contributes at most one score |
| JsReport.AddScore | functions/submit.js:41 | pushing a score keeps the section names |
| JsReport.ScoreGroupsAddRow | functions/submit.js:32-43 | one pass of the loop keeps the scores equal to the counted scores of the sections |
| JsReport.CollectRowsFails | functions/submit.js:24-45 | the loop throws exactly when some answer's section is an inherited object name |
| JsReport.CollectRowsGroups | functions/submit.js:24-45 | otherwise it groups the records by section in first-seen order, with the parsed scores of each section |
| JsReport.CollectFails | functions/submit.js:24-45 | on a form: failure exactly when an answer key's section is an inherited name |
| JsReport.CollectKeepsEveryRecord | functions/submit.js:32-36 | on success every answer key gives one record, under distinct section names |
| JsReport.AveragesSpec | functions/submit.js:47-54 | an average is listed exactly for a section with a counted score, and it is the mean of those scores |
| JsReport.AveragesInOrder | functions/submit.js:47-54 | the averages keep the order of the sections |
| JsReport.AverageLines | functions/submit.js:111-113 | one line per average |
| JsReport.AverageLinesSpec | functions/submit.js:111-113 | the averages page has exactly one `"<section>: <avg>/5"` line per section with a counted score |
| JsReport.GroupLinesSize | functions/submit.js:90-97 | a section's records take three lines each |
| JsReport.SectionLinesSize | functions/submit.js:84-100 | the answers part has one heading per section and three lines per record |
| JsReport.SectionLinesOfForm | functions/submit.js:84-100 | the PDF has one heading per distinct section and three lines per answer key |
| JsMail.ItemsLines | netlify/functions/submit.js:50-54 | four lines per item |
| JsMail.HeaderTextLines | netlify/functions/submit.js:43-48 | the header text is the title, `Naam`, `Bedrijf`, `Email` and `Telefoon` lines in that order, then the marker |
| JsMail.ItemTextLines | netlify/functions/submit.js:51-53 | an item's text is its `Vraag`, `Antwoord` and `Cijfer` lines and an empty one |
| JsMail.ItemsTextLines | netlify/functions/submit.js:50-54 | the items' text is the lines of each item, in item order |
| JsMail.EmailBodyLines | netlify/functions/submit.js:43-54 | the body is the header lines followed by four lines per item, in item order |
| JsMail.EmailBodySplit | netlify/functions/submit.js:43-54 | when no field holds a newline, splitting the body into lines gives exactly those lines |
| JsMail.ItemsLinesAt | netlify/functions/submit.js:50-54 | item `i` is lines `4i` to `4i + 3` of the item part |
| Mail.EmailSent | app.py:436-462 | the mail only counts as sent with user, password and a non-empty recipient, and when sending did not throw |
| Mail.EmailSentIff | netlify/functions/submit.js:64-72 | the mail is sent exactly when user and password are set, the `email` field is not empty and sending does not throw |
| Reports.AllScoresEmpty | app.py:468-472 | the flat score list is empty exactly when every item's score is `"-"` |
| Reports.AppSubmit | app.py:328-478 | a preflight gets 204; a post gets 500 with the `OverflowError` message exactly when some section average overflows, and otherwise 200 with `email_sent` and an average that is `""` exactly when no item is scored |
| Reports.NetlifyPySubmit | netlify/functions/submit.py:186-340 | a preflight gets 200; a post gets the status of the Flask route, the same error body on 500, and on 200 only the route's `email_sent`, without the average |
| Reports.JsSubmit | functions/submit.js:13-181 | a preflight gets 200; otherwise 200, or 500 with an error message |
| Reports.NetlifyJsSubmit | netlify/functions/submit.js:12-78 | always 200; a post reports `email_sent` |
| Reports.AppTotalIsFlatMean | app.py:467-474 | an average is reported exactly when no section average overflows, and it is the flat mean over the groups' scored items |
| Reports.PythonHandlersAgree | netlify/functions/submit.py:323-340 | the two Python handlers give every post the same status, the same error on 500 and the same `email_sent` on 200; only `app.py` answers a preflight with 204 |
| Reports.CollectRowsError | functions/submit.js:36 | every failure of the loop is the `TypeError` of `.push` |
| Reports.JsSubmitFails | functions/submit.js:174-181 | 500 exactly when some answer key's section is an inherited name, with the `TypeError`; otherwise the same answer as netlify/functions/submit.js |
| Reports.NoAnswers | app.py:337-404 | a form without answers gets 200 with no average, no section and no radar chart, and the JavaScript loop collects nothing |
| Reports.ScenarioItems | app.py:337-350 | blocks T1 (score 4) and T2 (score 2) give the items `(q1, a1, T1, "4")` and `(q2, a2, T2, "2")` |
| Reports.ScenarioTotal | app.py:467-469 | those items average to 3 |
| Reports.ScenarioAnswer | app.py:467-474 | the handler answers that form with 200 and the average 3 |
| Reports.ScenarioNoOverflow | app.py:389 | the section averages of that form do not overflow |
| Reports.ScenarioRadar | app.py:374-404 | the radar sections are T1 and T2 with values 4 and 2, whose lights are green and red |

## Left out

- HTTP plumbing is not modelled: Flask and Netlify routing, CORS headers and
  JSON parsing. A request is a preflight or an already-parsed form.
- The form is a list of string pairs with distinct keys, as a parsed JSON
  object has. With repeated keys the model takes the first pair, while
  `json.loads` and `JSON.parse` keep the last.
- Non-string JSON values, and `request.json` not being an object, are not
  modelled. The page only sends strings.
- The other 500 answers of the Python handlers are not modelled. They are
  reached through such inputs or through failures inside FPDF, matplotlib
  or the file system. The 500 of a section average that overflows is
  modelled.
- Reports.JsSubmitFails: the 500 that `functions/submit.js` answers when the
  pdfkit or file stream reports an error (functions/submit.js:126-129) is
  not modelled, because the stream is outside the model. The lemma's "500
  exactly when" holds for a stream that finishes.
- The error text of the JavaScript `TypeError` is the constant `TypeError`.
  The engine's own message is not modelled.
- Mail transport (SMTP, MIME, nodemailer) is not modelled. Whether sending
  throws is an input, and the CC address, the subject and the Python mail
  text are left out.
- Font and image fetching are inputs:
  - `ensure_unicode_fonts` is the `unicodeOk` flag;
  - `ensure_model_image` is an optional image size.
- Drawing (FPDF, pdfkit, matplotlib) is not modelled. The model keeps only
  the computed geometry, with an abstract per-character width in place of
  `get_string_width`.
- Colours, shadows, halos, line widths, the score label text and DPI are left
  out.
- The PDF's header, the metadata block, the section and table headers, and
  page breaks are left out. The "Vragen en antwoorden" heading (app.py:372)
  is printed even for a form without answers. `app.py` turns on FPDF's
  automatic page break (app.py:355) and never keeps a row together itself;
  the model has no page break.
- Rounding is not modelled: `round(..., 2)`, `toFixed(1)` (the `fixed1`
  parameter) and `f"{score:.1f}"`. Averages are exact reals, and floating
  point is not modelled. Only the overflow of the section average's
  `int / int` is modelled. The overall average is a mean of `float(c)`
  values (app.py:468-469), where a score beyond the double range becomes
  `inf` rather than an error, and the model reports the exact mean there.
- Clock values (`datetime.now`, `new Date()`) are left out.
- JavaScript's reordering of integer-like object keys is not modelled: keys
  keep insertion order.
- Python's 4300-digit conversion limit, JavaScript's rounding of long digit
  strings, and non-ASCII decimal digits in `int()` are left out.
- `str.lower()` is modelled for ASCII and Latin-1 letters only.
- The unused `line_h` parameter of `_nb_lines` is left out.
- `script.js` beyond its field-naming convention is not modelled, and
  neither are `Frontend/script.js`, `Backend/app.py` and
  `gunicorn_config.py`.
- Wrap.FittingParagraphOneLine: proved only for single-spaced plain words.
  This is the scope of the proof, not a limit of the code. With runs of
  spaces or edge whitespace, `strip()` and the empty words only delete
  characters, so each measured text stays a subsequence of the paragraph.
  With non-negative widths it is then no wider, and a fitting paragraph
  still counts one line. That case is not part of the lemma.
- Wrap.NbLinesFittingWords: holds only with the Unicode fonts loaded, because
  in the fallback mode the sanitised text may measure differently.
- Wrap.AnswerCellLines: holds only with the Unicode fonts loaded, for the
  same reason.
- Rows.ShortRow: holds only with the Unicode fonts loaded, for the same
  reason.

=== FILE: aggregation.dfy ===
/** Grouping and averages in the two Python handlers: the per-section
    averages of the radar chart (app.py:366-391, the same as
    netlify/functions/submit.py:231-257) and the overall average of app.py
    (lines 468-472). */
module Aggregation {
  import opened Wrappers
  import opened Numerals
  import opened Grouping
  import opened Stats
  import opened PyItems

  /** `(v, a, c)`: what a group keeps of an item. */
  type PyRow = (string, string, string)

  /** The `(sect, (v, a, c))` pairs the grouping loop reads. */
  function GroupRows(items: seq<Item>): seq<(string, PyRow)> {
    seq(|items|, i requires 0 <= i < |items| =>
      (items[i].section, (items[i].question, items[i].answer, items[i].score)))
  }

  /** `grouped`. */
  function Grouped(items: seq<Item>): Groups<PyRow> {
    GroupBy(GroupRows(items))
  }

  /** `int(cust)` for a score other than `"-"`; `None` where `int` raises
      and the `except` passes. */
  function ScoreOf(c: string): (r: Option<int>)
    ensures c == "-" ==> r.None?
    ensures c != "-" ==> r == ParsePyInt(c)
    ensures IsScoreText(c) ==> (r.Some? <==> c != "-") && (r.Some? ==> IntToString(r.value) == c)
  {
    if c != "-" then ParsePyInt(c) else None
  }

  /** `cust_scores` of one group. */
  function Scores(rows: seq<PyRow>): seq<int>
    decreases |rows|
  {
    if |rows| == 0 then []
    else Scores(rows[..|rows| - 1]) + (if ScoreOf(rows[|rows| - 1].2).Some? then [ScoreOf(rows[|rows| - 1].2).value] else [])
  }

  /** A group's average from its weights: the sum of its scores over their
      number, or the sentinel 0 for a group without a score. */
  function GroupMean(rows: seq<PyRow>): real {
    var n := SumBy(rows, CountWeight);
    if n > 0 then SumBy(rows, ScoreWeight) as real / n as real else 0.0
  }

  /** 2^1024 - 2^970, written in hex: the smallest quotient magnitude that
      Python's correctly rounded `int / int` cannot return. Such a quotient
      rounds to 2^1024, beyond the largest double 2^1024 - 2^971, and the
      division raises `OverflowError`. */
  const DivisionOverflow: int :=
    0xFFFFFFFFFFFFFC00_0000000000000000_0000000000000000_0000000000000000_0000000000000000_0000000000000000_0000000000000000_0000000000000000_0000000000000000_0000000000000000_0000000000000000_0000000000000000_0000000000000000_0000000000000000_0000000000000000_0000000000000000

  /** `sum(cust_scores) / len(cust_scores)` at app.py:389 raises
      `OverflowError`: the group has a score, and the sum is at least
      DivisionOverflow times the count in magnitude. */
  predicate MeanOverflows(rows: seq<PyRow>) {
    var n := SumBy(rows, CountWeight);
    var s := SumBy(rows, ScoreWeight);
    n > 0 && (if s < 0 then -s else s) >= DivisionOverflow * n
  }

  /** Some section's average overflows, so the section loop of app.py
      (and of netlify/functions/submit.py) stops with `OverflowError`. */
  predicate SomeMeanOverflows(g: Groups<PyRow>) {
    exists i :: 0 <= i < |g| && MeanOverflows(g[i].1)
  }

  /** The division overflows exactly when the group has a score and its
      mean is DivisionOverflow or more in magnitude. */
  lemma MeanOverflowsMeaning(rows: seq<PyRow>)
    ensures MeanOverflows(rows) <==>
      SumBy(rows, CountWeight) > 0 &&
      (GroupMean(rows) >= DivisionOverflow as real || GroupMean(rows) <= -DivisionOverflow as real)
  {
    var n := SumBy(rows, CountWeight);
    if n > 0 {
      QuotientAtLeast(SumBy(rows, ScoreWeight), n, DivisionOverflow);
    }
  }

  /** For a positive divisor, the quotient is `t` or more in magnitude
      exactly when the dividend is `t` times the divisor or more. */
  lemma QuotientAtLeast(s: int, n: int, t: int)
    requires n > 0 && t >= 0
    ensures (if s < 0 then -s else s) >= t * n <==>
      (s as real / n as real >= t as real || s as real / n as real <= -t as real)
  {
    var m := s as real / n as real;
    assert m * n as real == s as real;
    assert (t * n) as real == t as real * n as real;
    MultiplyBoth(m, t as real, n as real);
    MultiplyBoth(-m, t as real, n as real);
  }

  /** Multiplying by a positive number keeps `>=` in both directions. */
  lemma MultiplyBoth(a: real, b: real, c: real)
    requires c > 0.0
    ensures a >= b <==> a * c >= b * c
  {
    if a >= b {
      assert (a - b) * c >= 0.0;
    } else {
      assert (b - a) * c > 0.0;
    }
  }

  /** The sum of a group's score weights stays within its count times a
      bound that every single score stays within. */
  lemma {:induction false} ScoreSumBound(rows: seq<PyRow>, b: int)
    requires b >= 0
    requires forall i :: 0 <= i < |rows| ==> -b <= ScoreWeight(rows[i]) <= b
    ensures var n := SumBy(rows, CountWeight);
      -(b * n) <= SumBy(rows, ScoreWeight) <= b * n
    decreases |rows|
  {
    if |rows| > 0 {
      var init := rows[..|rows| - 1];
      assert forall i :: 0 <= i < |init| ==> init[i] == rows[i];
      ScoreSumBound(init, b);
      var n0 := SumBy(init, CountWeight);
      var c := CountWeight(rows[|rows| - 1]);
      assert b * (n0 + c) == b * n0 + b * c;
    }
  }

  /** A section of one row with a small score does not overflow. */
  lemma OneRowNoOverflow(r: PyRow, v: int)
    requires ScoreOf(r.2) == Some(v) && -DivisionOverflow < v < DivisionOverflow
    ensures !MeanOverflows([r])
  {
    SmallScoresNoOverflow([r]);
  }

  /** A group whose every score is smaller than DivisionOverflow in
      magnitude has an average Python can divide out. */
  lemma SmallScoresNoOverflow(rows: seq<PyRow>)
    requires forall i :: 0 <= i < |rows| ==>
      -DivisionOverflow < ScoreWeight(rows[i]) < DivisionOverflow
    ensures !MeanOverflows(rows)
  {
    var b := DivisionOverflow - 1;
    ScoreSumBound(rows, b);
    var n := SumBy(rows, CountWeight);
    if n > 0 {
      assert b * n < DivisionOverflow * n;
    }
  }

  /** `subj_avg` before rounding: the mean of `cust_scores`, or 0 when the
      list is empty; that is the group's weighted average. */
  function SubjectAverage(rows: seq<PyRow>): (r: real)
    ensures r == GroupMean(rows)
  {
    var xs := Scores(rows);
    ScoresWeights(rows);
    if |xs| > 0 then Mean(xs) else 0.0
  }

  /** `radar_vals`: one value per group, in group order, each the group's
      weighted average. */
  function RadarValues(g: Groups<PyRow>): (r: seq<real>)
    ensures |r| == |g|
    ensures forall i :: 0 <= i < |g| ==> r[i] == GroupMean(g[i].1)
  {
    seq(|g|, i requires 0 <= i < |g| => SubjectAverage(g[i].1))
  }

  /** `all_cust_scores`: `float(c)` of every item whose score is not `"-"`.
      Extraction only stores `"-"` or a printed integer, so `float` and
      `int` agree and never raise. */
  function AllScores(items: seq<Item>): seq<int>
    requires forall i :: 0 <= i < |items| ==> IsScoreText(items[i].score)
    decreases |items|
  {
    if |items| == 0 then []
    else
      var c := items[|items| - 1].score;
      assert IsScoreText(c);
      AllScores(items[..|items| - 1]) + (if c != "-" then [ParsePyInt(c).value] else [])
  }

  /** `total_score_customer` before rounding; `None` stands for `""`. */
  function Total(items: seq<Item>): Option<real>
    requires forall i :: 0 <= i < |items| ==> IsScoreText(items[i].score)
  {
    var xs := AllScores(items);
    if |xs| > 0 then Some(Mean(xs)) else None
  }

  // The weights whose group sums make up the averages.

  function ScoreWeight(r: PyRow): int {
    ScoreOf(r.2).GetOr(0)
  }

  function CountWeight(r: PyRow): int {
    if ScoreOf(r.2).Some? then 1 else 0
  }

  /** A group's scores sum to its score weight and count its count weight. */
  lemma {:induction false} ScoresWeights(rows: seq<PyRow>)
    ensures Sum(Scores(rows)) == SumBy(rows, ScoreWeight)
    ensures |Scores(rows)| == SumBy(rows, CountWeight)
    decreases |rows|
  {
    if |rows| > 0 {
      var init := rows[..|rows| - 1];
      ScoresWeights(init);
      var tail := if ScoreOf(rows[|rows| - 1].2).Some? then [ScoreOf(rows[|rows| - 1].2).value] else [];
      SumAppend(Scores(init), tail);
    }
  }

  /** The flat list of scores is the rows' weights, summed over the items. */
  lemma {:induction false} AllScoresWeights(items: seq<Item>)
    requires forall i :: 0 <= i < |items| ==> IsScoreText(items[i].score)
    ensures Sum(AllScores(items)) == SumBy(Values(GroupRows(items)), ScoreWeight)
    ensures |AllScores(items)| == SumBy(Values(GroupRows(items)), CountWeight)
    decreases |items|
  {
    if |items| > 0 {
      var n := |items|;
      var init := items[..n - 1];
      var vs := Values(GroupRows(items));
      assert vs[..n - 1] == Values(GroupRows(init));
      AllScoresWeights(init);
      var c := items[n - 1].score;
      WeightsOfLast(items);
      if c != "-" {
        assert ParsePyInt(c).Some?;
        SumAppend(AllScores(init), [ParsePyInt(c).value]);
      } else {
        assert AllScores(items) == AllScores(init);
      }
    }
  }

  /** The last item adds its row's weights once. */
  lemma WeightsOfLast(items: seq<Item>)
    requires |items| > 0
    ensures var vs, it := Values(GroupRows(items)), items[|items| - 1];
      && SumBy(vs, ScoreWeight) == SumBy(vs[..|vs| - 1], ScoreWeight) + ScoreOf(it.score).GetOr(0)
      && SumBy(vs, CountWeight) == SumBy(vs[..|vs| - 1], CountWeight) + (if ScoreOf(it.score).Some? then 1 else 0)
  {
    var vs, n := Values(GroupRows(items)), |items|;
    assert vs[n - 1] == (items[n - 1].question, items[n - 1].answer, items[n - 1].score);
  }

  /** The overall average is the flat mean over every scored item: the sum of
      the group sums over the number of scored items, not a mean of the
      group averages. It is absent exactly when no item has a score. */
  lemma TotalIsFlatMean(items: seq<Item>)
    requires forall i :: 0 <= i < |items| ==> IsScoreText(items[i].score)
    ensures var g := Grouped(items);
      && (Total(items).Some? <==> GroupsSumBy(g, CountWeight) > 0)
      && (Total(items).Some? ==>
        Total(items).value == GroupsSumBy(g, ScoreWeight) as real / GroupsSumBy(g, CountWeight) as real)
  {
    AllScoresWeights(items);
    GroupBySumBy(GroupRows(items), ScoreWeight);
    GroupBySumBy(GroupRows(items), CountWeight);
  }

  /** An item without a score changes a radar value to nothing and the
      overall average not at all. */
  lemma TotalIgnoresUnscored(items: seq<Item>, it: Item)
    requires forall i :: 0 <= i < |items| ==> IsScoreText(items[i].score)
    requires it.score == "-"
    ensures forall i :: 0 <= i < |items + [it]| ==> IsScoreText((items + [it])[i].score)
    ensures Total(items + [it]) == Total(items)
  {
    var all := items + [it];
    assert all[..|all| - 1] == items;
    assert AllScores(all) == AllScores(items);
  }

  /** The radar sections are the item sections in first-seen order, and each
      group holds exactly the rows of its section, in item order. */
  lemma RadarSectionsFirstSeen(items: seq<Item>)
    ensures Names(Grouped(items)) == FirstSeen(Names(GroupRows(items)))
    ensures Distinct(Names(Grouped(items)))
    ensures forall i :: 0 <= i < |Grouped(items)| ==>
      Grouped(items)[i].1 == Members(GroupRows(items), Grouped(items)[i].0)
  {
    GroupByIsReference(GroupRows(items));
    GroupByNames(GroupRows(items));
  }

  /** With scores from 1 to 5 a group average is 0 (no score) or lies in
      [1, 5]. */
  lemma SubjectAverageRange(rows: seq<PyRow>)
    requires forall i :: 0 <= i < |Scores(rows)| ==> 1 <= Scores(rows)[i] <= 5
    ensures SubjectAverage(rows) == 0.0 || 1.0 <= SubjectAverage(rows) <= 5.0
  {
    if |Scores(rows)| > 0 {
      MeanBounds(Scores(rows), 1, 5);
    }
  }

  // Small cases, stated over variables so that concrete examples only
  // instantiate them.

  /** A scored item adds its score at the end of the flat list. */
  lemma AllScoresSnoc(items: seq<Item>, it: Item)
    requires forall i :: 0 <= i < |items| ==> IsScoreText(items[i].score)
    requires IsScoreText(it.score) && it.score != "-"
    ensures forall i :: 0 <= i < |items + [it]| ==> IsScoreText((items + [it])[i].score)
    ensures AllScores(items + [it]) == AllScores(items) + [ParsePyInt(it.score).value]
  {
    assert (items + [it])[..|items|] == items;
  }

  /** Two items of different sections open a group each. */
  lemma GroupedSeparate(a: Item, b: Item)
    requires a.section != b.section
    ensures Grouped([a, b]) ==
      [(a.section, [(a.question, a.answer, a.score)]), (b.section, [(b.question, b.answer, b.score)])]
  {
    var ra: PyRow, rb: PyRow := (a.question, a.answer, a.score), (b.question, b.answer, b.score);
    var rows := GroupRows([a, b]);
    assert rows == [(a.section, ra), (b.section, rb)];
    assert rows[..1] == [(a.section, ra)] && rows[..1][..0] == [];
    var none: Groups<PyRow> := [];
    AddRowNew(none, a.section, ra);
    var g1 := [(a.section, [ra])];
    assert GroupBy(rows[..1]) == g1;
    assert Names(g1) == [a.section];
    AddRowNew(g1, b.section, rb);
  }

  lemma GroupRowsSnoc(items: seq<Item>, it: Item)
    ensures GroupRows(items + [it]) == GroupRows(items) + [(it.section, (it.question, it.answer, it.score))]
  {
  }

  /** An item at the end is one more `setdefault(...).append(...)`. */
  lemma GroupedSnoc(items: seq<Item>, it: Item)
    ensures Grouped(items + [it]) == AddRow(Grouped(items), it.section, (it.question, it.answer, it.score))
  {
    GroupRowsSnoc(items, it);
    GroupBySnoc(GroupRows(items), (it.section, (it.question, it.answer, it.score)));
  }

  lemma GroupedThird(a: Item, b: Item, c: Item)
    ensures Grouped([a, b, c]) == AddRow(Grouped([a, b]), c.section, (c.question, c.answer, c.score))
  {
    var ab := [a, b];
    assert ab + [c] == [a, b, c];
    GroupedSnoc(ab, c);
  }

  /** A third item of the second item's section joins its group. */
  lemma GroupedThenSame(a: Item, b: Item, c: Item)
    requires a.section != b.section && b.section == c.section
    ensures Grouped([a, b, c]) ==
      [(a.section, [(a.question, a.answer, a.score)]),
       (b.section, [(b.question, b.answer, b.score), (c.question, c.answer, c.score)])]
  {
    GroupedSeparate(a, b);
    GroupedThird(a, b, c);
    AddRowSecondOfTwo(a.section, b.section,
      (a.question, a.answer, a.score), (b.question, b.answer, b.score), (c.question, c.answer, c.score));
  }

  /** A scored row adds its score at the end of the group's scores. */
  lemma ScoresSnoc(rows: seq<PyRow>, r: PyRow, n: int)
    requires ScoreOf(r.2) == Some(n)
    ensures Scores(rows + [r]) == Scores(rows) + [n]
  {
    assert (rows + [r])[..|rows|] == rows;
  }

  lemma AverageOfOne(r: PyRow, n: int)
    requires ScoreOf(r.2) == Some(n)
    ensures SubjectAverage([r]) == n as real
  {
    var none: seq<PyRow> := [];
    ScoresSnoc(none, r, n);
    assert none + [r] == [r];
    assert Sum([n]) == n by {
      assert [n][..0] == [];
    }
  }

  lemma AverageOfTwo(r1: PyRow, r2: PyRow, n1: int, n2: int)
    requires ScoreOf(r1.2) == Some(n1) && ScoreOf(r2.2) == Some(n2)
    ensures SubjectAverage([r1, r2]) == (n1 + n2) as real / 2.0
  {
    var none: seq<PyRow> := [];
    ScoresSnoc(none, r1, n1);
    assert none + [r1] == [r1];
    ScoresSnoc([r1], r2, n2);
    assert [r1] + [r2] == [r1, r2];
    var xs := [n1, n2];
    assert Sum(xs) == n1 + n2 by {
      assert xs[..1] == [n1] && [n1][..0] == [];
      assert Sum([n1]) == n1;
    }
    assert Scores([r1, r2]) == xs;
  }

  /** Section A with score 1, section B with scores 2 and 3. */
  const Example: seq<Item> := [Item("q1", "", "A", "1"), Item("q2", "", "B", "2"), Item("q3", "", "B", "3")]

  lemma ExampleParses()
    ensures ParsePyInt("1") == Some(1) && ParsePyInt("2") == Some(2) && ParsePyInt("3") == Some(3)
    ensures forall i :: 0 <= i < |Example| ==> IsScoreText(Example[i].score)
  {
    ParseIntToString(1);
    ParseIntToString(2);
    ParseIntToString(3);
    assert IntToString(1) == "1" && IntToString(2) == "2" && IntToString(3) == "3";
  }

  /** Three scored items give their three scores, in order. */
  lemma AllScoresOfThree(a: Item, b: Item, c: Item, x: int, y: int, z: int)
    requires IsScoreText(a.score) && IsScoreText(b.score) && IsScoreText(c.score)
    requires a.score != "-" && b.score != "-" && c.score != "-"
    requires ParsePyInt(a.score) == Some(x) && ParsePyInt(b.score) == Some(y) && ParsePyInt(c.score) == Some(z)
    ensures AllScores([a, b, c]) == [x, y, z]
  {
    var none: seq<Item> := [];
    AllScoresSnoc(none, a);
    assert none + [a] == [a];
    AllScoresSnoc([a], b);
    assert [a] + [b] == [a, b];
    AllScoresSnoc([a, b], c);
    assert [a, b] + [c] == [a, b, c];
  }

  lemma SumOfThree(x: int, y: int, z: int)
    ensures Sum([x, y, z]) == x + y + z
  {
    assert [x, y, z][..2] == [x, y] && [x, y][..1] == [x] && [x][..0] == [];
    assert Sum([x]) == x;
    assert Sum([x, y]) == x + y;
  }

  lemma ExampleTotal()
    ensures forall i :: 0 <= i < |Example| ==> IsScoreText(Example[i].score)
    ensures Total(Example) == Some(2.0)
  {
    ExampleParses();
    assert Example == [Example[0], Example[1], Example[2]];
    AllScoresOfThree(Example[0], Example[1], Example[2], 1, 2, 3);
    SumOfThree(1, 2, 3);
  }

  lemma RadarValuesOfTwo(g: Groups<PyRow>)
    requires |g| == 2
    ensures RadarValues(g) == [SubjectAverage(g[0].1), SubjectAverage(g[1].1)]
  {
  }

  lemma ExampleRadar()
    ensures RadarValues(Grouped(Example)) == [1.0, 2.5]
  {
    ExampleParses();
    var i1, i2, i3 := Example[0], Example[1], Example[2];
    assert Example == [i1, i2, i3];
    GroupedThenSame(i1, i2, i3);
    var r1: PyRow, r2: PyRow, r3: PyRow := ("q1", "", "1"), ("q2", "", "2"), ("q3", "", "3");
    assert ScoreOf(r1.2) == Some(1) && ScoreOf(r2.2) == Some(2) && ScoreOf(r3.2) == Some(3);
    AverageOfOne(r1, 1);
    AverageOfTwo(r2, r3, 2, 3);
    RadarValuesOfTwo(Grouped(Example));
  }

  /** On the example the overall average is 2, while the mean of the two
      group averages, 1 and 2.5, is 1.75. */
  lemma MeanOfMeansDiffers()
    ensures forall i :: 0 <= i < |Example| ==> IsScoreText(Example[i].score)
    ensures Total(Example) == Some(2.0)
    ensures RadarValues(Grouped(Example)) == [1.0, 2.5]
    ensures (RadarValues(Grouped(Example))[0] + RadarValues(Grouped(Example))[1]) / 2.0 != Total(Example).value
  {
    ExampleTotal();
    ExampleRadar();
  }
}

=== FILE: form.dfy ===
/** The submitted form as the handlers receive it: string keys with string
    values, in the order the browser's `FormData` listed them
    (script.js:146-147), and the naming convention `makeQuestion` uses for
    the fields of one question (script.js:78-98). */
module Form {
  import opened Wrappers
  import opened Text
  import opened Numerals

  /** The parsed JSON body: key/value pairs in insertion order. */
  type Fields = seq<(string, string)>

  const AnswerSuffix: string := "_answer"
  const LabelSuffix: string := "_label"
  const ScoreSuffix: string := "_customer_score"

  /** Property access `data[key]`: the value of the first pair with that key. */
  function Get(f: Fields, key: string): (r: Option<string>)
    ensures r.Some? ==> (key, r.value) in f
    ensures r.None? <==> forall i :: 0 <= i < |f| ==> f[i].0 != key
    decreases |f|
  {
    if |f| == 0 then None
    else if f[0].0 == key then Some(f[0].1)
    else Get(f[1..], key)
  }

  /** Python `data.get(key, default)`: an empty string is kept. */
  function PyGet(f: Fields, key: string, default: string): string {
    Get(f, key).GetOr(default)
  }

  /** JavaScript `data[key] || default`: the value of the first pair with
      the key unless it is empty; the default when it is empty or no pair
      has the key. */
  function JsOr(f: Fields, key: string, default: string): (r: string)
    ensures forall i :: FirstWithKey(f, key, i) ==> r == (if f[i].1 != "" then f[i].1 else default)
    ensures (forall i :: 0 <= i < |f| ==> f[i].0 != key) ==> r == default
    ensures Get(f, key).Some? && Get(f, key).value != "" ==> r == Get(f, key).value
    ensures Get(f, key).None? || Get(f, key) == Some("") ==> r == default
  {
    GetIsFirst(f, key);
    match Get(f, key)
    case Some(v) => if v != "" then v else default
    case None => default
  }

  /** `${data[key]}` in a JavaScript template literal. */
  function JsTemplate(f: Fields, key: string): string {
    match Get(f, key)
    case Some(v) => v
    case None => "undefined"
  }

  /** The first pair with key `key`, when there is one. */
  predicate FirstWithKey(f: Fields, key: string, i: int) {
    0 <= i < |f| && f[i].0 == key && forall j :: 0 <= j < i ==> f[j].0 != key
  }

  /** `Get` finds the value of the first pair with the key, and nothing
      exactly when no pair has it. */
  lemma {:induction false} GetIsFirst(f: Fields, key: string)
    ensures Get(f, key).Some? <==> exists i :: FirstWithKey(f, key, i)
    ensures forall i :: FirstWithKey(f, key, i) ==> Get(f, key) == Some(f[i].1)
    decreases |f|
  {
    if |f| > 0 && f[0].0 != key {
      GetIsFirst(f[1..], key);
      forall i | FirstWithKey(f, key, i)
        ensures FirstWithKey(f[1..], key, i - 1)
      {
        assert i > 0;
      }
      if Get(f, key).Some? {
        var i :| FirstWithKey(f[1..], key, i);
        assert FirstWithKey(f, key, i + 1);
      }
    } else if |f| > 0 {
      assert FirstWithKey(f, key, 0);
    }
  }

  /** The keys that end in `_answer`, in insertion order. */
  function AnswerKeys(f: Fields): (r: seq<string>)
    ensures forall i :: 0 <= i < |r| ==> EndsWith(r[i], AnswerSuffix)
    decreases |f|
  {
    if |f| == 0 then []
    else (if EndsWith(f[0].0, AnswerSuffix) then [f[0].0] else []) + AnswerKeys(f[1..])
  }

  /** `k[:-7]` in Python and `key.slice(0, -7)` in JavaScript. */
  function Prefix(k: string): (p: string)
    requires EndsWith(k, AnswerSuffix)
    ensures p + AnswerSuffix == k
  {
    k[..|k| - |AnswerSuffix|]
  }

  /** The answer keys are exactly the form's keys that end in `_answer`. */
  lemma {:induction false} AnswerKeysMembers(f: Fields)
    ensures forall k :: k in AnswerKeys(f) <==> EndsWith(k, AnswerSuffix) && exists i :: 0 <= i < |f| && f[i].0 == k
    decreases |f|
  {
    if |f| > 0 {
      AnswerKeysMembers(f[1..]);
      assert forall i :: 1 <= i < |f| ==> f[1..][i - 1] == f[i];
      forall k | EndsWith(k, AnswerSuffix) && (exists i :: 0 <= i < |f| && f[i].0 == k)
        ensures k in AnswerKeys(f)
      {
        var i :| 0 <= i < |f| && f[i].0 == k;
        if i > 0 {
          assert f[1..][i - 1].0 == k;
        }
      }
    }
  }

  lemma {:induction false} AnswerKeysAppend(f: Fields, g: Fields)
    ensures AnswerKeys(f + g) == AnswerKeys(f) + AnswerKeys(g)
    decreases |f|
  {
    if |f| == 0 {
      assert f + g == g;
    } else {
      assert (f + g)[1..] == f[1..] + g;
      AnswerKeysAppend(f[1..], g);
    }
  }

  lemma {:induction false} GetAppend(f: Fields, g: Fields, key: string)
    ensures Get(f + g, key) == if Get(f, key).Some? then Get(f, key) else Get(g, key)
    decreases |f|
  {
    if |f| == 0 {
      assert f + g == g;
    } else {
      assert (f + g)[1..] == f[1..] + g;
      GetAppend(f[1..], g, key);
    }
  }

  /** One question block of the questionnaire page. */
  datatype Question = Question(section: string, index: nat, qText: string, answer: string, score: Option<string>)

  /** `baseName` in `makeQuestion`: `${section}_${index}`. */
  function BaseName(q: Question): string {
    q.section + "_" + NatToString(q.index)
  }

  /** The fields one block contributes, in document order: the textarea,
      the hidden label and, when a dot was clicked, the radio group. */
  function QuestionFields(q: Question): (r: Fields)
    ensures |r| == if q.score.Some? then 3 else 2
  {
    [(BaseName(q) + AnswerSuffix, q.answer), (BaseName(q) + LabelSuffix, q.qText)]
    + (if q.score.Some? then [(BaseName(q) + ScoreSuffix, q.score.value)] else [])
  }

  /** The question fields of a whole questionnaire, block after block. */
  function QuestionForm(qs: seq<Question>): Fields
    decreases |qs|
  {
    if |qs| == 0 then [] else QuestionForm(qs[..|qs| - 1]) + QuestionFields(qs[|qs| - 1])
  }

  /** No two blocks share a section and an index. */
  predicate DistinctBlocks(qs: seq<Question>) {
    forall i, j :: 0 <= i < j < |qs| ==> (qs[i].section, qs[i].index) != (qs[j].section, qs[j].index)
  }

  /** A key that can belong to none of the three question fields. */
  predicate IsOtherKey(k: string) {
    !EndsWith(k, AnswerSuffix) && !EndsWith(k, LabelSuffix) && !EndsWith(k, ScoreSuffix)
  }

  /** Different blocks get different base names, since an index prints
      without `_` and is read back as a number. */
  lemma BaseNameInjective(p: Question, q: Question)
    requires BaseName(p) == BaseName(q)
    ensures p.section == q.section && p.index == q.index
  {
    var dp, dq := NatToString(p.index), NatToString(q.index);
    assert '_' !in dp && '_' !in dq;
    assert BaseName(p) == p.section + ['_'] + dp;
    assert BaseName(q) == q.section + ['_'] + dq;
    RSplitHeadOf(p.section, '_', dp);
    RSplitHeadOf(q.section, '_', dq);
    var n := |BaseName(p)|;
    assert dp == BaseName(p)[|p.section| + 1..];
    assert dq == BaseName(q)[|q.section| + 1..];
    NatToStringValue(p.index);
    NatToStringValue(q.index);
  }

  /** Appending the same suffix keeps keys apart and together. */
  lemma SuffixCancel(a: string, b: string, suf: string)
    ensures a + suf == b + suf <==> a == b
  {
    if a + suf == b + suf {
      assert a == (a + suf)[..|a|];
      assert b == (b + suf)[..|b|];
    }
  }

  /** The answer, label and score suffixes end in different characters, so
      a key carries at most one of them. */
  lemma SuffixesDiffer(base: string, other: string)
    ensures !EndsWith(base + LabelSuffix, AnswerSuffix) && !EndsWith(base + ScoreSuffix, AnswerSuffix)
    ensures base + AnswerSuffix != other + LabelSuffix && base + AnswerSuffix != other + ScoreSuffix
    ensures base + LabelSuffix != other + ScoreSuffix
    ensures EndsWith(base + AnswerSuffix, AnswerSuffix)
  {
    var a, l, s := base + AnswerSuffix, base + LabelSuffix, base + ScoreSuffix;
    assert a[|a| - 1] == 'r' && l[|l| - 1] == 'l' && s[|s| - 1] == 'e';
    assert (other + LabelSuffix)[|other + LabelSuffix| - 1] == 'l';
    assert (other + ScoreSuffix)[|other + ScoreSuffix| - 1] == 'e';
    assert a[|a| - |AnswerSuffix|..] == AnswerSuffix;
  }

  lemma GetCons(k: string, v: string, rest: Fields, key: string)
    ensures Get([(k, v)] + rest, key) == if k == key then Some(v) else Get(rest, key)
  {
    assert ([(k, v)] + rest)[1..] == rest;
  }

  /** The fields of one block, split into the answer, the label and the
      optional score part. */
  lemma BlockShape(q: Question)
    ensures QuestionFields(q) == [(BaseName(q) + AnswerSuffix, q.answer)]
      + ([(BaseName(q) + LabelSuffix, q.qText)] + ScoreTail(q))
  {
  }

  function ScoreTail(q: Question): Fields {
    if q.score.Some? then [(BaseName(q) + ScoreSuffix, q.score.value)] else []
  }

  /** A block holds no key built on another base name. */
  lemma GetBlockOtherBase(q: Question, base: string, suf: string)
    requires BaseName(q) != base && suf in {AnswerSuffix, LabelSuffix, ScoreSuffix}
    ensures Get(QuestionFields(q), base + suf) == None
  {
    var b, key := BaseName(q), base + suf;
    SuffixCancel(b, base, suf);
    SuffixesDiffer(b, base);
    SuffixesDiffer(base, b);
    BlockShape(q);
    GetCons(b + AnswerSuffix, q.answer, [(b + LabelSuffix, q.qText)] + ScoreTail(q), key);
    GetCons(b + LabelSuffix, q.qText, ScoreTail(q), key);
    if q.score.Some? {
      GetCons(b + ScoreSuffix, q.score.value, [], key);
    }
  }

  /** A block's own keys give its answer, text and score. */
  lemma GetBlockOwn(q: Question)
    ensures Get(QuestionFields(q), BaseName(q) + AnswerSuffix) == Some(q.answer)
    ensures Get(QuestionFields(q), BaseName(q) + LabelSuffix) == Some(q.qText)
    ensures Get(QuestionFields(q), BaseName(q) + ScoreSuffix) == q.score
  {
    var b := BaseName(q);
    SuffixesDiffer(b, b);
    BlockShape(q);
    var rest := [(b + LabelSuffix, q.qText)] + ScoreTail(q);
    GetCons(b + AnswerSuffix, q.answer, rest, b + AnswerSuffix);
    GetCons(b + AnswerSuffix, q.answer, rest, b + LabelSuffix);
    GetCons(b + AnswerSuffix, q.answer, rest, b + ScoreSuffix);
    GetCons(b + LabelSuffix, q.qText, ScoreTail(q), b + LabelSuffix);
    GetCons(b + LabelSuffix, q.qText, ScoreTail(q), b + ScoreSuffix);
    if q.score.Some? {
      GetCons(b + ScoreSuffix, q.score.value, [], b + ScoreSuffix);
    }
  }

  /** Keys built on a base name that no block uses are absent. */
  lemma {:induction false} AbsentBase(qs: seq<Question>, base: string, suf: string)
    requires forall j :: 0 <= j < |qs| ==> BaseName(qs[j]) != base
    requires suf in {AnswerSuffix, LabelSuffix, ScoreSuffix}
    ensures Get(QuestionForm(qs), base + suf) == None
    decreases |qs|
  {
    if |qs| > 0 {
      var init, last := qs[..|qs| - 1], qs[|qs| - 1];
      AbsentBase(init, base, suf);
      GetBlockOtherBase(last, base, suf);
      GetAppend(QuestionForm(init), QuestionFields(last), base + suf);
    }
  }

  /** Each block's fields are found under its own base name: the answer, the
      question text, and the score exactly when a dot was clicked. */
  lemma {:induction false} QuestionFormLookup(qs: seq<Question>, i: nat)
    requires DistinctBlocks(qs) && i < |qs|
    ensures Get(QuestionForm(qs), BaseName(qs[i]) + AnswerSuffix) == Some(qs[i].answer)
    ensures Get(QuestionForm(qs), BaseName(qs[i]) + LabelSuffix) == Some(qs[i].qText)
    ensures Get(QuestionForm(qs), BaseName(qs[i]) + ScoreSuffix) == qs[i].score
    decreases |qs|
  {
    if i == |qs| - 1 {
      LastBlockLookup(qs);
    } else {
      var init, last := qs[..|qs| - 1], qs[|qs| - 1];
      var f, g, b := QuestionForm(init), QuestionFields(last), BaseName(qs[i]);
      assert QuestionForm(qs) == f + g;
      GetAppend(f, g, b + AnswerSuffix);
      GetAppend(f, g, b + LabelSuffix);
      GetAppend(f, g, b + ScoreSuffix);
      assert DistinctBlocks(init);
      QuestionFormLookup(init, i);
      if BaseName(last) == b {
        BaseNameInjective(last, qs[i]);
      }
      GetBlockOtherBase(last, b, AnswerSuffix);
      GetBlockOtherBase(last, b, LabelSuffix);
      GetBlockOtherBase(last, b, ScoreSuffix);
    }
  }

  /** The last block's fields are found under its base name: no earlier
      block has that name. */
  lemma LastBlockLookup(qs: seq<Question>)
    requires DistinctBlocks(qs) && |qs| > 0
    ensures var q := qs[|qs| - 1];
      && Get(QuestionForm(qs), BaseName(q) + AnswerSuffix) == Some(q.answer)
      && Get(QuestionForm(qs), BaseName(q) + LabelSuffix) == Some(q.qText)
      && Get(QuestionForm(qs), BaseName(q) + ScoreSuffix) == q.score
  {
    var init, last := qs[..|qs| - 1], qs[|qs| - 1];
    var f, g, b := QuestionForm(init), QuestionFields(last), BaseName(last);
    assert QuestionForm(qs) == f + g;
    GetAppend(f, g, b + AnswerSuffix);
    GetAppend(f, g, b + LabelSuffix);
    GetAppend(f, g, b + ScoreSuffix);
    forall j | 0 <= j < |init|
      ensures BaseName(init[j]) != b
    {
      if BaseName(init[j]) == b {
        BaseNameInjective(init[j], last);
      }
    }
    AbsentBase(init, b, AnswerSuffix);
    AbsentBase(init, b, LabelSuffix);
    AbsentBase(init, b, ScoreSuffix);
    GetBlockOwn(last);
  }

  /** The answer keys of a questionnaire are the blocks' answer fields, one
      per block, in block order. */
  lemma {:induction false} QuestionFormAnswerKeys(qs: seq<Question>)
    ensures AnswerKeys(QuestionForm(qs)) == seq(|qs|, i requires 0 <= i < |qs| => BaseName(qs[i]) + AnswerSuffix)
    decreases |qs|
  {
    if |qs| > 0 {
      var init, last := qs[..|qs| - 1], qs[|qs| - 1];
      QuestionFormAnswerKeys(init);
      AnswerKeysAppend(QuestionForm(init), QuestionFields(last));
      AnswerNamesBlock(last);
      var all := seq(|qs|, i requires 0 <= i < |qs| => BaseName(qs[i]) + AnswerSuffix);
      assert all[..|qs| - 1] == seq(|init|, i requires 0 <= i < |init| => BaseName(init[i]) + AnswerSuffix);
      assert all == all[..|qs| - 1] + [BaseName(last) + AnswerSuffix];
    }
  }

  lemma AnswerKeysCons(k: string, v: string, rest: Fields)
    ensures AnswerKeys([(k, v)] + rest) == (if EndsWith(k, AnswerSuffix) then [k] else []) + AnswerKeys(rest)
  {
    assert ([(k, v)] + rest)[1..] == rest;
  }

  /** A block has exactly one answer key. */
  lemma AnswerNamesBlock(q: Question)
    ensures AnswerKeys(QuestionFields(q)) == [BaseName(q) + AnswerSuffix]
  {
    var b := BaseName(q);
    var tail := ScoreTail(q);
    BlockShape(q);
    SuffixesDiffer(b, b);
    AnswerKeysCons(b + AnswerSuffix, q.answer, [(b + LabelSuffix, q.qText)] + tail);
    AnswerKeysCons(b + LabelSuffix, q.qText, tail);
    if q.score.Some? {
      AnswerKeysCons(b + ScoreSuffix, q.score.value, []);
    }
  }

  /** Fields whose keys carry none of the question suffixes add no items and
      hide no question field. */
  lemma {:induction false} OtherFieldsInvisible(other: Fields, key: string)
    requires forall i :: 0 <= i < |other| ==> IsOtherKey(other[i].0)
    requires !IsOtherKey(key)
    ensures Get(other, key) == None
    decreases |other|
  {
    if |other| > 0 {
      OtherFieldsInvisible(other[1..], key);
    }
  }

  lemma {:induction false} OtherFieldsNoAnswers(other: Fields)
    requires forall i :: 0 <= i < |other| ==> IsOtherKey(other[i].0)
    ensures AnswerKeys(other) == []
    decreases |other|
  {
    if |other| > 0 {
      OtherFieldsNoAnswers(other[1..]);
    }
  }

  lemma QuestionnaireAnswerKeys(other: Fields, qs: seq<Question>)
    requires forall i :: 0 <= i < |other| ==> IsOtherKey(other[i].0)
    ensures |AnswerKeys(other + QuestionForm(qs))| == |qs|
    ensures forall i :: 0 <= i < |qs| ==> AnswerKeys(other + QuestionForm(qs))[i] == BaseName(qs[i]) + AnswerSuffix
  {
    AnswerKeysAppend(other, QuestionForm(qs));
    QuestionFormAnswerKeys(qs);
    OtherFieldsNoAnswers(other);
  }

  lemma BlockKeysNotOther(b: string)
    ensures !IsOtherKey(b + AnswerSuffix) && !IsOtherKey(b + LabelSuffix) && !IsOtherKey(b + ScoreSuffix)
  {
    SuffixesDiffer(b, b);
    var l, s := b + LabelSuffix, b + ScoreSuffix;
    assert l[|l| - |LabelSuffix|..] == LabelSuffix;
    assert s[|s| - |ScoreSuffix|..] == ScoreSuffix;
  }
}

=== FILE: grouping.dfy ===
/** Grouping rows by a name in first-seen order, as
    `OrderedDict().setdefault(s, []).append(row)` does in the Python handlers
    (app.py:366-369) and as the `sections` object does in the JavaScript one
    (functions/submit.js:32-36). */
module Grouping {

  /** Named lists in insertion order. */
  type Groups<T> = seq<(string, seq<T>)>

  /** The names of named lists, or of named rows, in order. */
  function Names<U>(g: seq<(string, U)>): seq<string> {
    seq(|g|, i requires 0 <= i < |g| => g[i].0)
  }

  predicate Distinct(s: seq<string>) {
    forall i, j :: 0 <= i < j < |s| ==> s[i] != s[j]
  }

  /** `setdefault(key, [])`: a new name gets an empty list at the end; the
      existing groups stay as they are. */
  function EnsureKey<T>(g: Groups<T>, key: string): (r: Groups<T>)
    ensures key in Names(r)
    ensures |g| <= |r| <= |g| + 1 && r[..|g|] == g
    ensures |r| == |g| + 1 <==> key !in Names(g)
    ensures |r| == |g| + 1 ==> r[|g|] == (key, [])
    ensures Distinct(Names(g)) ==> Distinct(Names(r))
  {
    if key in Names(g) then g
    else
      var r := g + [(key, [])];
      assert Names(r) == Names(g) + [key];
      r
  }

  /** `.append(v)` on the list of `key`; the other lists stay as they are. */
  function AppendTo<T>(g: Groups<T>, key: string, v: T): (r: Groups<T>)
    ensures Names(r) == Names(g)
    ensures forall i :: 0 <= i < |g| ==> r[i].1 == if g[i].0 == key then g[i].1 + [v] else g[i].1
  {
    seq(|g|, i requires 0 <= i < |g| => if g[i].0 == key then (g[i].0, g[i].1 + [v]) else g[i])
  }

  /** `grouped.setdefault(key, []).append(v)`. */
  function AddRow<T>(g: Groups<T>, key: string, v: T): Groups<T> {
    AppendTo(EnsureKey(g, key), key, v)
  }

  /** The grouping loop over `rows`, one `AddRow` per row in order. */
  function GroupBy<T>(rows: seq<(string, T)>): Groups<T>
    decreases |rows|
  {
    if |rows| == 0 then [] else AddRow(GroupBy(rows[..|rows| - 1]), rows[|rows| - 1].0, rows[|rows| - 1].1)
  }

  /** A row at the end is one more `AddRow`. */
  lemma GroupBySnoc<T>(rows: seq<(string, T)>, kv: (string, T))
    ensures GroupBy(rows + [kv]) == AddRow(GroupBy(rows), kv.0, kv.1)
  {
    assert (rows + [kv])[..|rows|] == rows;
  }

  // Reference definitions: the names in order of first appearance, and the
  // rows of one name in their original order.

  /** `ks` without repetitions, each name where it first occurs. */
  function FirstSeen(ks: seq<string>): seq<string>
    decreases |ks|
  {
    if |ks| == 0 then []
    else
      var d := FirstSeen(ks[..|ks| - 1]);
      if ks[|ks| - 1] in d then d else d + [ks[|ks| - 1]]
  }

  /** The values of the rows named `key`, in row order. */
  function Members<T>(rows: seq<(string, T)>, key: string): seq<T>
    decreases |rows|
  {
    if |rows| == 0 then []
    else Members(rows[..|rows| - 1], key) + (if rows[|rows| - 1].0 == key then [rows[|rows| - 1].1] else [])
  }

  /** The position where `k` first occurs in `ks`. */
  function FirstIndex(ks: seq<string>, k: string): (i: nat)
    requires k in ks
    ensures i < |ks| && ks[i] == k && k !in ks[..i]
    decreases |ks|
  {
    if ks[0] == k then 0
    else
      var j := FirstIndex(ks[1..], k);
      assert ks[..j + 1] == [ks[0]] + ks[1..][..j];
      j + 1
  }

  /** `FirstSeen` lists every name of `ks` once, and in order of first
      occurrence. */
  lemma {:induction false} FirstSeenSpec(ks: seq<string>)
    ensures Distinct(FirstSeen(ks))
    ensures forall k :: k in FirstSeen(ks) <==> k in ks
    ensures forall i, j :: 0 <= i < j < |FirstSeen(ks)| ==>
      FirstIndex(ks, FirstSeen(ks)[i]) < FirstIndex(ks, FirstSeen(ks)[j])
    decreases |ks|
  {
    if |ks| > 0 {
      var init, last := ks[..|ks| - 1], ks[|ks| - 1];
      FirstSeenSpec(init);
      assert ks == init + [last];
      FirstSeenOrderSnoc(init, last);
    }
  }

  /** The step of `FirstSeenSpec`: one more name keeps the names distinct,
      the same as those of the list, and in order of first occurrence. */
  lemma FirstSeenOrderSnoc(init: seq<string>, last: string)
    requires Distinct(FirstSeen(init))
    requires forall k :: k in FirstSeen(init) <==> k in init
    requires forall i, j :: 0 <= i < j < |FirstSeen(init)| ==>
      FirstIndex(init, FirstSeen(init)[i]) < FirstIndex(init, FirstSeen(init)[j])
    ensures Distinct(FirstSeen(init + [last]))
    ensures forall k :: k in FirstSeen(init + [last]) <==> k in init + [last]
    ensures forall i, j :: 0 <= i < j < |FirstSeen(init + [last])| ==>
      FirstIndex(init + [last], FirstSeen(init + [last])[i]) < FirstIndex(init + [last], FirstSeen(init + [last])[j])
  {
    var ks, d := init + [last], FirstSeen(init);
    assert ks[..|ks| - 1] == init;
    forall k | k in init
      ensures FirstIndex(ks, k) == FirstIndex(init, k)
    {
      FirstIndexPrefix(init, [last], k);
    }
    if last !in d {
      assert last !in init;
      assert FirstIndex(ks, last) == |init| by {
        assert ks[..|init|] == init;
      }
    }
  }

  lemma {:induction false} FirstIndexPrefix(a: seq<string>, b: seq<string>, k: string)
    requires k in a
    ensures FirstIndex(a + b, k) == FirstIndex(a, k)
    decreases |a|
  {
    if a[0] != k {
      assert (a + b)[1..] == a[1..] + b;
      FirstIndexPrefix(a[1..], b, k);
    }
  }

  /** The grouping loop equals the reference: its names are the first-seen
      order of the row names, and each list holds exactly that name's rows,
      in row order. */
  lemma {:induction false} GroupByIsReference<T>(rows: seq<(string, T)>)
    ensures Names(GroupBy(rows)) == FirstSeen(Names(rows))
    ensures forall i :: 0 <= i < |GroupBy(rows)| ==> GroupBy(rows)[i].1 == Members(rows, GroupBy(rows)[i].0)
    decreases |rows|
  {
    if |rows| > 0 {
      var init, last := rows[..|rows| - 1], rows[|rows| - 1];
      assert rows == init + [last];
      GroupByIsReference(init);
      var g := GroupBy(init);
      assert GroupBy(rows) == AddRow(g, last.0, last.1);
      AddRowNames(g, init, last);
      AddRowMembers(g, init, last);
    }
  }

  /** The names after `setdefault`: as before, or with the new name added
      at the end. */
  lemma EnsureKeyNames<T>(g: Groups<T>, key: string)
    ensures Names(EnsureKey(g, key)) == if key in Names(g) then Names(g) else Names(g) + [key]
  {
    var r := EnsureKey(g, key);
    if key in Names(g) {
      assert r == r[..|g|];
    } else {
      assert Names(r) == Names(g) + [key];
    }
  }

  lemma NamesSnoc<T>(rows: seq<(string, T)>, kv: (string, T))
    ensures Names(rows + [kv]) == Names(rows) + [kv.0]
  {
  }

  lemma AddRowNames<T>(g: Groups<T>, rows: seq<(string, T)>, kv: (string, T))
    requires Names(g) == FirstSeen(Names(rows))
    ensures Names(AddRow(g, kv.0, kv.1)) == FirstSeen(Names(rows + [kv]))
  {
    EnsureKeyNames(g, kv.0);
    NamesSnoc(rows, kv);
    var ns := Names(rows) + [kv.0];
    assert ns[..|ns| - 1] == Names(rows);
  }

  lemma AddRowMembers<T>(g: Groups<T>, rows: seq<(string, T)>, kv: (string, T))
    requires Names(g) == FirstSeen(Names(rows))
    requires forall i :: 0 <= i < |g| ==> g[i].1 == Members(rows, g[i].0)
    ensures forall i :: 0 <= i < |AddRow(g, kv.0, kv.1)| ==>
      AddRow(g, kv.0, kv.1)[i].1 == Members(rows + [kv], AddRow(g, kv.0, kv.1)[i].0)
  {
    var k := kv.0;
    var e, r, all := EnsureKey(g, k), AddRow(g, k, kv.1), rows + [kv];
    assert all[..|all| - 1] == rows;
    forall i | 0 <= i < |r|
      ensures r[i].1 == Members(all, r[i].0)
    {
      if i < |g| {
        assert e[i] == g[i];
      } else {
        assert e[i] == (k, []);
        MembersAbsent(rows, k);
      }
    }
  }

  lemma {:induction false} MembersAbsent<T>(rows: seq<(string, T)>, key: string)
    requires key !in FirstSeen(Names(rows))
    ensures Members(rows, key) == []
    decreases |rows|
  {
    if |rows| > 0 {
      var init := rows[..|rows| - 1];
      assert Names(rows)[..|rows| - 1] == Names(init);
      MembersAbsent(init, key);
    }
  }

  /** The groups have distinct names, one per distinct row name. */
  lemma GroupByNames<T>(rows: seq<(string, T)>)
    ensures Distinct(Names(GroupBy(rows)))
    ensures forall k :: k in Names(GroupBy(rows)) <==> exists i :: 0 <= i < |rows| && rows[i].0 == k
  {
    GroupByIsReference(rows);
    FirstSeenSpec(Names(rows));
    NamesMembers(rows);
  }

  lemma NamesMembers<T>(rows: seq<(string, T)>)
    ensures forall k :: k in Names(rows) <==> exists i :: 0 <= i < |rows| && rows[i].0 == k
  {
    forall k | k in Names(rows)
      ensures exists i :: 0 <= i < |rows| && rows[i].0 == k
    {
      var i :| 0 <= i < |rows| && Names(rows)[i] == k;
    }
    forall k | exists i :: 0 <= i < |rows| && rows[i].0 == k
      ensures k in Names(rows)
    {
      var i :| 0 <= i < |rows| && rows[i].0 == k;
      assert Names(rows)[i] == k;
    }
  }

  /** The number of values over all groups. */
  function TotalSize<T>(g: Groups<T>): nat
    decreases |g|
  {
    if |g| == 0 then 0 else TotalSize(g[..|g| - 1]) + |g[|g| - 1].1|
  }

  lemma AppendToAbsent<T>(g: Groups<T>, key: string, v: T)
    requires key !in Names(g)
    ensures AppendTo(g, key, v) == g
  {
    assert forall i :: 0 <= i < |g| ==> Names(g)[i] == g[i].0;
  }

  /** `AppendTo` works group by group: on all but the last, then on the
      last. */
  lemma AppendToSnoc<T>(g: Groups<T>, key: string, v: T)
    requires |g| > 0
    ensures AppendTo(g, key, v)[..|g| - 1] == AppendTo(g[..|g| - 1], key, v)
    ensures AppendTo(g, key, v)[|g| - 1] ==
      if g[|g| - 1].0 == key then (key, g[|g| - 1].1 + [v]) else g[|g| - 1]
  {
  }

  /** How often `key` occurs in `ns`. */
  function Occurrences(ns: seq<string>, key: string): nat
    decreases |ns|
  {
    if |ns| == 0 then 0 else Occurrences(ns[..|ns| - 1], key) + (if ns[|ns| - 1] == key then 1 else 0)
  }

  lemma {:induction false} OccurrencesAbsent(ns: seq<string>, key: string)
    requires key !in ns
    ensures Occurrences(ns, key) == 0
    decreases |ns|
  {
    if |ns| > 0 {
      OccurrencesAbsent(ns[..|ns| - 1], key);
    }
  }

  /** A name of a list without repetitions occurs in it once. */
  lemma {:induction false} OccurrencesDistinct(ns: seq<string>, key: string)
    requires Distinct(ns) && key in ns
    ensures Occurrences(ns, key) == 1
    decreases |ns|
  {
    var n := |ns|;
    var init := ns[..n - 1];
    assert Distinct(init);
    if ns[n - 1] == key {
      assert key !in init;
      OccurrencesAbsent(init, key);
    } else {
      var j :| 0 <= j < n && ns[j] == key;
      assert init[j] == key;
      OccurrencesDistinct(init, key);
    }
  }

  /** Appending to `key` adds one value per group named `key`. */
  lemma {:induction false} TotalSizeAppendToCount<T>(g: Groups<T>, key: string, v: T)
    ensures TotalSize(AppendTo(g, key, v)) == TotalSize(g) + Occurrences(Names(g), key)
    decreases |g|
  {
    if |g| > 0 {
      var n, r := |g|, AppendTo(g, key, v);
      AppendToSnoc(g, key, v);
      assert Names(g)[..n - 1] == Names(g[..n - 1]);
      TotalSizeAppendToCount(g[..n - 1], key, v);
      assert TotalSize(r) == TotalSize(r[..n - 1]) + |r[n - 1].1|;
    }
  }

  lemma TotalSizeAppendTo<T>(g: Groups<T>, key: string, v: T)
    requires Distinct(Names(g)) && key in Names(g)
    ensures TotalSize(AppendTo(g, key, v)) == TotalSize(g) + 1
  {
    TotalSizeAppendToCount(g, key, v);
    OccurrencesDistinct(Names(g), key);
  }

  lemma TotalSizeAddRow<T>(g: Groups<T>, key: string, v: T)
    requires Distinct(Names(g))
    ensures TotalSize(AddRow(g, key, v)) == TotalSize(g) + 1
  {
    var e := EnsureKey(g, key);
    if key !in Names(g) {
      assert e[..|g|] == g;
    }
    TotalSizeAppendTo(e, key, v);
  }

  /** Grouping neither drops nor duplicates a row: the groups hold as many
      values as there are rows. */
  lemma {:induction false} GroupByTotal<T>(rows: seq<(string, T)>)
    ensures TotalSize(GroupBy(rows)) == |rows|
    decreases |rows|
  {
    if |rows| > 0 {
      var init := rows[..|rows| - 1];
      GroupByTotal(init);
      GroupByNames(init);
      TotalSizeAddRow(GroupBy(init), rows[|rows| - 1].0, rows[|rows| - 1].1);
    }
  }

  // Weighted sums, for totals computed per group and over all rows.

  function SumBy<T>(xs: seq<T>, w: T -> int): int
    decreases |xs|
  {
    if |xs| == 0 then 0 else SumBy(xs[..|xs| - 1], w) + w(xs[|xs| - 1])
  }

  function GroupsSumBy<T>(g: Groups<T>, w: T -> int): int
    decreases |g|
  {
    if |g| == 0 then 0 else GroupsSumBy(g[..|g| - 1], w) + SumBy(g[|g| - 1].1, w)
  }

  function Values<T>(rows: seq<(string, T)>): seq<T> {
    seq(|rows|, i requires 0 <= i < |rows| => rows[i].1)
  }

  /** Appending to `key` adds the weight of the value once per group named
      `key`: nothing without such a group, once with one. */
  lemma {:induction false} GroupsSumByAppendToCount<T>(g: Groups<T>, key: string, v: T, w: T -> int)
    ensures Occurrences(Names(g), key) == 0 ==> GroupsSumBy(AppendTo(g, key, v), w) == GroupsSumBy(g, w)
    ensures Occurrences(Names(g), key) == 1 ==> GroupsSumBy(AppendTo(g, key, v), w) == GroupsSumBy(g, w) + w(v)
    decreases |g|
  {
    if |g| > 0 {
      var n, r := |g|, AppendTo(g, key, v);
      var init, last := g[..n - 1], g[n - 1];
      AppendToSnoc(g, key, v);
      assert Names(g)[..n - 1] == Names(init);
      var here := if last.0 == key then 1 else 0;
      assert Occurrences(Names(g), key) == Occurrences(Names(init), key) + here;
      GroupsSumByAppendToCount(init, key, v, w);
      var grown := if last.0 == key then w(v) else 0;
      assert SumBy(r[n - 1].1, w) == SumBy(last.1, w) + grown by {
        if last.0 == key {
          assert (last.1 + [v])[..|last.1|] == last.1;
        }
      }
      assert GroupsSumBy(r, w) == GroupsSumBy(AppendTo(init, key, v), w) + SumBy(r[n - 1].1, w);
      assert GroupsSumBy(g, w) == GroupsSumBy(init, w) + SumBy(last.1, w);
    }
  }

  lemma GroupsSumByAppendTo<T>(g: Groups<T>, key: string, v: T, w: T -> int)
    requires Distinct(Names(g)) && key in Names(g)
    ensures GroupsSumBy(AppendTo(g, key, v), w) == GroupsSumBy(g, w) + w(v)
  {
    GroupsSumByAppendToCount(g, key, v, w);
    OccurrencesDistinct(Names(g), key);
  }

  lemma GroupsSumByAddRow<T>(g: Groups<T>, key: string, v: T, w: T -> int)
    requires Distinct(Names(g))
    ensures GroupsSumBy(AddRow(g, key, v), w) == GroupsSumBy(g, w) + w(v)
  {
    var e := EnsureKey(g, key);
    if key !in Names(g) {
      assert e[..|g|] == g;
    }
    GroupsSumByAppendTo(e, key, v, w);
  }

  /** Summing per group and then over the groups gives the sum over all
      rows. */
  lemma {:induction false} GroupBySumBy<T>(rows: seq<(string, T)>, w: T -> int)
    ensures GroupsSumBy(GroupBy(rows), w) == SumBy(Values(rows), w)
    decreases |rows|
  {
    if |rows| > 0 {
      var init := rows[..|rows| - 1];
      assert Values(rows)[..|rows| - 1] == Values(init);
      GroupBySumBy(init, w);
      GroupByNames(init);
      GroupsSumByAddRow(GroupBy(init), rows[|rows| - 1].0, rows[|rows| - 1].1, w);
    }
  }

  /** A new name opens a group of its own at the end. */
  lemma AddRowNew<T>(g: Groups<T>, key: string, v: T)
    requires key !in Names(g)
    ensures AddRow(g, key, v) == g + [(key, [v])]
  {
    var e := g + [(key, [])];
    assert EnsureKey(g, key) == e;
    var r := AppendTo(e, key, v);
    forall i | 0 <= i < |g|
      ensures r[i] == g[i]
    {
      assert g[i].0 == Names(g)[i] != key;
      assert e[i] == g[i];
    }
    assert e[|g|] == (key, []);
    assert r[|g|].1 == e[|g|].1 + [v] == [v];
    assert r[|g|].0 == Names(r)[|g|] == Names(e)[|g|] == key;
    assert r == g + [(key, [v])];
  }

  /** A row of the last group's name extends that group. */
  lemma AddRowToLast<T>(g: Groups<T>, key: string, v: T)
    requires Distinct(Names(g)) && |g| > 0 && g[|g| - 1].0 == key
    ensures AddRow(g, key, v) == g[..|g| - 1] + [(key, g[|g| - 1].1 + [v])]
  {
    assert Names(g)[|g| - 1] == key;
    assert forall i :: 0 <= i < |g| - 1 ==> g[i].0 == Names(g)[i] != key;
  }

  /** Of two one-row groups, a row of the second name joins the second. */
  lemma AddRowSecondOfTwo<T>(x: string, y: string, u: T, v: T, w: T)
    requires x != y
    ensures AddRow([(x, [u]), (y, [v])], y, w) == [(x, [u]), (y, [v, w])]
  {
    var g := [(x, [u]), (y, [v])];
    assert Names(g) == [x, y];
    AddRowToLast(g, y, w);
    assert g[..1] == [(x, [u])];
    assert [v] + [w] == [v, w];
  }
}

=== FILE: jsitems.dfy ===
/** What the two JavaScript handlers read for one answer key: the
    `{ vraag, antwoord, cijfer }` record (functions/submit.js:26-30 and
    netlify/functions/submit.js:23-27) and, in functions/submit.js, the
    section name. */
module JsItems {
  import opened Wrappers
  import opened Text
  import opened Numerals
  import opened Form
  import opened PyItems

  /** `{ vraag, antwoord, cijfer }`; netlify/functions/submit.js names the
      score `cust`. */
  datatype Entry = Entry(question: string, answer: string, score: string)

  /** What the record of answer key `k` holds: the label when its field is
      present and not empty, the key otherwise; the answer, or `''`; the
      score text when present and not empty, `'-'` otherwise. Unlike in
      Python, an empty label falls back to the key. */
  predicate EntryOfKey(f: Fields, k: string, e: Entry)
    requires EndsWith(k, AnswerSuffix)
  {
    var p := Prefix(k);
    var given, raw := Get(f, p + LabelSuffix), Get(f, p + ScoreSuffix);
    && e.question == (if given.Some? && given.value != "" then given.value else k)
    && e.answer == Get(f, k).GetOr("")
    && e.score == (if raw.Some? && raw.value != "" then raw.value else "-")
  }

  /** The record of answer key `k`. */
  function JsEntry(f: Fields, k: string): (e: Entry)
    requires EndsWith(k, AnswerSuffix)
    ensures EntryOfKey(f, k, e)
    ensures e.question != "" && e.score != ""
  {
    var prefix := Prefix(k);
    Entry(JsOr(f, prefix + LabelSuffix, k), JsOr(f, k, ""), JsOr(f, prefix + ScoreSuffix, "-"))
  }

  /** `prefix.split('_').slice(0, -1).join(' ')`. */
  function JsSection(prefix: string): string {
    var parts := Split(prefix, '_');
    Join(parts[..|parts| - 1], ' ')
  }

  /** A prefix without `_` has the empty section name. */
  lemma JsSectionNoUnderscore(prefix: string)
    requires '_' !in prefix
    ensures JsSection(prefix) == ""
  {
    SplitNoSep(prefix, '_');
  }

  /** A block's JavaScript section is its section name with every `_`
      turned into a space. */
  lemma JsSectionOfBlock(q: Question)
    ensures JsSection(BaseName(q)) == SwapChar(q.section, '_', ' ')
  {
    var d := NatToString(q.index);
    assert '_' !in d;
    assert BaseName(q) == q.section + ['_'] + d;
    SplitConcat(q.section, d, '_');
    SplitNoSep(d, '_');
    var parts := Split(BaseName(q), '_');
    assert parts[..|parts| - 1] == Split(q.section, '_');
    JoinSplitSwap(q.section, '_', ' ');
  }

  /** The two dialects give a block the same section exactly when its
      section name has no `_`. */
  lemma SectionsAgreeIff(q: Question)
    ensures JsSection(BaseName(q)) == PySection(BaseName(q)) <==> '_' !in q.section
  {
    JsSectionOfBlock(q);
    PySectionOfBlock(q);
    var s := q.section;
    if '_' in s {
      var k :| 0 <= k < |s| && s[k] == '_';
      assert SwapChar(s, '_', ' ')[k] != s[k];
    } else {
      assert SwapChar(s, '_', ' ') == s;
    }
  }

  /** What the JavaScript handlers read for a block: an empty question text
      falls back to the answer key, and a score field that is absent or
      empty reads as `'-'`. */
  lemma JsEntryOfBlock(other: Fields, qs: seq<Question>, i: nat)
    requires forall i :: 0 <= i < |other| ==> IsOtherKey(other[i].0)
    requires DistinctBlocks(qs) && i < |qs|
    ensures EndsWith(BaseName(qs[i]) + AnswerSuffix, AnswerSuffix)
    ensures JsEntry(other + QuestionForm(qs), BaseName(qs[i]) + AnswerSuffix) ==
      Entry(if qs[i].qText != "" then qs[i].qText else BaseName(qs[i]) + AnswerSuffix,
        qs[i].answer, if qs[i].score.GetOr("") != "" then qs[i].score.value else "-")
  {
    var b := BaseName(qs[i]);
    SuffixesDiffer(b, b);
    var k := b + AnswerSuffix;
    SuffixCancel(Prefix(k), b, AnswerSuffix);
    QuestionFormLookup(qs, i);
    BlockKeysNotOther(b);
    OtherFieldsInvisible(other, k);
    OtherFieldsInvisible(other, b + LabelSuffix);
    OtherFieldsInvisible(other, b + ScoreSuffix);
    GetAppend(other, QuestionForm(qs), k);
    GetAppend(other, QuestionForm(qs), b + LabelSuffix);
    GetAppend(other, QuestionForm(qs), b + ScoreSuffix);
  }

  /** The label dialects part on an empty question text: Python keeps the
      empty text, JavaScript shows the key. */
  lemma LabelDialects(other: Fields, qs: seq<Question>, i: nat)
    requires forall i :: 0 <= i < |other| ==> IsOtherKey(other[i].0)
    requires DistinctBlocks(qs) && i < |qs| && qs[i].qText == ""
    ensures EndsWith(BaseName(qs[i]) + AnswerSuffix, AnswerSuffix)
    ensures PyItem(other + QuestionForm(qs), BaseName(qs[i]) + AnswerSuffix).question == ""
    ensures JsEntry(other + QuestionForm(qs), BaseName(qs[i]) + AnswerSuffix).question == BaseName(qs[i]) + AnswerSuffix
  {
    PyItemOfBlock(other, qs, i);
    JsEntryOfBlock(other, qs, i);
  }

  /** `items`: one record per answer key, in key order, each holding what
      `EntryOfKey` describes. */
  function Entries(f: Fields): (r: seq<Entry>)
    ensures |r| == |AnswerKeys(f)|
    ensures forall i :: 0 <= i < |r| ==> EntryOfKey(f, AnswerKeys(f)[i], r[i])
  {
    var keys := AnswerKeys(f);
    seq(|keys|, i requires 0 <= i < |keys| => JsEntry(f, keys[i]))
  }

  /** The record of one block: the question text, or the answer key when
      the text is empty; the answer; the score, or `'-'` when there is none. */
  function BlockEntry(q: Question): Entry {
    Entry(if q.qText != "" then q.qText else BaseName(q) + AnswerSuffix,
      q.answer, if q.score.GetOr("") != "" then q.score.value else "-")
  }

  /** The record of block `i` of the questionnaire page. */
  lemma EntryOfBlockAt(other: Fields, qs: seq<Question>, i: nat)
    requires forall i :: 0 <= i < |other| ==> IsOtherKey(other[i].0)
    requires DistinctBlocks(qs) && i < |qs|
    ensures |Entries(other + QuestionForm(qs))| == |qs|
    ensures Entries(other + QuestionForm(qs))[i] == BlockEntry(qs[i])
  {
    QuestionnaireAnswerKeys(other, qs);
    JsEntryOfBlock(other, qs, i);
  }

  /** The records of the questionnaire page: one per block, in block order,
      whatever other fields the page sends. */
  lemma EntriesQuestionnaire(other: Fields, qs: seq<Question>)
    requires forall i :: 0 <= i < |other| ==> IsOtherKey(other[i].0)
    requires DistinctBlocks(qs)
    ensures Entries(other + QuestionForm(qs)) == seq(|qs|, i requires 0 <= i < |qs| => BlockEntry(qs[i]))
  {
    QuestionnaireAnswerKeys(other, qs);
    forall i | 0 <= i < |qs|
      ensures Entries(other + QuestionForm(qs))[i] == BlockEntry(qs[i])
    {
      EntryOfBlockAt(other, qs, i);
    }
  }

  /** A score the JavaScript handler counts: not `'-'`, and a number for
      `parseInt`, whose value it is. On a score Python printed, it is
      counted exactly when it is not `'-'`, with the value Python gave it. */
  function JsScoreValue(score: string): (r: Option<int>)
    ensures score == "-" ==> r.None?
    ensures score != "-" ==> r == JsParseInt(score)
    ensures IsScoreText(score) ==> (r.Some? <==> score != "-") && (r.Some? ==> IntToString(r.value) == score)
    ensures IsScoreText(score) && score != "-" ==> r == ParsePyInt(score)
  {
    if score == "-" then None
    else if IsScoreText(score) then
      JsParseIntToString(ParsePyInt(score).value);
      JsParseInt(score)
    else JsParseInt(score)
  }

  /** Every score Python prints is counted by its value, and the
      placeholder is not counted. */
  lemma JsScoreValueOfPrinted(n: int)
    ensures JsScoreValue(IntToString(n)) == Some(n)
    ensures JsScoreValue("-") == None
  {
    IntToStringNotDash(n);
    JsParseIntToString(n);
  }
}

=== FILE: jsmail.dfy ===
/** The plain-text mail of netlify/functions/submit.js (lines 20-61). */
module JsMail {
  import opened Wrappers
  import opened Text
  import opened Form
  import opened JsItems

  /** Lines, each followed by a newline. */
  function Unlines(ls: seq<string>): string
    decreases |ls|
  {
    if |ls| == 0 then "" else ls[0] + "\n" + Unlines(ls[1..])
  }

  /** The text of one item: three lines and an empty one. */
  function ItemText(e: Entry): string {
    "Vraag: " + e.question + "\n" + "Antwoord: " + e.answer + "\n" + "Cijfer: " + e.score + "\n\n"
  }

  /** `items.forEach(item => { emailBody += ... })`. */
  function ItemsText(es: seq<Entry>): string
    decreases |es|
  {
    if |es| == 0 then "" else ItemsText(es[..|es| - 1]) + ItemText(es[|es| - 1])
  }

  const Title: string := "Nieuwe QuickScan ontvangen"
  const Marker: string := "--- ANTWOORDEN ---"

  /** The lines before the items; a missing field prints as `undefined`. */
  function Header(f: Fields): string {
    (Title + "\n\n") + ("Naam: " + JsTemplate(f, "name") + "\n") +
    ("Bedrijf: " + JsTemplate(f, "company") + "\n") + ("Email: " + JsTemplate(f, "email") + "\n") +
    ("Telefoon: " + JsTemplate(f, "phone") + "\n\n") + (Marker + "\n\n")
  }

  /** `emailBody`. */
  function EmailBody(f: Fields): string {
    Header(f) + ItemsText(Entries(f))
  }

  /** The `text` of the mail around the body. */
  function MailText(f: Fields): string {
    "Beste " + JsTemplate(f, "name") + ",\n\nBedankt voor het invullen van de QuickScan.\n\n" +
    EmailBody(f) + "\n\nMet vriendelijke groet,\nVeerenstael"
  }

  // The body as a list of lines: the reference the concatenations are
  // checked against.

  function HeaderLines(f: Fields): (r: seq<string>)
    ensures |r| == 9
  {
    [Title, "", "Naam: " + JsTemplate(f, "name"),
     "Bedrijf: " + JsTemplate(f, "company"), "Email: " + JsTemplate(f, "email"),
     "Telefoon: " + JsTemplate(f, "phone"), "", Marker, ""]
  }

  function ItemLines(e: Entry): (r: seq<string>)
    ensures |r| == 4
  {
    ["Vraag: " + e.question, "Antwoord: " + e.answer, "Cijfer: " + e.score, ""]
  }

  function ItemsLines(es: seq<Entry>): (r: seq<string>)
    ensures |r| == 4 * |es|
    decreases |es|
  {
    if |es| == 0 then [] else ItemsLines(es[..|es| - 1]) + ItemLines(es[|es| - 1])
  }

  lemma {:induction false} UnlinesAppend(a: seq<string>, b: seq<string>)
    ensures Unlines(a + b) == Unlines(a) + Unlines(b)
    decreases |a|
  {
    if |a| > 0 {
      assert (a + b)[1..] == a[1..] + b;
      UnlinesAppend(a[1..], b);
    } else {
      assert a + b == b;
    }
  }

  lemma UnlinesCons(l: string, ls: seq<string>)
    ensures Unlines([l] + ls) == l + "\n" + Unlines(ls)
  {
    assert ([l] + ls)[1..] == ls;
  }

  lemma ItemTextLines(e: Entry)
    ensures ItemText(e) == Unlines(ItemLines(e))
  {
    var a, b, c := "Vraag: " + e.question, "Antwoord: " + e.answer, "Cijfer: " + e.score;
    UnlinesCons("", []);
    UnlinesCons(c, [""]);
    UnlinesCons(b, [c, ""]);
    UnlinesCons(a, [b, c, ""]);
    assert Unlines([c, ""]) == c + "\n\n";
    assert Unlines([b, c, ""]) == b + "\n" + c + "\n\n";
  }

  lemma {:induction false} ItemsTextLines(es: seq<Entry>)
    ensures ItemsText(es) == Unlines(ItemsLines(es))
    decreases |es|
  {
    if |es| > 0 {
      ItemsTextLines(es[..|es| - 1]);
      ItemTextLines(es[|es| - 1]);
      UnlinesAppend(ItemsLines(es[..|es| - 1]), ItemLines(es[|es| - 1]));
    }
  }

  lemma UnlinesPair(a: string)
    ensures Unlines([a, ""]) == a + "\n\n"
  {
    UnlinesCons(a, [""]);
    assert Unlines([""]) == "\n";
  }

  lemma UnlinesOne(a: string)
    ensures Unlines([a]) == a + "\n"
  {
    UnlinesCons(a, []);
  }

  lemma HeaderTextLines(f: Fields)
    ensures Header(f) == Unlines(HeaderLines(f))
  {
    var n, c := "Naam: " + JsTemplate(f, "name"), "Bedrijf: " + JsTemplate(f, "company");
    var m, p := "Email: " + JsTemplate(f, "email"), "Telefoon: " + JsTemplate(f, "phone");
    var l1, l2, l3, l4, l5, l6 := [Title, ""], [n], [c], [m], [p, ""], [Marker, ""];
    assert HeaderLines(f) == l1 + l2 + l3 + l4 + l5 + l6;
    UnlinesPair(Title);
    UnlinesOne(n);
    UnlinesOne(c);
    UnlinesOne(m);
    UnlinesPair(p);
    UnlinesPair(Marker);
    UnlinesAppend(l1, l2);
    UnlinesAppend(l1 + l2, l3);
    UnlinesAppend(l1 + l2 + l3, l4);
    UnlinesAppend(l1 + l2 + l3 + l4, l5);
    UnlinesAppend(l1 + l2 + l3 + l4 + l5, l6);
  }

  /** The body is the header lines (name, company, address and phone, in
      that order, then the marker) followed by four lines per item, in item
      order. */
  lemma EmailBodyLines(f: Fields)
    ensures EmailBody(f) == Unlines(HeaderLines(f) + ItemsLines(Entries(f)))
  {
    HeaderTextLines(f);
    ItemsTextLines(Entries(f));
    UnlinesAppend(HeaderLines(f), ItemsLines(Entries(f)));
  }

  lemma {:induction false} SplitUnlines(ls: seq<string>)
    requires forall i :: 0 <= i < |ls| ==> '\n' !in ls[i]
    ensures Split(Unlines(ls), '\n') == ls + [""]
    decreases |ls|
  {
    if |ls| > 0 {
      SplitUnlines(ls[1..]);
      assert ls[0] + "\n" + Unlines(ls[1..]) == ls[0] + ['\n'] + Unlines(ls[1..]);
      SplitConcat(ls[0], Unlines(ls[1..]), '\n');
      SplitNoSep(ls[0], '\n');
      assert ls == [ls[0]] + ls[1..];
    }
  }

  /** No key and no value of the form holds a newline. */
  predicate NoNewlines(f: Fields) {
    forall i :: 0 <= i < |f| ==> '\n' !in f[i].0 && '\n' !in f[i].1
  }

  lemma TemplateNoNewline(f: Fields, key: string)
    requires NoNewlines(f)
    ensures '\n' !in JsTemplate(f, key)
  {
  }

  lemma HeaderLinesNoNewline(f: Fields)
    requires NoNewlines(f)
    ensures forall j :: 0 <= j < 9 ==> '\n' !in HeaderLines(f)[j]
  {
    var h := HeaderLines(f);
    forall j | 0 <= j < 9
      ensures '\n' !in h[j]
    {
      if j == 2 {
        FieldLineNoNewline(f, "Naam: ", "name");
      } else if j == 3 {
        FieldLineNoNewline(f, "Bedrijf: ", "company");
      } else if j == 4 {
        FieldLineNoNewline(f, "Email: ", "email");
      } else if j == 5 {
        FieldLineNoNewline(f, "Telefoon: ", "phone");
      } else {
        assert h[j] in {Title, "", Marker};
        FixedLinesNoNewline();
      }
    }
  }

  lemma FixedLinesNoNewline()
    ensures '\n' !in Title && '\n' !in Marker
  {
  }

  lemma FieldLineNoNewline(f: Fields, prompt: string, key: string)
    requires NoNewlines(f) && '\n' !in prompt
    ensures '\n' !in prompt + JsTemplate(f, key)
  {
    TemplateNoNewline(f, key);
  }

  lemma EntriesNoNewline(f: Fields)
    requires NoNewlines(f)
    ensures forall i :: 0 <= i < |Entries(f)| ==>
      '\n' !in Entries(f)[i].question && '\n' !in Entries(f)[i].answer && '\n' !in Entries(f)[i].score
  {
    AnswerKeysMembers(f);
    var keys := AnswerKeys(f);
    forall i | 0 <= i < |keys|
      ensures '\n' !in Entries(f)[i].question && '\n' !in Entries(f)[i].answer && '\n' !in Entries(f)[i].score
    {
      assert keys[i] in keys;
    }
  }

  lemma {:induction false} ItemsLinesNoNewline(es: seq<Entry>)
    requires forall i :: 0 <= i < |es| ==> '\n' !in es[i].question && '\n' !in es[i].answer && '\n' !in es[i].score
    ensures forall j :: 0 <= j < |ItemsLines(es)| ==> '\n' !in ItemsLines(es)[j]
    decreases |es|
  {
    if |es| > 0 {
      ItemsLinesNoNewline(es[..|es| - 1]);
    }
  }

  lemma LinesAppend(a: seq<string>, b: seq<string>)
    requires forall j :: 0 <= j < |a| ==> '\n' !in a[j]
    requires forall j :: 0 <= j < |b| ==> '\n' !in b[j]
    ensures forall j :: 0 <= j < |a + b| ==> '\n' !in (a + b)[j]
  {
  }

  /** When no field holds a newline, the lines of the body are exactly the
      header lines and then four lines per item: the block of item `i` is
      lines `9 + 4 i` to `12 + 4 i`. */
  lemma EmailBodySplit(f: Fields)
    requires NoNewlines(f)
    ensures Split(EmailBody(f), '\n') == HeaderLines(f) + ItemsLines(Entries(f)) + [""]
  {
    EmailBodyLines(f);
    HeaderLinesNoNewline(f);
    EntriesNoNewline(f);
    ItemsLinesNoNewline(Entries(f));
    var ls := HeaderLines(f) + ItemsLines(Entries(f));
    LinesAppend(HeaderLines(f), ItemsLines(Entries(f)));
    SplitUnlines(ls);
  }

  /** The block of item `i` in the line list. */
  lemma {:induction false} ItemsLinesAt(es: seq<Entry>, i: nat)
    requires i < |es|
    ensures ItemsLines(es)[4 * i..4 * i + 4] == ItemLines(es[i])
    decreases |es|
  {
    var init := es[..|es| - 1];
    assert ItemsLines(es) == ItemsLines(init) + ItemLines(es[|es| - 1]);
    if i < |init| {
      ItemsLinesAt(init, i);
      assert ItemsLines(es)[4 * i..4 * i + 4] == ItemsLines(init)[4 * i..4 * i + 4];
    }
  }
}

=== FILE: jsreport.dfy ===
/** The collection loop, the averages and the text of the PDF in
    functions/submit.js (lines 20-113). */
module JsReport {
  import opened Wrappers
  import opened Text
  import opened Numerals
  import opened Form
  import opened Grouping
  import opened JsItems
  import opened Stats

  /** Names that a plain JavaScript object already answers with an inherited
      value: `sections[name]` is then truthy, the initialisation is skipped
      and `.push` throws a `TypeError`. */
  const ProtoNames: set<string> := {"constructor", "__proto__", "toString", "valueOf",
    "hasOwnProperty", "isPrototypeOf", "propertyIsEnumerable", "toLocaleString",
    "__defineGetter__", "__defineSetter__", "__lookupGetter__", "__lookupSetter__"}

  /** The outer `catch` turns the exception into a 500 response carrying its
      message. */
  const TypeError := "TypeError"

  /** The two objects the loop fills: the records and the counted scores of
      each section, in insertion order. */
  datatype Collected = Collected(sections: Groups<Entry>, scores: Groups<int>)

  /** One answer key as the loop sees it: its section and its record. */
  function Row(f: Fields, k: string): (string, Entry)
    requires EndsWith(k, AnswerSuffix)
  {
    (JsSection(Prefix(k)), JsEntry(f, k))
  }

  function Rows(f: Fields): (r: seq<(string, Entry)>)
    ensures |r| == |AnswerKeys(f)|
  {
    var keys := AnswerKeys(f);
    seq(|keys|, i requires 0 <= i < |keys| => Row(f, keys[i]))
  }

  /** The scores a record contributes: its parsed score, or none. */
  function Counted(e: Entry): (r: seq<int>)
    ensures |r| <= 1
  {
    match JsScoreValue(e.score)
    case Some(n) => [n]
    case None => []
  }

  /** `sectionScores[name].push(num)` when the record's score counts. */
  function AddScore(scores: Groups<int>, name: string, e: Entry): (r: Groups<int>)
    ensures Names(r) == Names(scores)
  {
    seq(|scores|, i requires 0 <= i < |scores| =>
      if scores[i].0 == name then (name, scores[i].1 + Counted(e)) else scores[i])
  }

  /** One pass of the loop body. */
  function Step(st: Collected, row: (string, Entry)): Result<Collected, string> {
    var (name, e) := row;
    if name in ProtoNames then Failure(TypeError)
    else Success(Collected(AddRow(st.sections, name, e), AddScore(EnsureKey(st.scores, name), name, e)))
  }

  function CollectRows(rows: seq<(string, Entry)>): Result<Collected, string>
    decreases |rows|
  {
    if |rows| == 0 then Success(Collected([], []))
    else match CollectRows(rows[..|rows| - 1])
      case Failure(err) => Failure(err)
      case Success(st) => Step(st, rows[|rows| - 1])
  }

  /** The `for (const key in data)` loop. */
  function Collect(f: Fields): Result<Collected, string> {
    CollectRows(Rows(f))
  }

  // Reference definitions: the counted scores of a list of records, and of
  // every group.

  function ScoreValues(es: seq<Entry>): seq<int>
    decreases |es|
  {
    if |es| == 0 then [] else ScoreValues(es[..|es| - 1]) + Counted(es[|es| - 1])
  }

  function ScoreGroups(g: Groups<Entry>): Groups<int> {
    seq(|g|, i requires 0 <= i < |g| => (g[i].0, ScoreValues(g[i].1)))
  }

  lemma ScoreGroupsEnsureKey(g: Groups<Entry>, name: string)
    ensures ScoreGroups(EnsureKey(g, name)) == EnsureKey(ScoreGroups(g), name)
  {
    assert Names(ScoreGroups(g)) == Names(g);
    if name !in Names(g) {
      assert ScoreGroups(g + [(name, [])]) == ScoreGroups(g) + [(name, [])];
    }
  }

  /** Adding a record to the sections and its score to the scores keeps the
      scores the counted scores of the sections. */
  lemma ScoreGroupsAddRow(g: Groups<Entry>, name: string, e: Entry)
    ensures ScoreGroups(AddRow(g, name, e)) == AddScore(EnsureKey(ScoreGroups(g), name), name, e)
  {
    ScoreGroupsEnsureKey(g, name);
    var eg := EnsureKey(g, name);
    var l, r := ScoreGroups(AddRow(g, name, e)), AddScore(ScoreGroups(eg), name, e);
    forall i | 0 <= i < |eg|
      ensures l[i] == r[i]
    {
      if eg[i].0 == name {
        assert (eg[i].1 + [e])[..|eg[i].1|] == eg[i].1;
      }
    }
  }

  /** The loop throws on `rows` when it threw before the last record, or the
      last record's section is an inherited name. */
  lemma CollectRowsLast(rows: seq<(string, Entry)>)
    requires |rows| > 0
    ensures CollectRows(rows).Failure? <==>
      CollectRows(rows[..|rows| - 1]).Failure? || rows[|rows| - 1].0 in ProtoNames
  {
  }

  /** Some record of `rows` has an inherited section name exactly when one
      before the last has, or the last has. */
  lemma ProtoSectionLast(rows: seq<(string, Entry)>, init: seq<(string, Entry)>)
    requires |rows| > 0 && init == rows[..|rows| - 1]
    ensures (exists i :: 0 <= i < |rows| && rows[i].0 in ProtoNames) <==>
      (exists i :: 0 <= i < |init| && init[i].0 in ProtoNames) || rows[|rows| - 1].0 in ProtoNames
  {
    var n := |rows|;
    if exists i :: 0 <= i < n && rows[i].0 in ProtoNames {
      var i :| 0 <= i < n && rows[i].0 in ProtoNames;
      if i < n - 1 {
        assert init[i] == rows[i];
      }
    }
    if exists i :: 0 <= i < n - 1 && init[i].0 in ProtoNames {
      var i :| 0 <= i < n - 1 && init[i].0 in ProtoNames;
      assert rows[i] == init[i];
    }
  }

  /** The loop throws exactly when some answer's section is one of the
      inherited names. */
  lemma {:induction false} CollectRowsFails(rows: seq<(string, Entry)>)
    ensures CollectRows(rows).Failure? <==> exists i :: 0 <= i < |rows| && rows[i].0 in ProtoNames
    decreases |rows|
  {
    if |rows| > 0 {
      CollectRowsFails(rows[..|rows| - 1]);
      CollectRowsLast(rows);
      ProtoSectionLast(rows, rows[..|rows| - 1]);
    }
  }

  /** Otherwise it groups the records by section in first-seen order, and the
      scores of each section are the parsed scores of its records. */
  lemma {:induction false} CollectRowsGroups(rows: seq<(string, Entry)>)
    requires CollectRows(rows).Success?
    ensures CollectRows(rows).value == Collected(GroupBy(rows), ScoreGroups(GroupBy(rows)))
    decreases |rows|
  {
    if |rows| > 0 {
      var init, last := rows[..|rows| - 1], rows[|rows| - 1];
      CollectRowsGroups(init);
      ScoreGroupsAddRow(GroupBy(init), last.0, last.1);
    }
  }

  /** The handler fails on a form exactly when an answer key's section is an
      inherited name; then no PDF is made and no mail is sent. */
  lemma CollectFails(f: Fields)
    ensures Collect(f).Failure? <==>
      exists i :: 0 <= i < |AnswerKeys(f)| && JsSection(Prefix(AnswerKeys(f)[i])) in ProtoNames
  {
    CollectRowsFails(Rows(f));
    var rows := Rows(f);
    assert forall i :: 0 <= i < |rows| ==> rows[i].0 == JsSection(Prefix(AnswerKeys(f)[i]));
  }

  /** On success every answer key gives one record, none lost, none twice. */
  lemma CollectKeepsEveryRecord(f: Fields)
    requires Collect(f).Success?
    ensures TotalSize(Collect(f).value.sections) == |AnswerKeys(f)|
    ensures Distinct(Names(Collect(f).value.sections))
  {
    CollectRowsGroups(Rows(f));
    GroupByTotal(Rows(f));
    GroupByNames(Rows(f));
  }

  /** The `averages` object: one entry per section with a counted score, in
      section order. */
  function Averages(scores: Groups<int>): seq<(string, real)>
    decreases |scores|
  {
    if |scores| == 0 then []
    else
      var (name, xs) := scores[|scores| - 1];
      Averages(scores[..|scores| - 1]) + if |xs| > 0 then [(name, Mean(xs))] else []
  }

  /** An average is listed exactly for a section with at least one counted
      score, and it is the mean of those scores. */
  lemma {:induction false} AveragesSpec(scores: Groups<int>)
    ensures forall p :: p in Averages(scores) <==>
      exists i :: 0 <= i < |scores| && |scores[i].1| > 0 && p == (scores[i].0, Mean(scores[i].1))
    decreases |scores|
  {
    if |scores| > 0 {
      var init := scores[..|scores| - 1];
      AveragesSpec(init);
      assert forall i :: 0 <= i < |init| ==> init[i] == scores[i];
    }
  }

  /** Some group named `x` comes before some group named `y`. */
  predicate NamedBefore<T>(g: Groups<T>, x: string, y: string) {
    exists a, b :: 0 <= a < b < |g| && g[a].0 == x && g[b].0 == y
  }

  /** The averages keep the order of the sections. */
  lemma {:induction false} AveragesInOrder(scores: Groups<int>)
    ensures forall i, j :: 0 <= i < j < |Averages(scores)| ==>
      NamedBefore(scores, Averages(scores)[i].0, Averages(scores)[j].0)
    decreases |scores|
  {
    if |scores| > 0 {
      var n := |scores|;
      var init := scores[..n - 1];
      AveragesInOrder(init);
      AveragesSpec(init);
      var av, ai := Averages(scores), Averages(init);
      assert av[..|ai|] == ai;
      forall i, j | 0 <= i < j < |av|
        ensures NamedBefore(scores, av[i].0, av[j].0)
      {
        if j < |ai| {
          assert NamedBefore(init, ai[i].0, ai[j].0);
          var a, b :| 0 <= a < b < n - 1 && init[a].0 == ai[i].0 && init[b].0 == ai[j].0;
          assert scores[a] == init[a] && scores[b] == init[b];
        } else {
          assert ai[i] in ai;
          var a :| 0 <= a < n - 1 && |init[a].1| > 0 && ai[i] == (init[a].0, Mean(init[a].1));
          assert scores[a] == init[a];
          assert av[j].0 == scores[n - 1].0;
        }
      }
    }
  }

  /** `${section}: ${avg}/5`, with `fixed1` standing for `toFixed(1)`. */
  function AverageLine(name: string, avg: real, fixed1: real -> string): string {
    name + ": " + fixed1(avg) + "/5"
  }

  function AverageLines(avgs: seq<(string, real)>, fixed1: real -> string): (r: seq<string>)
    ensures |r| == |avgs|
  {
    seq(|avgs|, i requires 0 <= i < |avgs| => AverageLine(avgs[i].0, avgs[i].1, fixed1))
  }

  /** The averages page: one line per section with a counted score, each
      the section and the mean of its scores. */
  lemma AverageLinesSpec(scores: Groups<int>, fixed1: real -> string)
    ensures forall line :: line in AverageLines(Averages(scores), fixed1) <==>
      exists i :: 0 <= i < |scores| && |scores[i].1| > 0 &&
        line == AverageLine(scores[i].0, Mean(scores[i].1), fixed1)
  {
    AveragesSpec(scores);
    var avgs := Averages(scores);
    var lines := AverageLines(avgs, fixed1);
    forall line | line in lines
      ensures exists i :: (0 <= i < |scores| && |scores[i].1| > 0 &&
        line == AverageLine(scores[i].0, Mean(scores[i].1), fixed1))
    {
      var k :| 0 <= k < |lines| && lines[k] == line;
      assert avgs[k] in avgs;
    }
    forall i | 0 <= i < |scores| && |scores[i].1| > 0
      ensures AverageLine(scores[i].0, Mean(scores[i].1), fixed1) in lines
    {
      var p := (scores[i].0, Mean(scores[i].1));
      assert p in avgs;
      var k :| 0 <= k < |avgs| && avgs[k] == p;
      assert lines[k] == AverageLine(p.0, p.1, fixed1);
    }
  }

  /** The three lines of a record: `Vraag: `, `Antwoord: `, `Cijfer: `. */
  function EntryLines(e: Entry): seq<string> {
    ["Vraag: " + e.question, "Antwoord: " + e.answer, "Cijfer: " + e.score]
  }

  /** The lines of one section: its name, then the lines of its records. */
  function GroupLines(es: seq<Entry>): seq<string>
    decreases |es|
  {
    if |es| == 0 then [] else GroupLines(es[..|es| - 1]) + EntryLines(es[|es| - 1])
  }

  /** The "Vragen en Antwoorden" part of the PDF. */
  function SectionLines(g: Groups<Entry>): seq<string>
    decreases |g|
  {
    if |g| == 0 then [] else SectionLines(g[..|g| - 1]) + [g[|g| - 1].0] + GroupLines(g[|g| - 1].1)
  }

  lemma {:induction false} GroupLinesSize(es: seq<Entry>)
    ensures |GroupLines(es)| == 3 * |es|
    decreases |es|
  {
    if |es| > 0 {
      GroupLinesSize(es[..|es| - 1]);
    }
  }

  lemma {:induction false} SectionLinesSize(g: Groups<Entry>)
    ensures |SectionLines(g)| == |g| + 3 * TotalSize(g)
    decreases |g|
  {
    if |g| > 0 {
      SectionLinesSize(g[..|g| - 1]);
      GroupLinesSize(g[|g| - 1].1);
    }
  }

  /** The PDF has one heading per distinct section and three lines per answer
      key. */
  lemma SectionLinesOfForm(f: Fields)
    requires Collect(f).Success?
    ensures |SectionLines(Collect(f).value.sections)| ==
      |Collect(f).value.sections| + 3 * |AnswerKeys(f)|
  {
    CollectKeepsEveryRecord(f);
    SectionLinesSize(Collect(f).value.sections);
  }
}

=== FILE: latin1.dfy ===
/** The fallback text mode used when the Unicode fonts cannot be fetched:
    `sanitize_text_for_latin1` and `utext` (app.py:59-69, 103-104; the copy
    in netlify/functions/submit.py:52-62, 82-83 is the same code). */
module Latin1 {
  import opened Text

  /** The substitution table, in the order `sanitize_text_for_latin1` applies it. */
  const Table: seq<(char, string)> := [
    ('\U{2019}', "'"), ('\U{2018}', "'"), ('\U{201C}', "\""), ('\U{201D}', "\""),
    ('\U{2013}', "-"), ('\U{2014}', "-"), ('\U{2026}', "..."), ('\U{20AC}', "EUR"),
    ('\U{00A0}', " ")]

  /** `for k, v in repl.items(): txt = txt.replace(k, v)`, from entry `i` on. */
  function ReplaceFrom(s: string, i: nat): string
    requires i <= |Table|
    decreases |Table| - i
  {
    if i == |Table| then s else ReplaceFrom(Replace(s, [Table[i].0], Table[i].1), i + 1)
  }

  /** `txt.encode("latin-1", "replace").decode("latin-1")`. */
  function EncodeReplace(s: string): string {
    seq(|s|, k requires 0 <= k < |s| => if s[k] as int <= 0xFF then s[k] else '?')
  }

  /** `sanitize_text_for_latin1`, as written: the table passes, then the
      Latin-1 round trip. */
  function Sanitize(txt: string): string {
    EncodeReplace(ReplaceFrom(txt, 0))
  }

  /** What one input character turns into: its table entry, itself when it
      is Latin-1, and `?` otherwise. */
  function SanitizeChar(c: char): string {
    match c
    case '\U{2019}' => "'"
    case '\U{2018}' => "'"
    case '\U{201C}' => "\""
    case '\U{201D}' => "\""
    case '\U{2013}' => "-"
    case '\U{2014}' => "-"
    case '\U{2026}' => "..."
    case '\U{20AC}' => "EUR"
    case '\U{00A0}' => " "
    case _ => if c as int <= 0xFF then [c] else "?"
  }

  /** Character-by-character reference definition of the sanitiser. */
  function SanitizeRef(s: string): string
    decreases |s|
  {
    if |s| == 0 then "" else SanitizeChar(s[0]) + SanitizeRef(s[1..])
  }

  /** `utext`: the text as given when the Unicode fonts are loaded, sanitised
      otherwise; in fallback mode every character handed to the PDF is
      Latin-1. */
  function UText(unicodeOk: bool, t: string): (r: string)
    ensures unicodeOk ==> r == t
    ensures !unicodeOk ==> forall k :: 0 <= k < |r| ==> r[k] as int <= 0xFF
  {
    if unicodeOk then t else SanitizeOutput(t); Sanitize(t)
  }

  /** Every table key lies above ASCII, every table value inside it. */
  lemma TableShape()
    ensures forall i :: 0 <= i < |Table| ==> Table[i].0 as int >= 0xA0
    ensures forall i, k :: 0 <= i < |Table| && 0 <= k < |Table[i].1| ==> Table[i].1[k] as int < 0x80
  {
  }

  /** The first table value for `c` at index `i` or later; `[c]` if none. */
  function TableLookup(c: char, i: nat): string
    requires i <= |Table|
    decreases |Table| - i
  {
    if i == |Table| then [c] else if Table[i].0 == c then Table[i].1 else TableLookup(c, i + 1)
  }

  lemma {:induction false} ReplaceFromAppend(a: string, b: string, i: nat)
    requires i <= |Table|
    ensures ReplaceFrom(a + b, i) == ReplaceFrom(a, i) + ReplaceFrom(b, i)
    decreases |Table| - i
  {
    if i < |Table| {
      ReplaceCharAppend(a, b, Table[i].0, Table[i].1);
      ReplaceFromAppend(Replace(a, [Table[i].0], Table[i].1), Replace(b, [Table[i].0], Table[i].1), i + 1);
    }
  }

  /** ASCII text passes the table untouched. */
  lemma {:induction false} ReplaceFromAscii(v: string, i: nat)
    requires i <= |Table|
    requires forall k :: 0 <= k < |v| ==> v[k] as int < 0x80
    ensures ReplaceFrom(v, i) == v
    decreases |Table| - i
  {
    if i < |Table| {
      TableShape();
      ReplaceAbsentChar(v, [Table[i].0], Table[i].1, 0);
      ReplaceFromAscii(v, i + 1);
    }
  }

  lemma {:induction false} ReplaceFromSingle(c: char, i: nat)
    requires i <= |Table|
    ensures ReplaceFrom([c], i) == TableLookup(c, i)
    decreases |Table| - i
  {
    if i < |Table| {
      ReplaceCharSingle(c, Table[i].0, Table[i].1);
      if Table[i].0 == c {
        TableShape();
        ReplaceFromAscii(Table[i].1, i + 1);
      } else {
        ReplaceFromSingle(c, i + 1);
      }
    }
  }

  /** The sequential passes act on each character on its own. */
  lemma SanitizeSingle(c: char)
    ensures Sanitize([c]) == SanitizeChar(c)
  {
    ReplaceFromSingle(c, 0);
  }

  lemma EncodeReplaceAppend(x: string, y: string)
    ensures EncodeReplace(x + y) == EncodeReplace(x) + EncodeReplace(y)
  {
  }

  lemma SanitizeAppend(a: string, b: string)
    ensures Sanitize(a + b) == Sanitize(a) + Sanitize(b)
  {
    ReplaceFromAppend(a, b, 0);
    EncodeReplaceAppend(ReplaceFrom(a, 0), ReplaceFrom(b, 0));
  }

  /** The sanitiser as written (nine `replace` passes, then the Latin-1
      round trip) equals the character-by-character reference. */
  lemma {:induction false} SanitizeIsReference(s: string)
    ensures Sanitize(s) == SanitizeRef(s)
    decreases |s|
  {
    if |s| == 0 {
      assert Sanitize(s) == "";
    } else {
      assert s == [s[0]] + s[1..];
      SanitizeAppend([s[0]], s[1..]);
      SanitizeSingle(s[0]);
      SanitizeIsReference(s[1..]);
    }
  }

  /** Characters the sanitiser leaves alone. */
  predicate IsPlainLatin1(c: char) {
    c as int <= 0xFF && c != '\U{00A0}'
  }

  lemma {:induction false} SanitizeRefOutput(s: string)
    ensures forall k :: 0 <= k < |SanitizeRef(s)| ==> IsPlainLatin1(SanitizeRef(s)[k])
    decreases |s|
  {
    if |s| > 0 {
      SanitizeRefOutput(s[1..]);
      var h, t := SanitizeChar(s[0]), SanitizeRef(s[1..]);
      assert SanitizeRef(s) == h + t;
      forall k | 0 <= k < |h + t|
        ensures IsPlainLatin1((h + t)[k])
      {
        if k >= |h| {
          assert (h + t)[k] == t[k - |h|];
        }
      }
    }
  }

  lemma {:induction false} SanitizeRefPlain(s: string)
    requires forall k :: 0 <= k < |s| ==> IsPlainLatin1(s[k])
    ensures SanitizeRef(s) == s
    decreases |s|
  {
    if |s| > 0 {
      SanitizeRefPlain(s[1..]);
    }
  }

  /** Every output character is a Latin-1 character other than NBSP. */
  lemma SanitizeOutput(s: string)
    ensures forall k :: 0 <= k < |Sanitize(s)| ==> IsPlainLatin1(Sanitize(s)[k])
  {
    SanitizeIsReference(s);
    SanitizeRefOutput(s);
  }

  /** Text made only of Latin-1 characters other than NBSP is unchanged. */
  lemma SanitizeKeepsPlain(s: string)
    requires forall k :: 0 <= k < |s| ==> IsPlainLatin1(s[k])
    ensures Sanitize(s) == s
  {
    SanitizeIsReference(s);
    SanitizeRefPlain(s);
  }

  /** Sanitising twice is sanitising once. */
  lemma SanitizeIdempotent(s: string)
    ensures Sanitize(Sanitize(s)) == Sanitize(s)
  {
    SanitizeOutput(s);
    SanitizeKeepsPlain(Sanitize(s));
  }

  /** The sanitiser neither adds nor removes line breaks. */
  lemma {:induction false} SanitizeRefNewlines(s: string)
    ensures CountChar(SanitizeRef(s), '\n') == CountChar(s, '\n')
    decreases |s|
  {
    if |s| > 0 {
      SanitizeRefNewlines(s[1..]);
      CountCharAppend(SanitizeChar(s[0]), SanitizeRef(s[1..]), '\n');
      assert s == [s[0]] + s[1..];
      CountCharAppend([s[0]], s[1..], '\n');
      var h := SanitizeChar(s[0]);
      if s[0] != '\n' {
        assert '\n' !in h;
        CountCharAbsent(h, '\n');
      }
    }
  }

  /** `utext` keeps the number of `"\n"`-separated paragraphs. */
  lemma UTextParagraphs(unicodeOk: bool, t: string)
    ensures |Split(UText(unicodeOk, t), '\n')| == |Split(t, '\n')|
  {
    SplitJoin(t, '\n');
    SplitJoin(UText(unicodeOk, t), '\n');
    if !unicodeOk {
      SanitizeIsReference(t);
      SanitizeRefNewlines(t);
    }
  }
}

=== FILE: mail.dfy ===
/** Whether a handler reports `email_sent`: the same test in app.py:436-462,
    netlify/functions/submit.py, functions/submit.js:132-166 and
    netlify/functions/submit.js:64-72. The transport itself is not part of
    this model; whether sending throws is an input. */
module Mail {
  import opened Wrappers
  import opened Form

  /** `EMAIL_USER` and `EMAIL_PASS` from the environment. */
  datatype Env = Env(user: Option<string>, pass: Option<string>)

  /** A value that Python and JavaScript both treat as true: present and not
      empty. */
  predicate Truthy(v: Option<string>) {
    v.Some? && v.value != ""
  }

  /** `email_sent`: user, password and recipient set, and sending did not
      throw. */
  function EmailSent(env: Env, f: Fields, sendThrows: bool): (sent: bool)
    ensures sent ==> Truthy(env.user) && Truthy(env.pass) && !sendThrows
    ensures sent ==> exists v :: ("email", v) in f && v != ""
  {
    Truthy(env.user) && Truthy(env.pass) && Truthy(Get(f, "email")) && !sendThrows
  }

  /** The mail goes out exactly when user and password are set, the first
      `email` field of the form is not empty, and sending does not throw. */
  lemma EmailSentIff(env: Env, f: Fields, sendThrows: bool)
    ensures EmailSent(env, f, sendThrows) <==>
      && Truthy(env.user) && Truthy(env.pass) && !sendThrows
      && exists i :: FirstWithKey(f, "email", i) && f[i].1 != ""
  {
    GetIsFirst(f, "email");
  }
}

=== FILE: numerals.dfy ===
/** Integer parsing and printing as the report code relies on it: Python's
    `int(str)` and `str(int)` (app.py:343-349, 384) and JavaScript's
    one-argument `parseInt` (functions/submit.js:39). Numbers are exact:
    JavaScript's double rounding of very long digit strings and Python's
    4300-digit conversion limit are not modelled. */
module Numerals {
  import opened Wrappers
  import opened Text

  predicate IsDigit(c: char) {
    '0' <= c <= '9'
  }

  function DigitValue(c: char): nat
    requires IsDigit(c)
  {
    c as int - '0' as int
  }

  function DigitChar(d: nat): (c: char)
    requires d < 10
    ensures IsDigit(c) && DigitValue(c) == d
  {
    ('0' as int + d) as char
  }

  /** The digit part `int()` accepts in base 10: digits, with single
      underscores allowed between two digits. */
  predicate IsUnderscoredDigits(s: string) {
    && |s| > 0 && IsDigit(s[0]) && IsDigit(s[|s| - 1])
    && (forall k :: 0 <= k < |s| ==> IsDigit(s[k]) || s[k] == '_')
    && (forall k :: 0 <= k < |s| - 1 ==> IsDigit(s[k]) || IsDigit(s[k + 1]))
  }

  /** The value of a digit string, skipping underscores. */
  function DigitsValue(s: string): nat
    requires forall k :: 0 <= k < |s| ==> IsDigit(s[k]) || s[k] == '_'
    decreases |s|
  {
    if |s| == 0 then 0
    else if s[|s| - 1] == '_' then DigitsValue(s[..|s| - 1])
    else 10 * DigitsValue(s[..|s| - 1]) + DigitValue(s[|s| - 1])
  }

  /** Splits an optional leading `+` or `-` off `t`. */
  function SplitSign(t: string): (r: (bool, string))
  {
    if |t| > 0 && t[0] == '-' then (true, t[1..])
    else if |t| > 0 && t[0] == '+' then (false, t[1..])
    else (false, t)
  }

  /** Python `int(s)` for a string `s`; `None` where it raises ValueError.
      Unicode decimal digits other than 0-9 are not modelled. */
  function ParsePyInt(s: string): Option<int> {
    var t := Trim(s, PyInt);
    var (negative, body) := SplitSign(t);
    if IsUnderscoredDigits(body) then Some(Signed(negative, DigitsValue(body))) else None
  }

  function Signed(negative: bool, v: nat): int {
    if negative then -(v as int) else v
  }

  function NatToString(n: nat): (r: string)
    ensures |r| > 0 && forall k :: 0 <= k < |r| ==> IsDigit(r[k])
    decreases n
  {
    if n < 10 then [DigitChar(n)] else NatToString(n / 10) + [DigitChar(n % 10)]
  }

  /** Python `str(n)` for an integer. */
  function IntToString(n: int): string {
    if n < 0 then "-" + NatToString(-n) else NatToString(n)
  }

  lemma {:induction false} NatToStringValue(n: nat)
    ensures IsUnderscoredDigits(NatToString(n))
    ensures DigitsValue(NatToString(n)) == n
    decreases n
  {
    var s := NatToString(n);
    if n >= 10 {
      NatToStringValue(n / 10);
      assert s[..|s| - 1] == NatToString(n / 10);
    }
  }

  /** `int(str(n)) == n`: the canonical score string parses back. */
  lemma ParseIntToString(n: int)
    ensures ParsePyInt(IntToString(n)) == Some(n)
  {
    var s := IntToString(n);
    NatToStringValue(if n < 0 then -n else n);
    assert Trim(s, PyInt) == s by {
      assert s == [s[0]] + s[1..];
      TrimStartStep(s[0], s[1..], PyInt);
      assert s == s[..|s| - 1] + [s[|s| - 1]];
      TrimEndStep(s[..|s| - 1], s[|s| - 1], PyInt);
    }
    if n < 0 {
      assert s[1..] == NatToString(-n);
    }
  }

  /** The printed form of an integer is never the placeholder `"-"`. */
  lemma IntToStringNotDash(n: int)
    ensures IntToString(n) != "-"
  {
    if n < 0 {
      assert |IntToString(n)| >= 2;
    } else {
      assert IsDigit(IntToString(n)[0]);
    }
  }

  /** Text that `str.strip()` empties never parses as an integer, so the
      handlers' emptiness test before `int()` (app.py:346) changes no outcome. */
  lemma BlankDoesNotParse(s: string)
    requires Strip(s) == ""
    ensures ParsePyInt(s) == None
  {
    StripEmptyIffAllWhitespace(s);
    var t := Trim(s, PyInt);
    var t0 := TrimStart(s, PyInt);
    TrimStartShape(s, PyInt);
    TrimEndShape(t0, PyInt);
    assert forall k :: 0 <= k < |t| ==> t[k] == s[|s| - |t0| + k];
    if |t| > 0 {
      assert IsPyWhitespace(t[0]);
      assert t[0] != '-' && t[0] != '+' && !IsDigit(t[0]);
    }
  }

  predicate IsRadixDigit(c: char, radix: nat) {
    if radix == 16 then IsDigit(c) || ('a' <= c <= 'f') || ('A' <= c <= 'F') else IsDigit(c)
  }

  function RadixDigitValue(c: char): nat {
    if IsDigit(c) then DigitValue(c)
    else if 'a' <= c <= 'f' then c as int - 'a' as int + 10
    else if 'A' <= c <= 'F' then c as int - 'A' as int + 10
    else 0
  }

  /** The longest prefix of `s` made of digits of `radix`. */
  function DigitPrefix(s: string, radix: nat): (r: string)
    ensures |r| <= |s| && r == s[..|r|]
    ensures forall k :: 0 <= k < |r| ==> IsRadixDigit(r[k], radix)
    ensures |r| < |s| ==> !IsRadixDigit(s[|r|], radix)
    decreases |s|
  {
    if |s| > 0 && IsRadixDigit(s[0], radix) then [s[0]] + DigitPrefix(s[1..], radix) else ""
  }

  function RadixValue(s: string, radix: nat): nat
    decreases |s|
  {
    if |s| == 0 then 0 else radix * RadixValue(s[..|s| - 1], radix) + RadixDigitValue(s[|s| - 1])
  }

  /** Splits a `0x`/`0X` prefix off `u`, which then selects base 16. */
  function SplitRadixPrefix(u: string): (r: (nat, string))
    ensures r.0 == 10 || r.0 == 16
  {
    if |u| >= 2 && u[0] == '0' && (u[1] == 'x' || u[1] == 'X') then (16, u[2..]) else (10, u)
  }

  /** JavaScript `parseInt(s)` without a radix; `None` stands for NaN.
      Parsing stops at the first character that is not a digit. */
  function JsParseInt(s: string): Option<int> {
    var (negative, u) := SplitSign(TrimStart(s, Js));
    var (radix, rest) := SplitRadixPrefix(u);
    var digits := DigitPrefix(rest, radix);
    if |digits| == 0 then None else Some(Signed(negative, RadixValue(digits, radix)))
  }

  lemma {:induction false} RadixValueDecimal(s: string)
    requires forall k :: 0 <= k < |s| ==> IsDigit(s[k])
    ensures RadixValue(s, 10) == DigitsValue(s)
    decreases |s|
  {
    if |s| > 0 {
      RadixValueDecimal(s[..|s| - 1]);
    }
  }

  lemma DigitPrefixAll(s: string, radix: nat)
    requires forall k :: 0 <= k < |s| ==> IsRadixDigit(s[k], radix)
    ensures DigitPrefix(s, radix) == s
  {
  }

  /** `parseInt` reads back what Python's `str(int)` prints. */
  lemma JsParseIntToString(n: int)
    ensures JsParseInt(IntToString(n)) == Some(n)
  {
    var m: nat := if n < 0 then -n else n;
    var d := NatToString(m);
    JsSignOfIntToString(n);
    JsDecimalDigits(d, m);
  }

  lemma JsSignOfIntToString(n: int)
    ensures SplitSign(TrimStart(IntToString(n), Js)) == (n < 0, NatToString(if n < 0 then -n else n))
  {
    var s := IntToString(n);
    assert s[0] == '-' || IsDigit(s[0]);
    assert TrimStart(s, Js) == s;
    if n < 0 {
      assert s[1..] == NatToString(-n);
    }
  }

  lemma JsDecimalDigits(d: string, m: nat)
    requires d == NatToString(m)
    ensures SplitRadixPrefix(d) == (10, d)
    ensures DigitPrefix(d, 10) == d && RadixValue(d, 10) == m
  {
    NatToStringValue(m);
    RadixValueDecimal(d);
    DigitPrefixAll(d, 10);
    assert IsDigit(d[0]);
    if |d| >= 2 {
      assert IsDigit(d[1]);
    }
  }

  lemma JsParseTrailingText()
    ensures JsParseInt("4x") == Some(4)
  {
    var s := "4x";
    assert TrimStart(s, Js) == s;
    assert SplitSign(s) == (false, s);
    assert SplitRadixPrefix(s) == (10, s);
    assert s[1..] == "x";
    assert DigitPrefix(s[1..], 10) == "";
    assert DigitPrefix(s, 10) == "4";
    assert RadixValue("4", 10) == 4 by {
      assert "4"[..0] == "";
    }
  }

  lemma PyParseTrailingText()
    ensures ParsePyInt("4x") == None
  {
    var s := "4x";
    assert TrimStart(s, PyInt) == s;
    assert TrimEnd(s, PyInt) == s;
    assert SplitSign(s) == (false, s);
    assert !IsUnderscoredDigits(s);
  }

  lemma JsParseHex()
    ensures JsParseInt("0x1F") == Some(31)
  {
    var s := "0x1F";
    assert s == ['0'] + "x1F";
    TrimStartStep('0', "x1F", Js);
    assert SplitSign(s) == (false, s);
    assert s[2..] == "1F";
    assert SplitRadixPrefix(s) == (16, "1F");
    HexDigits();
  }

  lemma HexDigits()
    ensures DigitPrefix("1F", 16) == "1F" && RadixValue("1F", 16) == 31
  {
    assert "1F"[1..] == "F";
    assert "F"[1..] == "";
    assert "1F"[..1] == "1";
    assert "1"[..0] == "";
  }

  lemma PyParseHex()
    ensures ParsePyInt("0x1F") == None
  {
    var s := "0x1F";
    assert TrimStart(s, PyInt) == s;
    assert TrimEnd(s, PyInt) == s;
    assert SplitSign(s) == (false, s);
    assert !IsDigit(s[1]);
  }

  lemma PyParseUnderscore()
    ensures ParsePyInt(" 1_0 ") == Some(10)
  {
    PyTrimUnderscore();
    UnderscoreDigits();
  }

  lemma PyTrimUnderscore()
    ensures Trim(" 1_0 ", PyInt) == "1_0"
  {
    assert " 1_0 " == [' '] + "1_0 ";
    TrimStartStep(' ', "1_0 ", PyInt);
    TrimStartStep('1', "_0 ", PyInt);
    assert "1_0 " == "1_0" + [' '];
    TrimEndStep("1_0", ' ', PyInt);
    assert "1_0" == "1_" + ['0'];
    TrimEndStep("1_", '0', PyInt);
  }

  lemma UnderscoreDigits()
    ensures SplitSign("1_0") == (false, "1_0")
    ensures IsUnderscoredDigits("1_0") && DigitsValue("1_0") == 10
  {
    assert "1_0"[..2] == "1_";
    assert "1_"[..1] == "1";
    assert "1"[..0] == "";
  }

  lemma JsParseUnderscore()
    ensures JsParseInt(" 1_0 ") == Some(1)
  {
    JsTrimUnderscore();
    JsUnderscoreDigits();
    assert RadixValue("1", 10) == 1 by {
      assert "1"[..0] == "";
    }
  }

  lemma JsTrimUnderscore()
    ensures TrimStart(" 1_0 ", Js) == "1_0 "
  {
    assert " 1_0 " == [' '] + "1_0 ";
    TrimStartStep(' ', "1_0 ", Js);
    TrimStartStep('1', "_0 ", Js);
  }

  lemma JsUnderscoreDigits()
    ensures SplitSign("1_0 ") == (false, "1_0 ")
    ensures SplitRadixPrefix("1_0 ") == (10, "1_0 ")
    ensures DigitPrefix("1_0 ", 10) == "1"
  {
    assert "1_0 "[1..] == "_0 ";
    assert DigitPrefix("_0 ", 10) == "";
  }

  /** The two dialects disagree on trailing text, on a hexadecimal prefix
      and on digit-group underscores. */
  lemma DialectsDisagree()
    ensures JsParseInt("4x") == Some(4) && ParsePyInt("4x") == None
    ensures JsParseInt("0x1F") == Some(31) && ParsePyInt("0x1F") == None
    ensures ParsePyInt(" 1_0 ") == Some(10) && JsParseInt(" 1_0 ") == Some(1)
  {
    JsParseTrailingText();
    PyParseTrailingText();
    JsParseHex();
    PyParseHex();
    PyParseUnderscore();
    JsParseUnderscore();
  }
}

=== FILE: pyitems.dfy ===
/** Item extraction in the two Python handlers (app.py:337-350; the same
    lines are netlify/functions/submit.py:202-215). */
module PyItems {
  import opened Wrappers
  import opened Text
  import opened Numerals
  import opened Form

  /** `(vraag, antwoord, sect, cust)`. */
  datatype Item = Item(question: string, answer: string, section: string, score: string)

  /** A score as it is stored on an item: `"-"`, or an integer printed by
      `str(int(...))`. */
  predicate IsScoreText(c: string) {
    c == "-" || (ParsePyInt(c).Some? && IntToString(ParsePyInt(c).value) == c)
  }

  /** `cust`: `"-"` for blank text, `str(int(raw))` when `int` accepts the
      text, and `"-"` when it raises. There is no range check. */
  function PyScore(raw: string): (r: string)
    ensures IsScoreText(r)
  {
    if Strip(raw) == "" then "-"
    else match ParsePyInt(raw)
      case Some(n) => ParseIntToString(n); IntToString(n)
      case None => "-"
  }

  /** `prefix.rsplit("_", 1)[0]`. */
  function PySection(prefix: string): string {
    RSplitHead(prefix, '_')
  }

  /** What extraction stores for answer key `k`: the label when its field
      exists, even when it is empty, and the key otherwise; the answer, or
      `""`; the part of the prefix before its last `_`, or the whole prefix
      without one; and the printed integer when `int` accepts the score
      text, `"-"` otherwise. */
  predicate ItemOfKey(f: Fields, k: string, it: Item)
    requires EndsWith(k, AnswerSuffix)
  {
    var p := Prefix(k);
    var given := Get(f, p + LabelSuffix);
    var raw := Get(f, p + ScoreSuffix).GetOr("");
    && it.question == (if given.Some? then given.value else k)
    && it.answer == Get(f, k).GetOr("")
    && ('_' !in p ==> it.section == p)
    && ('_' in p ==>
      |it.section| < |p| && p[..|it.section|] == it.section && p[|it.section|] == '_' && '_' !in p[|it.section| + 1..])
    && it.score == (if ParsePyInt(raw).Some? then IntToString(ParsePyInt(raw).value) else "-")
  }

  /** The item of answer key `k`. */
  function PyItem(f: Fields, k: string): (r: Item)
    requires EndsWith(k, AnswerSuffix)
    ensures ItemOfKey(f, k, r)
    ensures IsScoreText(r.score)
  {
    var prefix := Prefix(k);
    var raw := PyGet(f, prefix + ScoreSuffix, "");
    PyScoreMeaning(raw);
    Item(PyGet(f, prefix + LabelSuffix, k), PyGet(f, k, ""), PySection(prefix), PyScore(raw))
  }

  /** `items`: one item per answer key, in key order, each holding what
      `ItemOfKey` describes. */
  function PyExtract(f: Fields): (r: seq<Item>)
    ensures |r| == |AnswerKeys(f)|
    ensures forall i :: 0 <= i < |r| ==> ItemOfKey(f, AnswerKeys(f)[i], r[i])
    ensures forall i :: 0 <= i < |r| ==> IsScoreText(r[i].score)
  {
    var keys := AnswerKeys(f);
    seq(|keys|, i requires 0 <= i < |keys| => PyItem(f, keys[i]))
  }

  /** The blank test before `int()` changes nothing: the stored score is
      the printed integer exactly when `int` accepts the text. */
  lemma PyScoreMeaning(raw: string)
    ensures PyScore(raw) == if ParsePyInt(raw).Some? then IntToString(ParsePyInt(raw).value) else "-"
  {
    if Strip(raw) == "" {
      BlankDoesNotParse(raw);
    }
  }

  /** Any integer is kept as it is, 0, 7 and negative ones included. */
  lemma PyScoreNoRangeCheck(n: int)
    ensures PyScore(IntToString(n)) == IntToString(n)
  {
    ParseIntToString(n);
    PyScoreMeaning(IntToString(n));
  }

  /** A stored score other than `"-"` parses again, to the same value, so the
      `try`/`except` around `int(cust)` during grouping never fires. */
  lemma PyScoreReparses(raw: string)
    requires PyScore(raw) != "-"
    ensures ParsePyInt(PyScore(raw)) == ParsePyInt(raw)
  {
    PyScoreMeaning(raw);
    ParseIntToString(ParsePyInt(raw).value);
  }

  /** The Python section of a block is its section name, whatever it holds,
      `_` included: `rsplit` cuts at the last `_`, the one before the index. */
  lemma PySectionOfBlock(q: Question)
    ensures PySection(BaseName(q)) == q.section
  {
    NatToStringValue(q.index);
    assert '_' !in NatToString(q.index);
    assert BaseName(q) == q.section + ['_'] + NatToString(q.index);
    RSplitHeadOf(q.section, '_', NatToString(q.index));
  }

  /** Extraction from the questionnaire page: one item per block, in block
      order, carrying the question text (even an empty one), the answer, the
      section name, and `"-"` for a block without a clicked dot. */
  lemma PyExtractQuestionnaire(other: Fields, qs: seq<Question>)
    requires forall i :: 0 <= i < |other| ==> IsOtherKey(other[i].0)
    requires DistinctBlocks(qs)
    ensures PyExtract(other + QuestionForm(qs)) ==
      seq(|qs|, i requires 0 <= i < |qs| =>
        Item(qs[i].qText, qs[i].answer, qs[i].section, PyScore(qs[i].score.GetOr(""))))
  {
    PyExtractBlocks(other, qs);
  }

  lemma PyExtractBlocks(other: Fields, qs: seq<Question>)
    requires forall i :: 0 <= i < |other| ==> IsOtherKey(other[i].0)
    requires DistinctBlocks(qs)
    ensures |PyExtract(other + QuestionForm(qs))| == |qs|
    ensures forall i :: 0 <= i < |qs| ==>
      PyExtract(other + QuestionForm(qs))[i] == Item(qs[i].qText, qs[i].answer, qs[i].section, PyScore(qs[i].score.GetOr("")))
  {
    QuestionnaireAnswerKeys(other, qs);
    forall i | 0 <= i < |qs|
      ensures PyExtract(other + QuestionForm(qs))[i] ==
        Item(qs[i].qText, qs[i].answer, qs[i].section, PyScore(qs[i].score.GetOr("")))
    {
      PyExtractBlock(other, qs, i);
    }
  }

  lemma PyExtractBlock(other: Fields, qs: seq<Question>, i: nat)
    requires forall i :: 0 <= i < |other| ==> IsOtherKey(other[i].0)
    requires DistinctBlocks(qs) && i < |qs|
    ensures i < |PyExtract(other + QuestionForm(qs))|
    ensures PyExtract(other + QuestionForm(qs))[i] ==
      Item(qs[i].qText, qs[i].answer, qs[i].section, PyScore(qs[i].score.GetOr("")))
  {
    var f := other + QuestionForm(qs);
    QuestionnaireAnswerKeys(other, qs);
    assert PyExtract(f)[i] == PyItem(f, AnswerKeys(f)[i]);
    PyItemOfBlock(other, qs, i);
  }

  lemma PyItemOfBlock(other: Fields, qs: seq<Question>, i: nat)
    requires forall i :: 0 <= i < |other| ==> IsOtherKey(other[i].0)
    requires DistinctBlocks(qs) && i < |qs|
    ensures EndsWith(BaseName(qs[i]) + AnswerSuffix, AnswerSuffix)
    ensures PyItem(other + QuestionForm(qs), BaseName(qs[i]) + AnswerSuffix)
      == Item(qs[i].qText, qs[i].answer, qs[i].section, PyScore(qs[i].score.GetOr("")))
  {
    var b, q := BaseName(qs[i]), qs[i];
    SuffixesDiffer(b, b);
    var k := b + AnswerSuffix;
    SuffixCancel(Prefix(k), b, AnswerSuffix);
    assert Prefix(k) == b;
    QuestionFormLookup(qs, i);
    BlockKeysNotOther(b);
    OtherFieldsInvisible(other, k);
    OtherFieldsInvisible(other, b + LabelSuffix);
    OtherFieldsInvisible(other, b + ScoreSuffix);
    GetAppend(other, QuestionForm(qs), k);
    GetAppend(other, QuestionForm(qs), b + LabelSuffix);
    GetAppend(other, QuestionForm(qs), b + ScoreSuffix);
    PySectionOfBlock(q);
  }
}

=== FILE: radar.dfy ===
/** The radar series of the Python handlers (app.py:395-404, the same as
    netlify/functions/submit.py:260-269): values and angles closed by
    repeating their first element. Angles are fractions of a full turn. */
module Radar {
  import opened Wrappers

  /** `xs + xs[:1]`: closing a non-empty series adds one point, equal to
      the first, and keeps the rest; the empty series stays empty. */
  function Close<T>(xs: seq<T>): (r: seq<T>)
    ensures |xs| == 0 ==> r == []
    ensures |xs| > 0 ==> |r| == |xs| + 1 && r[..|xs|] == xs && r[|xs|] == xs[0]
  {
    xs + xs[..if |xs| > 0 then 1 else 0]
  }

  /** The fraction `k / n` of a full turn. */
  function Frac(k: nat, n: nat): real {
    if n == 0 then 0.0 else k as real / n as real
  }

  /** The fractions `k / n` rise with `k`. */
  lemma FracIncreasing(n: nat)
    ensures forall j: nat, k: nat :: j < k < n ==> Frac(j, n) < Frac(k, n)
  {
    forall j: nat, k: nat | j < k < n
      ensures Frac(j, n) < Frac(k, n)
    {
      assert j as real / n as real < k as real / n as real;
    }
  }

  /** `np.linspace(0, 2π, n, endpoint=False)`, in turns: `k / n`. The angles
      start at 0, go up in equal steps and stay below a full turn. */
  function Angles(n: nat): (r: seq<real>)
    ensures |r| == n
    ensures forall k :: 0 <= k < n ==> r[k] == k as real / n as real
    ensures forall k :: 0 <= k < n ==> 0.0 <= r[k] < 1.0
    ensures forall j, k :: 0 <= j < k < n ==> r[j] < r[k]
    ensures n > 0 ==> r[0] == 0.0
  {
    FracIncreasing(n);
    seq(n, k requires 0 <= k < n => Frac(k, n))
  }

  datatype Chart = Chart(labels: seq<string>, values: seq<real>, angles: seq<real>)

  /** The chart, drawn only when there is at least one section; its closed
      series have one point more than there are sections and end where
      they start. */
  function RadarChart(labels: seq<string>, values: seq<real>): (r: Option<Chart>)
    requires |labels| == |values|
    ensures r.Some? <==> |labels| > 0
    ensures r.Some? ==>
      && r.value.labels == labels
      && |r.value.values| == |r.value.angles| == |labels| + 1
      && r.value.values[..|labels|] == values
      && r.value.values[|labels|] == r.value.values[0] == values[0]
      && r.value.angles[|labels|] == r.value.angles[0] == 0.0
  {
    if |labels| == 0 then None
    else Some(Chart(labels, Close(values), Close(Angles(|labels|))))
  }
}

=== FILE: reports.dfy ===
/** What each of the four handlers answers to a request: app.py:328-478,
    netlify/functions/submit.py:187-340, functions/submit.js:5-184 and
    netlify/functions/submit.js:3-99. The PDF and the mail themselves are
    modelled elsewhere; here only the status code and the JSON body. */
module Reports {
  import opened Wrappers
  import opened Numerals
  import opened Form
  import opened Grouping
  import opened PyItems
  import opened Aggregation
  import opened JsItems
  import opened JsReport
  import opened Mail
  import opened Radar
  import opened Stoplight
  import opened Text
  import opened Stats

  /** A preflight request, or a POST whose JSON body is the form. */
  datatype Request = Options | Post(form: Fields)

  /** The response bodies: the empty preflight answer, app.py's
      `{"total_score_customer", "email_sent"}` (with `None` for `""`), the
      other handlers' `{"email_sent"}`, and `{"error"}`. */
  datatype Body = Empty | Scored(total: Option<real>, emailSent: bool) | Sent(emailSent: bool) | Error(message: string)

  datatype Response = Response(status: int, body: Body)

  /** No item has a score exactly when the flat list of scores is empty. */
  lemma {:induction false} AllScoresEmpty(items: seq<Item>)
    requires forall i :: 0 <= i < |items| ==> IsScoreText(items[i].score)
    ensures |AllScores(items)| == 0 <==> forall i :: 0 <= i < |items| ==> items[i].score == "-"
    decreases |items|
  {
    if |items| > 0 {
      var init := items[..|items| - 1];
      AllScoresEmpty(init);
      assert forall i :: 0 <= i < |init| ==> init[i] == items[i];
    }
  }

  /** `str(e)` of the `OverflowError` that `int / int` raises. */
  const OverflowMessage: string := "integer division result too large for a float"

  /** The Flask route. A section average that does not fit a double ends
      the section loop with `OverflowError`, before any mail is sent, and
      the `except` answers 500 with its message. */
  function AppSubmit(req: Request, env: Env, sendThrows: bool): (r: Response)
    ensures req.Options? ==> r == Response(204, Empty)
    ensures req.Post? ==> (r.status == 500 <==> SomeMeanOverflows(Grouped(PyExtract(req.form))))
    ensures req.Post? && r.status == 500 ==> r.body == Error(OverflowMessage)
    ensures req.Post? && r.status != 500 ==> r.status == 200 && r.body.Scored?
    ensures req.Post? && r.body.Scored? ==> r.body.emailSent == EmailSent(env, req.form, sendThrows)
    ensures req.Post? && r.body.Scored? ==>
      (r.body.total.None? <==> forall i :: 0 <= i < |PyExtract(req.form)| ==> PyExtract(req.form)[i].score == "-")
  {
    match req
    case Options => Response(204, Empty)
    case Post(f) =>
      var items := PyExtract(f);
      if SomeMeanOverflows(Grouped(items)) then Response(500, Error(OverflowMessage))
      else
        AllScoresEmpty(items);
        Response(200, Scored(Total(items), EmailSent(env, f, sendThrows)))
  }

  /** The Netlify Python function: the Flask route without the average.
      The same section loop gives the same `OverflowError` and 500. */
  function NetlifyPySubmit(req: Request, env: Env, sendThrows: bool): (r: Response)
    ensures req.Options? ==> r == Response(200, Empty)
    ensures req.Post? ==> r.status == AppSubmit(req, env, sendThrows).status
    ensures req.Post? && r.status == 500 ==> r.body == AppSubmit(req, env, sendThrows).body
    ensures req.Post? && r.status == 200 ==> r.body == Sent(AppSubmit(req, env, sendThrows).body.emailSent)
    ensures req.Post? && SomeMeanOverflows(Grouped(PyExtract(req.form))) ==>
      r == Response(500, Error(OverflowMessage))
    ensures req.Post? && !SomeMeanOverflows(Grouped(PyExtract(req.form))) ==>
      r == Response(200, Sent(EmailSent(env, req.form, sendThrows)))
  {
    match req
    case Options => Response(200, Empty)
    case Post(f) =>
      if SomeMeanOverflows(Grouped(PyExtract(f))) then Response(500, Error(OverflowMessage))
      else Response(200, Sent(EmailSent(env, f, sendThrows)))
  }

  /** functions/submit.js: the collection loop can throw, and the outer
      `catch` answers 500 with the message. */
  function JsSubmit(req: Request, env: Env, sendThrows: bool): (r: Response)
    ensures req.Options? ==> r == Response(200, Empty)
    ensures r.status == 200 || r.status == 500
    ensures r.status == 500 ==> r.body.Error?
  {
    match req
    case Options => Response(200, Empty)
    case Post(f) =>
      match Collect(f)
      case Failure(e) => Response(500, Error(e))
      case Success(_) => Response(200, Sent(EmailSent(env, f, sendThrows)))
  }

  /** netlify/functions/submit.js: a plain item list, no loop that throws. */
  function NetlifyJsSubmit(req: Request, env: Env, sendThrows: bool): (r: Response)
    ensures r.status == 200
    ensures req.Post? ==> r.body == Sent(EmailSent(env, req.form, sendThrows))
  {
    match req
    case Options => Response(200, Empty)
    case Post(f) => Response(200, Sent(EmailSent(env, f, sendThrows)))
  }

  /** app.py's overall average is the flat mean over every scored item of
      every section: the sum of the section sums over the number of scored
      items. It is reported unless a section average overflowed. */
  lemma AppTotalIsFlatMean(f: Fields, env: Env, sendThrows: bool)
    ensures var b := AppSubmit(Post(f), env, sendThrows).body;
      var g := Grouped(PyExtract(f));
      && (b.Scored? <==> !SomeMeanOverflows(g))
      && (b.Scored? ==> (b.total.Some? <==> GroupsSumBy(g, CountWeight) > 0))
      && (b.Scored? && b.total.Some? ==>
            b.total.value == GroupsSumBy(g, ScoreWeight) as real / GroupsSumBy(g, CountWeight) as real)
  {
    TotalIsFlatMean(PyExtract(f));
  }

  /** The two Python handlers give the same status to every post, the same
      error when it is 500, and agree on whether the mail went out when it
      is 200; only app.py reports the average, and the preflight codes
      differ. */
  lemma PythonHandlersAgree(req: Request, env: Env, sendThrows: bool)
    ensures req.Options? ==>
      AppSubmit(req, env, sendThrows).status == 204 && NetlifyPySubmit(req, env, sendThrows).status == 200
    ensures req.Post? ==>
      AppSubmit(req, env, sendThrows).status == NetlifyPySubmit(req, env, sendThrows).status
    ensures req.Post? && AppSubmit(req, env, sendThrows).status == 500 ==>
      AppSubmit(req, env, sendThrows).body == NetlifyPySubmit(req, env, sendThrows).body
    ensures req.Post? && AppSubmit(req, env, sendThrows).status == 200 ==>
      AppSubmit(req, env, sendThrows).body.emailSent == NetlifyPySubmit(req, env, sendThrows).body.emailSent
  {
  }

  /** Every failure of the collection loop is the `TypeError` of `.push`. */
  lemma {:induction false} CollectRowsError(rows: seq<(string, Entry)>)
    ensures CollectRows(rows).Failure? ==> CollectRows(rows).error == TypeError
    decreases |rows|
  {
    if |rows| > 0 {
      CollectRowsError(rows[..|rows| - 1]);
    }
  }

  /** functions/submit.js answers 500 exactly when some answer key's section
      is a name a plain object already has; the error is the `TypeError`.
      Otherwise it answers like netlify/functions/submit.js. */
  lemma JsSubmitFails(f: Fields, env: Env, sendThrows: bool)
    ensures JsSubmit(Post(f), env, sendThrows).status == 500 <==>
      exists i :: 0 <= i < |AnswerKeys(f)| && JsSection(Prefix(AnswerKeys(f)[i])) in ProtoNames
    ensures JsSubmit(Post(f), env, sendThrows).status == 500 ==>
      JsSubmit(Post(f), env, sendThrows).body == Error(TypeError)
    ensures JsSubmit(Post(f), env, sendThrows).status == 200 ==>
      JsSubmit(Post(f), env, sendThrows) == NetlifyJsSubmit(Post(f), env, sendThrows)
  {
    CollectFails(f);
    CollectRowsError(Rows(f));
  }

  /** A form with only the contact fields and no answers: app.py reports
      no average and draws no section and no radar chart, and
      functions/submit.js collects no section and succeeds. */
  lemma NoAnswers(f: Fields, env: Env, sendThrows: bool)
    requires forall i :: 0 <= i < |f| ==> !EndsWith(f[i].0, AnswerSuffix)
    ensures AppSubmit(Post(f), env, sendThrows) == Response(200, Scored(None, EmailSent(env, f, sendThrows)))
    ensures Grouped(PyExtract(f)) == []
    ensures RadarChart(Names(Grouped(PyExtract(f))), RadarValues(Grouped(PyExtract(f)))).None?
    ensures Collect(f) == Success(Collected([], []))
  {
    AnswerKeysMembers(f);
    if |AnswerKeys(f)| > 0 {
      assert AnswerKeys(f)[0] in AnswerKeys(f);
      assert false;
    }
    assert PyExtract(f) == [];
    assert GroupRows(PyExtract(f)) == [];
    assert !SomeMeanOverflows(Grouped(PyExtract(f)));
    assert AppSubmit(Post(f), env, sendThrows).body.Scored?;
    assert Rows(f) == [];
  }

  /** Two sections with one answered question each. */
  const ScenarioBlocks: seq<Question> :=
    [Question("T1", 1, "q1", "a1", Some("4")), Question("T2", 1, "q2", "a2", Some("2"))]

  lemma ScenarioScores()
    ensures PyScore("4") == "4" && PyScore("2") == "2"
    ensures ParsePyInt("4") == Some(4) && ParsePyInt("2") == Some(2)
  {
    ParseIntToString(4);
    ParseIntToString(2);
    assert IntToString(4) == "4" && IntToString(2) == "2";
    PyScoreMeaning("4");
    PyScoreMeaning("2");
  }

  /** The form the questionnaire page posts for those blocks. */
  const ScenarioForm: Fields := QuestionForm(ScenarioBlocks)

  lemma ScenarioItems()
    ensures PyExtract(ScenarioForm) == ScenarioList
  {
    var none: Fields := [];
    assert none + QuestionForm(ScenarioBlocks) == QuestionForm(ScenarioBlocks);
    assert DistinctBlocks(ScenarioBlocks);
    PyExtractQuestionnaire(none, ScenarioBlocks);
    ScenarioScores();
  }

  const ScenarioList: seq<Item> := [Item("q1", "a1", "T1", "4"), Item("q2", "a2", "T2", "2")]

  lemma ScenarioTotal()
    ensures forall i :: 0 <= i < |ScenarioList| ==> IsScoreText(ScenarioList[i].score)
    ensures Total(ScenarioList) == Some(3.0)
  {
    ScenarioScores();
    assert IsScoreText("4") && IsScoreText("2");
    var i1, i2 := ScenarioList[0], ScenarioList[1];
    var none: seq<Item> := [];
    AllScoresSnoc(none, i1);
    assert none + [i1] == [i1];
    AllScoresSnoc([i1], i2);
    assert [i1] + [i2] == ScenarioList;
    assert AllScores(ScenarioList) == [4, 2];
    assert Sum([4, 2]) == 6 by {
      assert [4, 2][..1] == [4] && [4][..0] == [];
    }
  }

  lemma ScenarioAverages()
    ensures SubjectAverage([("q1", "a1", "4")]) == 4.0
    ensures SubjectAverage([("q2", "a2", "2")]) == 2.0
  {
    ScenarioScores();
    AverageOfOne(("q1", "a1", "4"), 4);
    AverageOfOne(("q2", "a2", "2"), 2);
  }

  lemma ScenarioListRadar()
    ensures Names(Grouped(ScenarioList)) == ["T1", "T2"]
    ensures RadarValues(Grouped(ScenarioList)) == [4.0, 2.0]
  {
    ScenarioGroups();
    var g := Grouped(ScenarioList);
    assert Names(g) == ["T1", "T2"];
    ScenarioAverages();
    RadarValuesOfTwo(g);
  }

  /** Section T1 scored 4 and section T2 scored 2: app.py reports the
      average 3. */
  lemma ScenarioAnswer(env: Env, sendThrows: bool)
    ensures AppSubmit(Post(ScenarioForm), env, sendThrows).status == 200
    ensures AppSubmit(Post(ScenarioForm), env, sendThrows).body.total == Some(3.0)
  {
    ScenarioItems();
    ScenarioTotal();
    ScenarioNoOverflow();
  }

  /** Scores 4 and 2 are far from the double range. */
  lemma ScenarioNoOverflow()
    ensures !SomeMeanOverflows(Grouped(ScenarioList))
  {
    ScenarioGroups();
    ScenarioRowsNoOverflow();
  }

  lemma ScenarioRowsNoOverflow()
    ensures !MeanOverflows([("q1", "a1", "4")]) && !MeanOverflows([("q2", "a2", "2")])
  {
    ScenarioScores();
    OneRowNoOverflow(("q1", "a1", "4"), 4);
    OneRowNoOverflow(("q2", "a2", "2"), 2);
  }

  lemma ScenarioGroups()
    ensures Grouped(ScenarioList) == [("T1", [("q1", "a1", "4")]), ("T2", [("q2", "a2", "2")])]
  {
    var x, y := ScenarioList[0], ScenarioList[1];
    assert ScenarioList == [x, y];
    GroupedSeparate(x, y);
  }

  /** The same form: the radar values are 4 and 2, and the lights are
      green and red. */
  lemma ScenarioRadar()
    ensures Names(Grouped(PyExtract(ScenarioForm))) == ["T1", "T2"]
    ensures RadarValues(Grouped(PyExtract(ScenarioForm))) == [4.0, 2.0]
    ensures BucketForScore(RadarValues(Grouped(PyExtract(ScenarioForm)))[0]) == Green
    ensures BucketForScore(RadarValues(Grouped(PyExtract(ScenarioForm)))[1]) == Red
  {
    ScenarioItems();
    ScenarioListRadar();
  }
}

=== FILE: rows.dfy ===
/** `ReportPDF._col_widths` and `ReportPDF.row_two_cols` (app.py:166-205; the
    same code is netlify/functions/submit.py:145-184): the geometry of one
    question row of the answer table. */
module Rows {
  import opened Wrappers
  import opened Text
  import opened Wrap

  const Pad: real := 1.4
  const LineH: real := 7.0
  const BandH: real := 8.0
  const FontSize: real := 11.0

  /** The two column widths: 48% of the printable width for the question,
      the rest for the answer. */
  function ColWidths(total: real): (r: (real, real))
    ensures r.0 + r.1 == total
    ensures r.0 == 0.48 * total
  {
    var w1 := total * 0.48;
    (w1, total - w1)
  }

  datatype Rect = Rect(x: real, y: real, w: real, h: real)

  /** What a row draws: the two bordered cells, the filled score band, the
      score cell inside it, and where it leaves the cursor. */
  datatype Row = Row(left: Rect, right: Rect, band: Rect, scoreCell: Rect, scoreText: string,
                     leftLines: nat, rightLines: nat, cursor: (real, real), pdf: Pdf)

  function TextHeight(lines: nat): real {
    lines as real * LineH + 2.0 * Pad
  }

  /** The drawing of a row whose cells hold `nl` question lines and `nr`
      answer lines. Both cells start at the row's top with one height, side
      by side and as wide as the page; that height is the smallest that
      holds the question lines, and the counted answer lines above the band; the band
      closes the answer cell; the cursor ends at the start of the next row. */
  function RowLayout(total: real, x0: real, y0: real, nl: nat, nr: nat, cust: string, pdf: Pdf): (r: Row)
    ensures r.leftLines == nl && r.rightLines == nr && r.pdf == pdf
    ensures r.left.x == x0 && r.left.y == y0 && r.right.y == y0 && r.right.h == r.left.h
    ensures r.right.x == r.left.x + r.left.w && r.left.w + r.right.w == total
    ensures r.left.w == ColWidths(total).0
    ensures r.left.h >= TextHeight(nl) && r.left.h >= TextHeight(nr) + BandH
    ensures r.left.h == TextHeight(nl) || r.left.h == TextHeight(nr) + BandH
    ensures r.band.y >= y0 + TextHeight(nr)
    ensures r.band.x == r.right.x && r.band.w == r.right.w && r.band.y + r.band.h == r.right.y + r.right.h
    ensures r.band.y < r.scoreCell.y && r.scoreCell.y + r.scoreCell.h < r.band.y + r.band.h
    ensures r.cursor == (x0, y0 + r.left.h)
  {
    var (w1, w2) := ColWidths(total);
    var hLeft := TextHeight(nl);
    var hTxt := TextHeight(nr);
    var h := if hLeft >= hTxt + BandH then hLeft else hTxt + BandH;
    var yb := y0 + h - BandH;
    Row(Rect(x0, y0, w1, h), Rect(x0 + w1, y0, w2, h), Rect(x0 + w1, yb, w2, BandH),
      Rect(x0 + w1 + Pad, yb + (BandH - 6.0) / 2.0, w2 - Pad, 6.0),
      "Cijfer klant: " + cust, nl, nr, (x0, y0 + h), pdf)
  }

  /** `row_two_cols`: the line counts are those of the question in bold and
      of `"Antwoord: " + right` in regular type, measured over the widths
      inside the padding; every row is at least one answer line, its
      padding and the band high; the row keeps the PDF's font mode and ends
      in the regular Unicode-or-core font. */
  function RowTwoCols(pdf: Pdf, cw: CharWidth, total: real, x0: real, y0: real,
                      left: string, right: string, cust: string): (r: Row)
    ensures r.leftLines == NbLines(pdf, cw, ColWidths(total).0 - 2.0 * Pad, Some(left), true, FontSize).0
    ensures r.rightLines == NbLines(pdf, cw, ColWidths(total).1 - 2.0 * Pad, Some(AnswerLabel + " " + right), false, FontSize).0
    ensures r.leftLines >= 1 && r.rightLines >= 1
    ensures r.left.h >= LineH + 2.0 * Pad + BandH
    ensures r.pdf.unicodeOk == pdf.unicodeOk && r.pdf.font == UFont(pdf.unicodeOk, FontSize, false)
  {
    var leftCount := NbLines(pdf, cw, ColWidths(total).0 - 2.0 * Pad, Some(left), true, FontSize);
    var rightCount := NbLines(leftCount.1, cw, ColWidths(total).1 - 2.0 * Pad, Some(AnswerLabel + " " + right), false, FontSize);
    RowLayout(total, x0, y0, leftCount.0, rightCount.0, cust, rightCount.1.(font := UFont(pdf.unicodeOk, FontSize, false)))
  }

  /** The row is the layout of its two line counts. */
  lemma RowIsLayout(pdf: Pdf, cw: CharWidth, total: real, x0: real, y0: real, left: string, right: string, cust: string)
    ensures var r := RowTwoCols(pdf, cw, total, x0, y0, left, right, cust);
      r == RowLayout(total, x0, y0, r.leftLines, r.rightLines, cust, r.pdf)
  {
  }

  /** A one-line question beside a one-line answer gives the minimum row,
      17.8 high; the counter gives a one-word answer at most two lines. */
  lemma ShortRow(pdf: Pdf, cw: CharWidth, total: real, x0: real, y0: real, words: seq<string>, x: string, cust: string)
    requires pdf.unicodeOk && NonNegative(cw)
    requires |words| > 0 && forall i :: 0 <= i < |words| ==> PlainWord(words[i])
    requires PlainWord(x)
    requires Width(cw, UFont(true, FontSize, true), Join(words, ' ')) <= ColWidths(total).0 - 2.0 * Pad
    requires Width(cw, UFont(true, FontSize, false), AnswerLabel) <= ColWidths(total).1 - 2.0 * Pad
    ensures var r := RowTwoCols(pdf, cw, total, x0, y0, Join(words, ' '), x, cust);
      && r.leftLines == 1 && r.rightLines <= 2
      && (Width(cw, UFont(true, FontSize, false), AnswerLabel + " " + x) <= ColWidths(total).1 - 2.0 * Pad ==>
          r.left.h == LineH + 2.0 * Pad + BandH)
  {
    var q := Join(words, ' ');
    RowIsLayout(pdf, cw, total, x0, y0, q, x, cust);
    NbLinesFittingWords(pdf, cw, ColWidths(total).0 - 2.0 * Pad, words, true, FontSize);
    AnswerCellLines(pdf, cw, ColWidths(total).1 - 2.0 * Pad, x, FontSize);
  }
}

=== FILE: stats.dfy ===
/** Sums and means of parsed scores. Numbers are exact: the handlers'
    floating point and its rounding are not part of this model. */
module Stats {

  function Sum(xs: seq<int>): int
    decreases |xs|
  {
    if |xs| == 0 then 0 else Sum(xs[..|xs| - 1]) + xs[|xs| - 1]
  }

  /** `sum(xs) / len(xs)` in Python and
      `xs.reduce((a, b) => a + b, 0) / xs.length` in JavaScript. */
  function Mean(xs: seq<int>): real
    requires |xs| > 0
  {
    Sum(xs) as real / |xs| as real
  }

  lemma {:induction false} SumAppend(xs: seq<int>, ys: seq<int>)
    ensures Sum(xs + ys) == Sum(xs) + Sum(ys)
    decreases |ys|
  {
    if |ys| == 0 {
      assert xs + ys == xs;
    } else {
      var zs := xs + ys;
      assert zs[..|zs| - 1] == xs + ys[..|ys| - 1];
      SumAppend(xs, ys[..|ys| - 1]);
    }
  }

  /** A mean lies between the least and the greatest value. */
  lemma {:induction false} MeanBounds(xs: seq<int>, lo: int, hi: int)
    requires |xs| > 0
    requires forall i :: 0 <= i < |xs| ==> lo <= xs[i] <= hi
    ensures lo as real <= Mean(xs) <= hi as real
  {
    SumBounds(xs, lo, hi);
  }

  lemma {:induction false} SumBounds(xs: seq<int>, lo: int, hi: int)
    requires forall i :: 0 <= i < |xs| ==> lo <= xs[i] <= hi
    ensures lo * |xs| <= Sum(xs) <= hi * |xs|
    decreases |xs|
  {
    if |xs| > 0 {
      SumBounds(xs[..|xs| - 1], lo, hi);
    }
  }
}

=== FILE: stoplight.dfy ===
/** The traffic-light overlay of app.py (lines 208-313): the colour bucket
    of a score, the normalised section name, the table of light positions
    and the placement of the lights on the model image. */
module Stoplight {
  import opened Wrappers
  import opened Text

  datatype Bucket = Red | Yellow | Green

  /** `bucket_for_score(v)`: red below 2.5, yellow from 2.5 to 3.5 with
      both ends included, green above 3.5. */
  function BucketForScore(v: real): (b: Bucket)
    ensures b == Red <==> v < 2.5
    ensures b == Yellow <==> 2.5 <= v <= 3.5
    ensures b == Green <==> v > 3.5
  {
    if v < 2.5 then Red else if v <= 3.5 then Yellow else Green
  }

  function Rank(b: Bucket): nat {
    match b
    case Red => 0
    case Yellow => 1
    case Green => 2
  }

  /** A higher score never gets a worse colour. */
  lemma BucketMonotone(u: real, v: real)
    requires u <= v
    ensures Rank(BucketForScore(u)) <= Rank(BucketForScore(v))
  {
  }

  /** The average 0 of a section without scores shows red. */
  lemma SentinelIsRed()
    ensures BucketForScore(0.0) == Red
  {
  }

  // Section names.

  const AnalysisAliases: seq<string> :=
    ["analyse gegevens", "analyse van gegevens", "gegevensanalyse", "data analyse", "data-analyse"]

  const AnalysisKey: string := "gegevens analyseren"
  const PrepKey: string := "werk voorbereiden"
  const ExecKey: string := "uitvoeren werkzaamheden"
  const CloseKey: string := "werk afhandelen en controleren"
  const PlanKey: string := "inregelen onderhoudsplan"
  const MreKey: string := "maintenance & reliability engineering"
  const StrategyKey: string := "am-strategie"

  /** `norm_name(s)`. The first replacement swaps a quote for the same
      quote and changes nothing. */
  function NormName(s: string): string {
    Rules(Renamed(Cleaned(Strip(Lower(s)))))
  }

  /** The quote, ampersand and double-space replacements. */
  function Cleaned(t: string): string {
    Replace(Replace(Replace(t, "'", "'"), "&", " & "), "  ", " ")
  }

  /** The two renamings inside the name. */
  function Renamed(t: string): string {
    Replace(Replace(t, "werkvoorbereiding", PrepKey), "uitvoering onderhoud", ExecKey)
  }

  /** The whole-name rules: the analysis aliases, then the strategy and the
      maintenance & reliability rules. */
  function Rules(t: string): string {
    var t3 := if t in AnalysisAliases then AnalysisKey else t;
    var t4 := if Contains(t3, "am") && Contains(t3, "strategie") then StrategyKey else t3;
    if Contains(t4, "maintenance") && Contains(t4, "reliability") then MreKey else t4
  }

  /** `DEFAULT_STOPLIGHT_TOPPOS`: a key and the relative position of the
      top centre of its light. */
  const TopPos: seq<(string, (real, real))> := [
    (AnalysisKey, (0.39, 0.13)),
    (PrepKey, (0.77, 0.13)),
    (ExecKey, (0.96, 0.43)),
    (CloseKey, (0.77, 0.72)),
    (PlanKey, (0.39, 0.72)),
    (MreKey, (0.025, 0.43)),
    (StrategyKey, (0.50, 0.28))]

  function Keys(): (r: seq<string>)
    ensures |r| == |TopPos|
  {
    seq(|TopPos|, i requires 0 <= i < |TopPos| => TopPos[i].0)
  }

  /** `key in toppos` and `toppos[key]`; every position found lies in the
      unit square. */
  function Lookup(key: string): (r: Option<(real, real)>)
    ensures r.Some? <==> key in Keys()
    ensures r.Some? ==> exists i :: 0 <= i < |TopPos| && TopPos[i] == (key, r.value)
    ensures r.Some? ==> 0.0 <= r.value.0 <= 1.0 && 0.0 <= r.value.1 <= 1.0
  {
    TopPosInUnitSquare();
    LookupFrom(key, 0)
  }

  function LookupFrom(key: string, i: nat): (r: Option<(real, real)>)
    requires i <= |TopPos|
    ensures r.Some? <==> key in Keys()[i..]
    ensures r.Some? ==> exists j :: i <= j < |TopPos| && TopPos[j] == (key, r.value)
    decreases |TopPos| - i
  {
    if i == |TopPos| then None
    else if TopPos[i].0 == key then
      assert Keys()[i..][0] == key;
      Some(TopPos[i].1)
    else
      assert Keys()[i..] == [Keys()[i]] + Keys()[i + 1..];
      LookupFrom(key, i + 1)
  }

  /** Every position lies in the unit square. */
  lemma TopPosInUnitSquare()
    ensures forall i :: 0 <= i < |TopPos| ==>
      0.0 <= TopPos[i].1.0 <= 1.0 && 0.0 <= TopPos[i].1.1 <= 1.0
  {
  }

  /** No character `A`-`Z` or Latin-1 capital. */
  predicate LowerCase(s: string) {
    forall k :: 0 <= k < |s| ==> LowerChar(s[k]) == s[k]
  }

  /** A string that some character of `sub` is missing from does not
      contain `sub`. */
  lemma Lacks(s: string, sub: string, k: nat)
    requires k < |sub| && sub[k] !in s
    ensures !Contains(s, sub)
  {
    if Contains(s, sub) {
      ContainsChar(s, sub, k);
    }
  }

  /** Without two characters `p` in a row, `s` does not contain `p`. */
  lemma {:induction false} LacksPair(s: string, p: string)
    requires |p| == 2
    requires forall i :: 0 <= i < |s| - 1 ==> !(s[i] == p[0] && s[i + 1] == p[1])
    ensures !Contains(s, p)
    decreases |s|
  {
    if |s| >= 2 {
      assert s[..2] != p by {
        assert !(s[0] == p[0] && s[1] == p[1]);
      }
      assert forall i :: 0 <= i < |s[1..]| - 1 ==> !(s[1..][i] == p[0] && s[1..][i + 1] == p[1]) by {
        forall i | 0 <= i < |s[1..]| - 1
          ensures !(s[1..][i] == p[0] && s[1..][i + 1] == p[1])
        {
          assert s[1..][i] == s[i + 1] && s[1..][i + 1] == s[i + 2];
        }
      }
      LacksPair(s[1..], p);
    }
  }

  /** Replacing a string by itself changes nothing. */
  lemma {:induction false} ReplaceSame(s: string, p: string)
    requires |p| > 0
    ensures Replace(s, p, p) == s
    decreases |s|
  {
    if |s| >= |p| {
      if s[..|p|] == p {
        ReplaceSame(s[|p|..], p);
        assert s == s[..|p|] + s[|p|..];
      } else {
        ReplaceSame(s[1..], p);
        assert s == [s[0]] + s[1..];
      }
    }
  }

  /** No two characters `a`, `b` in a row. */
  predicate NoPair(s: string, a: char, b: char) {
    forall i :: 0 <= i < |s| - 1 ==> !(s[i] == a && s[i + 1] == b)
  }

  /** Lower case, stripped, no `&` and no double space. */
  predicate Plain(k: string) {
    && LowerCase(k)
    && (|k| > 0 ==> !IsPyWhitespace(k[0]) && !IsPyWhitespace(k[|k| - 1]))
    && '&' !in k && NoPair(k, ' ', ' ')
  }

  /** Neither renaming applies: each pattern has a character the name
      lacks. */
  predicate NotRenamed(k: string, iPrep: nat, iExec: nat) {
    && iPrep < |"werkvoorbereiding"| && "werkvoorbereiding"[iPrep] !in k
    && iExec < |"uitvoering onderhoud"| && "uitvoering onderhoud"[iExec] !in k
  }

  /** None of the whole-name rules applies. */
  predicate NoRule(k: string, iRel: nat) {
    && k !in AnalysisAliases
    && (NoPair(k, 'a', 'm') || 's' !in k)
    && iRel < |"reliability"| && "reliability"[iRel] !in k
  }

  /** A plain name is its own cleaned form, and keeps it through renaming
      when no renaming applies. */
  lemma PlainStages(k: string, iPrep: nat, iExec: nat)
    requires Plain(k) && NotRenamed(k, iPrep, iExec)
    ensures Lower(k) == k && Renamed(Cleaned(Strip(k))) == k
  {
    assert Lower(k) == k;
    StripNoEdgeWhitespace(k);
    ReplaceSame(k, "'");
    ReplaceAbsentChar(k, "&", " & ", 0);
    LacksPair(k, "  ");
    ReplaceAbsent(k, "  ", " ");
    ReplaceAbsentChar(k, "werkvoorbereiding", PrepKey, iPrep);
    ReplaceAbsentChar(k, "uitvoering onderhoud", ExecKey, iExec);
  }

  lemma RulesUnchanged(k: string, iRel: nat)
    requires NoRule(k, iRel)
    ensures Rules(k) == k
  {
    if 's' in k {
      LacksPair(k, "am");
    } else {
      Lacks(k, "strategie", 0);
    }
    Lacks(k, "reliability", iRel);
  }

  /** A plain name that no rule touches is its own normal form. */
  lemma NormNameUnchanged(k: string, iPrep: nat, iExec: nat, iRel: nat)
    requires Plain(k) && NotRenamed(k, iPrep, iExec) && NoRule(k, iRel)
    ensures NormName(k) == k
  {
    PlainStages(k, iPrep, iExec);
    RulesUnchanged(k, iRel);
  }

  /** The five keys without `&` and without a rule word: each is plain,
      lacks the characters of "werkvoorbereiding" and of "uitvoering
      onderhoud" at the indices given, and lacks the character of
      "reliability" at the index given, so that `NormNameUnchanged` applies
      to it. */
  lemma AnalysisKeyPlain()
    ensures Plain(AnalysisKey)
  {
    assert LowerCase(AnalysisKey) && NoPair(AnalysisKey, ' ', ' ');
  }

  lemma AnalysisKeyNotRenamed()
    ensures NotRenamed(AnalysisKey, 0, 0)
  {
  }

  lemma AnalysisKeyNoRule()
    ensures NoRule(AnalysisKey, 5)
  {
  }

  lemma PrepKeyPlain()
    ensures Plain(PrepKey)
  {
    assert LowerCase(PrepKey) && NoPair(PrepKey, ' ', ' ');
  }

  lemma PrepKeyNotRenamed()
    ensures NotRenamed(PrepKey, 16, 0)
  {
  }

  lemma PrepKeyNoRule()
    ensures NoRule(PrepKey, 10)
  {
  }

  lemma ExecKeyPlain()
    ensures Plain(ExecKey)
  {
    assert LowerCase(ExecKey) && NoPair(ExecKey, ' ', ' ');
  }

  lemma ExecKeyNotRenamed()
    ensures NotRenamed(ExecKey, 16, 9)
  {
  }

  lemma ExecKeyNoRule()
    ensures NoRule(ExecKey, 10)
  {
  }

  lemma CloseKeyPlain()
    ensures Plain(CloseKey)
  {
    assert LowerCase(CloseKey) && NoPair(CloseKey, ' ', ' ');
  }

  lemma CloseKeyNotRenamed()
    ensures NotRenamed(CloseKey, 16, 0)
  {
  }

  lemma CloseKeyNoRule()
    ensures NoRule(CloseKey, 10)
  {
  }

  lemma PlanKeyPlain()
    ensures Plain(PlanKey)
  {
    assert LowerCase(PlanKey) && NoPair(PlanKey, ' ', ' ');
  }

  lemma PlanKeyNotRenamed()
    ensures NotRenamed(PlanKey, 0, 2)
  {
  }

  lemma PlanKeyNoRule()
    ensures NoRule(PlanKey, 10)
  {
  }

  /** A prefix without the first character of the pattern is copied. */
  lemma {:induction false} ReplaceSkip(x: string, s: string, pat: string, rep: string)
    requires |pat| > 0 && pat[0] !in x
    ensures Replace(x + s, pat, rep) == x + Replace(s, pat, rep)
    decreases |x|
  {
    if |x| > 0 {
      var xs := x + s;
      assert xs[1..] == x[1..] + s;
      assert pat[0] !in x[1..] by {
        assert forall c :: c in x[1..] ==> c in x;
      }
      ReplaceSkip(x[1..], s, pat, rep);
      if |xs| >= |pat| {
        assert xs[..|pat|][0] == x[0] != pat[0];
        assert Replace(xs, pat, rep) == [xs[0]] + Replace(xs[1..], pat, rep);
      } else {
        ReplaceShort(s, pat, rep);
        ReplaceShort(xs, pat, rep);
      }
      assert x == [x[0]] + x[1..];
    } else {
      assert x + s == s;
    }
  }

  lemma ReplaceShort(s: string, pat: string, rep: string)
    requires 0 < |pat| && |s| < |pat|
    ensures Replace(s, pat, rep) == s
  {
  }

  /** How `a & b` and its widened form split around the ampersand. */
  lemma WidenShape(a: string, b: string)
    ensures a + " & " + b == (a + " ") + ("&" + (" " + b))
    ensures (a + " ") + (" & " + (" " + b)) == a + "  &  " + b
  {
  }

  /** A name `a & b` with one `&`: the ampersand is widened to ` & `... */
  lemma AmpersandWiden(a: string, b: string)
    requires '&' !in a && '&' !in b
    ensures Replace(a + " & " + b, "&", " & ") == a + "  &  " + b
  {
    var l, m, r := a + " ", "&", " " + b;
    WidenShape(a, b);
    ReplaceCharAppend(l, m + r, '&', " & ");
    ReplaceCharAppend(m, r, '&', " & ");
    ReplaceCharSingle('&', '&', " & ");
    assert '&' !in l && '&' !in r;
    ReplaceAbsentChar(l, "&", " & ", 0);
    ReplaceAbsentChar(r, "&", " & ", 0);
  }

  /** An occurrence of the pattern at the front is replaced. */
  lemma ReplaceAtFront(s: string, pat: string, rep: string)
    requires |pat| > 0
    ensures Replace(pat + s, pat, rep) == rep + Replace(s, pat, rep)
  {
    assert (pat + s)[..|pat|] == pat && (pat + s)[|pat|..] == s;
  }

  /** ... and the double spaces this leaves are folded back. */
  lemma AmpersandFold(a: string, b: string)
    requires ' ' !in a && |b| > 0 && b[0] != ' ' && NoPair(b, ' ', ' ')
    ensures Replace(a + "  &  " + b, "  ", " ") == a + " & " + b
  {
    var dbl, amp, one := "  ", "&", " ";
    var tail := amp + (dbl + b);
    assert a + "  &  " + b == a + (dbl + tail);
    ReplaceSkip(a, dbl + tail, dbl, one);
    assert Replace(a + (dbl + tail), dbl, one) == a + Replace(dbl + tail, dbl, one);
    ReplaceAtFront(tail, dbl, one);
    assert Replace(dbl + tail, dbl, one) == one + Replace(tail, dbl, one);
    ReplaceSkip(amp, dbl + b, dbl, one);
    assert Replace(tail, dbl, one) == amp + Replace(dbl + b, dbl, one);
    ReplaceAtFront(b, dbl, one);
    assert Replace(dbl + b, dbl, one) == one + Replace(b, dbl, one);
    LacksPair(b, dbl);
    ReplaceAbsent(b, dbl, one);
    assert Replace(b, dbl, one) == b;
    assert a + (one + (amp + (one + b))) == a + " & " + b;
  }

  /** The `&` of a name `a & b` comes back as it was. */
  lemma AmpersandRoundTrip(a: string, b: string)
    requires '&' !in a && '&' !in b && ' ' !in a
    requires |b| > 0 && b[0] != ' ' && NoPair(b, ' ', ' ')
    ensures Cleaned(a + " & " + b) == a + " & " + b
  {
    ReplaceSame(a + " & " + b, "'");
    AmpersandWiden(a, b);
    AmpersandFold(a, b);
  }

  /** What the maintenance & reliability key is made of. */
  predicate MrePieces(a: string, b1: string, b2: string) {
    var b := b1 + b2;
    var k := a + " & " + b;
    && a == "maintenance" && b1 == "reliability"
    && LowerCase(k) && !IsPyWhitespace(k[0]) && !IsPyWhitespace(k[|k| - 1])
    && '&' !in a && '&' !in b && ' ' !in a && |b| > 0 && b[0] != ' ' && NoPair(b, ' ', ' ')
    && 'w' !in k && 'u' !in k && 's' !in k && |k| == 37
  }

  lemma MreKeyPieces()
    ensures MrePieces("maintenance", "reliability", " engineering")
    ensures MreKey == "maintenance" + " & " + ("reliability" + " engineering")
  {
    var a, b1, b2 := "maintenance", "reliability", " engineering";
    var b := b1 + b2;
    var k := a + " & " + b;
    MreKeyLower(k);
    MreKeyChars(a, b, k);
    MreKeySpaces(b);
  }

  lemma MreKeySpaces(b: string)
    requires b == "reliability" + " engineering"
    ensures NoPair(b, ' ', ' ')
  {
  }

  lemma MreKeyLower(k: string)
    requires k == "maintenance" + " & " + ("reliability" + " engineering")
    ensures LowerCase(k) && !IsPyWhitespace(k[0]) && !IsPyWhitespace(k[|k| - 1]) && |k| == 37
    ensures MreKey == k
  {
  }

  lemma MreKeyChars(a: string, b: string, k: string)
    requires a == "maintenance" && b == "reliability" + " engineering" && k == a + " & " + b
    ensures '&' !in a && '&' !in b && ' ' !in a && |b| > 0 && b[0] != ' '
    ensures 'w' !in k && 'u' !in k && 's' !in k
  {
    MreWordLetters(a, b);
    AbsentAroundAmpersand('w', a, b);
    AbsentAroundAmpersand('u', a, b);
    AbsentAroundAmpersand('s', a, b);
  }

  lemma MreWordLetters(a: string, b: string)
    requires a == "maintenance" && b == "reliability" + " engineering"
    ensures 'w' !in a && 'w' !in b && 'u' !in a && 'u' !in b && 's' !in a && 's' !in b
  {
  }

  /** A letter other than space and `&` absent from both words is absent
      from `a & b`. */
  lemma AbsentAroundAmpersand(c: char, a: string, b: string)
    requires c != ' ' && c != '&' && c !in a && c !in b
    ensures c !in a + " & " + b
  {
    assert forall x :: x in a + " & " + b ==> x in a || x in " & " || x in b;
  }

  /** The `&` of this key is widened to ` & ` and folded back; the key then
      has both words of the last rule. */
  lemma MreKeyFixed()
    ensures NormName(MreKey) == MreKey
  {
    MreKeyPieces();
    MreFixed("maintenance", "reliability", " engineering");
  }

  lemma MreFixed(a: string, b1: string, b2: string)
    requires MrePieces(a, b1, b2)
    ensures NormName(a + " & " + (b1 + b2)) == MreKey
  {
    var b := b1 + b2;
    var k := a + " & " + b;
    assert Lower(k) == k;
    StripNoEdgeWhitespace(k);
    AmpersandRoundTrip(a, b);
    assert Cleaned(k) == k;
    ReplaceAbsentChar(k, "werkvoorbereiding", PrepKey, 0);
    ReplaceAbsentChar(k, "uitvoering onderhoud", ExecKey, 0);
    assert Renamed(k) == k;
    MreRules(a, b1, b2);
  }

  lemma MreRules(a: string, b1: string, b2: string)
    requires MrePieces(a, b1, b2)
    ensures Rules(a + " & " + (b1 + b2)) == MreKey
  {
    var k := a + " & " + (b1 + b2);
    assert k !in AnalysisAliases;
    Lacks(k, "strategie", 0);
    assert k[..|a|] == a;
    ContainsAt(k, a, 0);
    assert k[|a| + 3..|a| + 3 + |b1|] == b1;
    ContainsAt(k, b1, |a| + 3);
  }

  /** The strategy key passes the replacements unchanged and is mapped to
      itself by the strategy rule. */
  lemma StrategyKeyFixed()
    ensures NormName(StrategyKey) == StrategyKey
  {
    StrategyKeyFacts();
    PlainStages(StrategyKey, 0, 0);
    StrategyRules(StrategyKey);
  }

  lemma StrategyKeyFacts()
    ensures Plain(StrategyKey) && NotRenamed(StrategyKey, 0, 0)
  {
    assert Plain(StrategyKey);
  }

  lemma StrategyRules(k: string)
    requires k == "am-strategie"
    ensures Rules(k) == k
  {
    assert k !in AnalysisAliases;
    assert k[..2] == "am";
    ContainsAt(k, "am", 0);
    assert k[3..12] == "strategie";
    ContainsAt(k, "strategie", 3);
    Lacks(k, "reliability", 10);
  }

  /** Every key of the position table is its own normal form. */
  lemma KeysAreNormal()
    ensures Keys() == [AnalysisKey, PrepKey, ExecKey, CloseKey, PlanKey, MreKey, StrategyKey]
    ensures NormName(AnalysisKey) == AnalysisKey && NormName(PrepKey) == PrepKey
    ensures NormName(ExecKey) == ExecKey && NormName(CloseKey) == CloseKey
    ensures NormName(PlanKey) == PlanKey && NormName(MreKey) == MreKey
    ensures NormName(StrategyKey) == StrategyKey
  {
    KeysList();
    AnalysisKeyPlain();
    AnalysisKeyNotRenamed();
    AnalysisKeyNoRule();
    NormNameUnchanged(AnalysisKey, 0, 0, 5);
    PrepKeyPlain();
    PrepKeyNotRenamed();
    PrepKeyNoRule();
    NormNameUnchanged(PrepKey, 16, 0, 10);
    ExecKeyPlain();
    ExecKeyNotRenamed();
    ExecKeyNoRule();
    NormNameUnchanged(ExecKey, 16, 9, 10);
    CloseKeyPlain();
    CloseKeyNotRenamed();
    CloseKeyNoRule();
    NormNameUnchanged(CloseKey, 16, 0, 10);
    PlanKeyPlain();
    PlanKeyNotRenamed();
    PlanKeyNoRule();
    NormNameUnchanged(PlanKey, 0, 2, 10);
    MreKeyFixed();
    StrategyKeyFixed();
  }

  const AssetLabel: string := "Asset Management Strategie"
  const AssetName: string := "asset management strategie"

  /** The label of the questionnaire's strategy section has no `am` in it,
      so it normalises to a name that is not a key and gets no light. */
  lemma AssetManagementStrategieSkipped()
    ensures NormName(AssetLabel) == AssetName
    ensures Lookup(NormName(AssetLabel)).None?
  {
    AssetLower();
    AssetPlain();
    AssetUntouched();
    PlainStages(AssetName, 0, 0);
    RulesUnchanged(AssetName, 10);
    assert Strip(Lower(AssetLabel)) == Strip(AssetName);
    AssetNotKey();
  }

  lemma AssetLower()
    ensures Lower(AssetLabel) == AssetName
  {
  }

  lemma AssetPlain()
    ensures Plain(AssetName)
  {
    assert LowerCase(AssetName);
    assert NoPair(AssetName, ' ', ' ');
  }

  lemma AssetUntouched()
    ensures NotRenamed(AssetName, 0, 0) && NoRule(AssetName, 10)
  {
    assert NoPair(AssetName, 'a', 'm');
  }

  lemma AssetNotKey()
    ensures AssetName !in Keys()
  {
    KeysList();
  }

  lemma KeysList()
    ensures Keys() == [AnalysisKey, PrepKey, ExecKey, CloseKey, PlanKey, MreKey, StrategyKey]
  {
  }

  // Placement of the lights.

  datatype Lamp = Lamp(colour: Bucket, x: real, y: real, radius: real, active: bool)

  /** One drawn light: the housing's top-left corner and size, its three
      lamps from top to bottom, and where the score name goes. */
  datatype Light = Light(section: string, score: real, boxX: real, boxY: real, housingW: real, housingH: real,
                         lamps: seq<Lamp>, textAt: (real, real))

  function Min(a: real, b: real): real {
    if a <= b then a else b
  }

  function Max(a: real, b: real): real {
    if a >= b then a else b
  }

  const LampColours: seq<Bucket> := [Red, Yellow, Green]

  /** The light of one section on a `w` by `h` image, at relative position
      `pos`, clamped so that the housing stays on the image. On an image of
      non-negative size the housing lies on the image and the lamps, red,
      yellow and green from top to bottom, lie inside it, strictly one
      below the other when the image is not empty. Exactly one lamp is lit:
      the one of the score's bucket. */
  function PlaceLight(w: real, h: real, name: string, score: real, pos: (real, real)): (l: Light)
    ensures l.section == name && l.score == score
    ensures w >= 0.0 && h >= 0.0 ==>
      0.0 <= l.boxX && l.boxX + l.housingW <= w && 0.0 <= l.boxY && l.boxY + l.housingH <= h
    ensures |l.lamps| == 3
    ensures forall i :: 0 <= i < |l.lamps| ==> l.lamps[i].colour == LampColours[i]
    ensures w >= 0.0 && h >= 0.0 ==> forall i :: 0 <= i < |l.lamps| ==>
      && l.boxX <= l.lamps[i].x - l.lamps[i].radius && l.lamps[i].x + l.lamps[i].radius <= l.boxX + l.housingW
      && l.boxY <= l.lamps[i].y - l.lamps[i].radius && l.lamps[i].y + l.lamps[i].radius <= l.boxY + l.housingH
    ensures Min(w, h) > 0.0 ==> l.lamps[0].y < l.lamps[1].y < l.lamps[2].y
    ensures forall i :: 0 <= i < |l.lamps| ==> (l.lamps[i].active <==> i == Rank(BucketForScore(score)))
  {
    var hw := Min(w, h) * 0.060;
    var hh := Min(w, h) * 0.115;
    var radius := hw * 0.20;
    var padding := hw * 0.12;
    var cx := Max(hw / 2.0, Min(w - hw / 2.0, pos.0 * w));
    var top := Max(0.0, Min(h - hh, pos.1 * h));
    var ys := [top + padding + radius, top + hh / 2.0, top + hh - padding - radius];
    var active := BucketForScore(score);
    Light(name, score, cx - hw / 2.0, top, hw, hh,
      seq(3, i requires 0 <= i < 3 => Lamp(LampColours[i], cx, ys[i], radius, LampColours[i] == active)),
      (cx, top - 6.0))
  }

  /** The lights of `zip(labels, scores)`, skipping the labels whose
      normal form has no position. */
  function Lights(w: real, h: real, labels: seq<string>, scores: seq<real>): seq<Light>
    decreases |labels|
  {
    if |labels| == 0 || |scores| == 0 then []
    else
      var rest := Lights(w, h, labels[1..], scores[1..]);
      var pos := Lookup(NormName(labels[0]));
      if pos.Some? then [PlaceLight(w, h, labels[0], scores[0], pos.value)] + rest else rest
  }

  /** The light is drawn for one of the label and score pairs. */
  predicate FromPair(l: Light, labels: seq<string>, scores: seq<real>) {
    exists i :: 0 <= i < |labels| && i < |scores| && l.section == labels[i] && l.score == scores[i]
  }

  /** Every light is the one `PlaceLight` draws for a name with a
      position. */
  lemma {:induction false} LightsPlaced(w: real, h: real, labels: seq<string>, scores: seq<real>)
    ensures var ls := Lights(w, h, labels, scores);
      && |ls| <= |labels| && |ls| <= |scores|
      && forall j :: 0 <= j < |ls| ==>
        && Lookup(NormName(ls[j].section)).Some?
        && ls[j] == PlaceLight(w, h, ls[j].section, ls[j].score, Lookup(NormName(ls[j].section)).value)
    decreases |labels|
  {
    if |labels| > 0 && |scores| > 0 {
      LightsPlaced(w, h, labels[1..], scores[1..]);
    }
  }

  /** Every light is drawn for one of the label and score pairs. */
  lemma {:induction false} LightsFromPairs(w: real, h: real, labels: seq<string>, scores: seq<real>)
    ensures forall j :: 0 <= j < |Lights(w, h, labels, scores)| ==> FromPair(Lights(w, h, labels, scores)[j], labels, scores)
    decreases |labels|
  {
    if |labels| > 0 && |scores| > 0 {
      LightsFromPairs(w, h, labels[1..], scores[1..]);
      var rest := Lights(w, h, labels[1..], scores[1..]);
      forall j | 0 <= j < |rest|
        ensures FromPair(rest[j], labels, scores)
      {
        assert FromPair(rest[j], labels[1..], scores[1..]);
        var i :| 0 <= i < |labels[1..]| && i < |scores[1..]| && rest[j].section == labels[1..][i] && rest[j].score == scores[1..][i];
        assert rest[j].section == labels[i + 1] && rest[j].score == scores[i + 1];
      }
    }
  }

  /** Every light belongs to one of the pairs, in order, and its name has a
      position; a pair whose name has none gets no light. */
  lemma LightsOfPairs(w: real, h: real, labels: seq<string>, scores: seq<real>)
    ensures var ls := Lights(w, h, labels, scores);
      && |ls| <= |labels| && |ls| <= |scores|
      && forall j :: 0 <= j < |ls| ==>
        && Lookup(NormName(ls[j].section)).Some?
        && FromPair(ls[j], labels, scores)
        && ls[j] == PlaceLight(w, h, ls[j].section, ls[j].score, Lookup(NormName(ls[j].section)).value)
  {
    LightsPlaced(w, h, labels, scores);
    LightsFromPairs(w, h, labels, scores);
  }

  /** When every name has a position, there is one light per pair. */
  lemma {:induction false} LightsAllKnown(w: real, h: real, labels: seq<string>, scores: seq<real>)
    requires |labels| == |scores|
    requires forall i :: 0 <= i < |labels| ==> Lookup(NormName(labels[i])).Some?
    ensures |Lights(w, h, labels, scores)| == |labels|
    ensures forall i :: 0 <= i < |labels| ==>
      Lights(w, h, labels, scores)[i] == PlaceLight(w, h, labels[i], scores[i], Lookup(NormName(labels[i])).value)
    decreases |labels|
  {
    if |labels| > 0 {
      LightsAllKnown(w, h, labels[1..], scores[1..]);
    }
  }

  /** `build_stoplight_overlay`: nothing without a base image, else the
      lights drawn on an image of `base = (h, w)` pixels. */
  function Overlay(base: Option<(nat, nat)>, labels: seq<string>, scores: seq<real>): (r: Option<seq<Light>>)
    ensures r.None? <==> base.None?
  {
    if base.None? then None
    else Some(Lights(base.value.1 as real, base.value.0 as real, labels, scores))
  }

  /** The strategy section of the questionnaire gets no light. */
  lemma AssetManagementStrategieNoLight(base: (nat, nat), score: real)
    ensures Overlay(Some(base), [AssetLabel], [score]) == Some([])
  {
    var labels, scores := [AssetLabel], [score];
    AssetManagementStrategieSkipped();
    assert labels[0] == AssetLabel && labels[1..] == [] && scores[1..] == [];
    assert Lookup(NormName(labels[0])).None?;
    assert Lights(base.1 as real, base.0 as real, labels[1..], scores[1..]) == [];
  }
}

=== FILE: text.dfy ===
/** String primitives with the semantics of the Python and JavaScript
    built-ins the report code calls: `str.strip`, `str.split(sep)`,
    `str.replace`, `in`, `str.endswith`, `str.rsplit(sep, 1)`, `str.lower`,
    and the whitespace sets of `str.isspace`, `int()` and `parseInt`. */
module Text {

  /** `str.isspace()` for one code point: the set `str.strip()` removes. */
  predicate IsPyWhitespace(c: char) {
    var n := c as int;
    (9 <= n <= 13) || (0x1C <= n <= 0x20) || n == 0x85 || n == 0xA0 || n == 0x1680
    || (0x2000 <= n <= 0x200A) || n == 0x2028 || n == 0x2029 || n == 0x202F
    || n == 0x205F || n == 0x3000
  }

  /** The whitespace `int()` skips around its digits. CPython rewrites only
      code points from 127 up (a non-ASCII space becomes an ASCII space) and
      then skips the six ASCII spaces, so U+001C..U+001F, which `str.strip()`
      does remove, make `int()` fail. */
  predicate IsPyIntWhitespace(c: char) {
    IsPyWhitespace(c) && !(0x1C <= c as int <= 0x1F)
  }

  /** ECMAScript WhiteSpace and LineTerminator, the characters `parseInt`
      skips before the number. */
  predicate IsJsWhitespace(c: char) {
    var n := c as int;
    (9 <= n <= 13) || n == 0x20 || n == 0xA0 || n == 0x1680 || (0x2000 <= n <= 0x200A)
    || n == 0x2028 || n == 0x2029 || n == 0x202F || n == 0x205F || n == 0x3000 || n == 0xFEFF
  }

  /** The whitespace sets of `str.strip()`, `int()` and `parseInt`. */
  datatype Space = PyStrip | PyInt | Js

  predicate IsSpace(ws: Space, c: char) {
    match ws
    case PyStrip => IsPyWhitespace(c)
    case PyInt => IsPyIntWhitespace(c)
    case Js => IsJsWhitespace(c)
  }

  /** `s` without its leading characters that satisfy `ws`. */
  function TrimStart(s: string, ws: Space): string
    decreases |s|
  {
    if |s| > 0 && IsSpace(ws, s[0]) then TrimStart(s[1..], ws) else s
  }

  /** `s` without its trailing characters that satisfy `ws`. */
  function TrimEnd(s: string, ws: Space): string
    decreases |s|
  {
    if |s| > 0 && IsSpace(ws, s[|s| - 1]) then TrimEnd(s[..|s| - 1], ws) else s
  }

  /** `TrimStart` removes a prefix made of spaces only, and what it leaves
      does not start with a space. */
  lemma {:induction false} TrimStartShape(s: string, ws: Space)
    ensures |TrimStart(s, ws)| <= |s| && TrimStart(s, ws) == s[|s| - |TrimStart(s, ws)|..]
    ensures forall k :: 0 <= k < |s| - |TrimStart(s, ws)| ==> IsSpace(ws, s[k])
    ensures |TrimStart(s, ws)| > 0 ==> !IsSpace(ws, TrimStart(s, ws)[0])
    decreases |s|
  {
    if |s| > 0 && IsSpace(ws, s[0]) {
      TrimStartShape(s[1..], ws);
    }
  }

  /** `TrimEnd` removes a suffix made of spaces only, and what it leaves
      does not end with a space. */
  lemma {:induction false} TrimEndShape(s: string, ws: Space)
    ensures |TrimEnd(s, ws)| <= |s| && TrimEnd(s, ws) == s[..|TrimEnd(s, ws)|]
    ensures forall k :: |TrimEnd(s, ws)| <= k < |s| ==> IsSpace(ws, s[k])
    ensures |TrimEnd(s, ws)| > 0 ==> !IsSpace(ws, TrimEnd(s, ws)[|TrimEnd(s, ws)| - 1])
    decreases |s|
  {
    if |s| > 0 && IsSpace(ws, s[|s| - 1]) {
      TrimEndShape(s[..|s| - 1], ws);
    }
  }

  /** A leading space goes, and a non-space start stops the trimming. */
  lemma TrimStartStep(c: char, s: string, ws: Space)
    ensures TrimStart([c] + s, ws) == if IsSpace(ws, c) then TrimStart(s, ws) else [c] + s
  {
    assert ([c] + s)[1..] == s;
  }

  /** A trailing space goes, and a non-space end stops the trimming. */
  lemma TrimEndStep(s: string, c: char, ws: Space)
    ensures TrimEnd(s + [c], ws) == if IsSpace(ws, c) then TrimEnd(s, ws) else s + [c]
  {
    assert (s + [c])[..|s|] == s;
  }

  function Trim(s: string, ws: Space): string {
    TrimEnd(TrimStart(s, ws), ws)
  }

  /** Python `s.strip()`. */
  function Strip(s: string): string {
    Trim(s, PyStrip)
  }

  /** `strip()` returns the empty string exactly for all-whitespace text. */
  lemma StripEmptyIffAllWhitespace(s: string)
    ensures Strip(s) == "" <==> forall k :: 0 <= k < |s| ==> IsPyWhitespace(s[k])
  {
    var t := TrimStart(s, PyStrip);
    TrimStartShape(s, PyStrip);
    TrimEndShape(t, PyStrip);
    if |t| > 0 {
      assert s[|s| - |t|] == t[0];
    }
  }

  /** A string with no whitespace at its two ends is its own strip. */
  lemma StripNoEdgeWhitespace(s: string)
    requires |s| > 0 ==> !IsPyWhitespace(s[0]) && !IsPyWhitespace(s[|s| - 1])
    ensures Strip(s) == s
  {
    if |s| > 0 {
      assert s == [s[0]] + s[1..];
      TrimStartStep(s[0], s[1..], PyStrip);
      assert s == s[..|s| - 1] + [s[|s| - 1]];
      TrimEndStep(s[..|s| - 1], s[|s| - 1], PyStrip);
    }
  }

  /** Python `s.split(sep)` for a one-character separator: never empty. */
  function Split(s: string, sep: char): (r: seq<string>)
    ensures |r| >= 1
    decreases |s|
  {
    if |s| == 0 then [""]
    else if s[0] == sep then [""] + Split(s[1..], sep)
    else
      var rest := Split(s[1..], sep);
      [[s[0]] + rest[0]] + rest[1..]
  }

  /** `sep.join(parts)`. */
  function Join(parts: seq<string>, sep: char): string
    decreases |parts|
  {
    if |parts| == 0 then ""
    else if |parts| == 1 then parts[0]
    else parts[0] + [sep] + Join(parts[1..], sep)
  }

  function CountChar(s: string, c: char): nat
    decreases |s|
  {
    if |s| == 0 then 0 else (if s[0] == c then 1 else 0) + CountChar(s[1..], c)
  }

  lemma CountCharAppend(a: string, b: string, c: char)
    ensures CountChar(a + b, c) == CountChar(a, c) + CountChar(b, c)
    decreases |a|
  {
    if |a| > 0 {
      assert (a + b)[0] == a[0];
      assert (a + b)[1..] == a[1..] + b;
      CountCharAppend(a[1..], b, c);
    } else {
      assert a + b == b;
    }
  }

  lemma {:induction false} CountCharAbsent(s: string, c: char)
    requires c !in s
    ensures CountChar(s, c) == 0
    decreases |s|
  {
    if |s| > 0 {
      CountCharAbsent(s[1..], c);
    }
  }

  /** Splitting and joining again gives back the string, no piece contains
      the separator, and there is one more piece than separators. */
  lemma {:induction false} SplitJoin(s: string, sep: char)
    ensures Join(Split(s, sep), sep) == s
    ensures forall k :: 0 <= k < |Split(s, sep)| ==> sep !in Split(s, sep)[k]
    ensures |Split(s, sep)| == CountChar(s, sep) + 1
    decreases |s|
  {
    if |s| > 0 {
      SplitJoin(s[1..], sep);
      var rest := Split(s[1..], sep);
      if s[0] == sep {
        assert Split(s, sep) == [""] + rest;
        assert s == [sep] + s[1..];
      } else {
        var r := Split(s, sep);
        assert r == [[s[0]] + rest[0]] + rest[1..];
        assert r[1..] == rest[1..];
        if |rest| == 1 {
          assert s == [s[0]] + rest[0];
        } else {
          assert Join(r, sep) == ([s[0]] + rest[0]) + [sep] + Join(rest[1..], sep);
          assert Join(rest, sep) == rest[0] + [sep] + Join(rest[1..], sep);
        }
        forall k | 0 <= k < |r|
          ensures sep !in r[k]
        {
          if k > 0 {
            assert r[k] == rest[k];
          }
        }
      }
    }
  }

  /** Splitting at a separator splits both sides apart. */
  lemma {:induction false} SplitConcat(x: string, y: string, sep: char)
    ensures Split(x + [sep] + y, sep) == Split(x, sep) + Split(y, sep)
    decreases |x|
  {
    var s := x + [sep] + y;
    if |x| == 0 {
      assert s == [sep] + y;
      assert s[1..] == y;
    } else {
      assert s[0] == x[0];
      assert s[1..] == x[1..] + [sep] + y;
      SplitConcat(x[1..], y, sep);
    }
  }

  /** Text without the separator is one piece. */
  lemma {:induction false} SplitNoSep(y: string, sep: char)
    requires sep !in y
    ensures Split(y, sep) == [y]
    decreases |y|
  {
    if |y| > 0 {
      SplitNoSep(y[1..], sep);
      assert y == [y[0]] + y[1..];
    }
  }

  /** Every `a` in `s` replaced by `b`. */
  function SwapChar(s: string, a: char, b: char): (r: string)
    ensures |r| == |s| && forall k :: 0 <= k < |s| ==> r[k] == if s[k] == a then b else s[k]
  {
    seq(|s|, k requires 0 <= k < |s| => if s[k] == a then b else s[k])
  }

  lemma SwapCharCons(s: string, a: char, b: char)
    requires |s| > 0
    ensures SwapChar(s, a, b) == [if s[0] == a then b else s[0]] + SwapChar(s[1..], a, b)
  {
  }

  /** The step of `JoinSplitSwap` for a text that starts with `a`. */
  lemma JoinSplitAtSep(s: string, a: char, b: char)
    requires |s| > 0 && s[0] == a
    requires Join(Split(s[1..], a), b) == SwapChar(s[1..], a, b)
    ensures Join(Split(s, a), b) == SwapChar(s, a, b)
  {
    var rest := Split(s[1..], a);
    var parts := [""] + rest;
    assert Split(s, a) == parts;
    assert parts[0] == "" && parts[1..] == rest;
    assert Join(parts, b) == [b] + Join(rest, b);
    SwapCharCons(s, a, b);
  }

  /** The step of `JoinSplitSwap` for a text that starts with another
      character. */
  lemma JoinSplitAtOther(s: string, a: char, b: char)
    requires |s| > 0 && s[0] != a
    requires Join(Split(s[1..], a), b) == SwapChar(s[1..], a, b)
    ensures Join(Split(s, a), b) == SwapChar(s, a, b)
  {
    var h, rest := s[0], Split(s[1..], a);
    var parts := [[h] + rest[0]] + rest[1..];
    assert Split(s, a) == parts;
    if |rest| == 1 {
      assert Join(parts, b) == [h] + rest[0];
    } else {
      assert parts[1..] == rest[1..];
      assert Join(rest, b) == rest[0] + [b] + Join(rest[1..], b);
      assert Join(parts, b) == ([h] + rest[0]) + [b] + Join(rest[1..], b);
    }
    SwapCharCons(s, a, b);
  }

  /** `b.join(s.split(a))` replaces each `a` by `b`. */
  lemma {:induction false} JoinSplitSwap(s: string, a: char, b: char)
    ensures Join(Split(s, a), b) == SwapChar(s, a, b)
    decreases |s|
  {
    if |s| > 0 {
      JoinSplitSwap(s[1..], a, b);
      if s[0] == a {
        JoinSplitAtSep(s, a, b);
      } else {
        JoinSplitAtOther(s, a, b);
      }
    }
  }

  /** Python `s.replace(pat, rep)`: scans left to right and replaces
      non-overlapping occurrences. */
  function Replace(s: string, pat: string, rep: string): string
    requires |pat| > 0
    decreases |s|
  {
    if |s| < |pat| then s
    else if s[..|pat|] == pat then rep + Replace(s[|pat|..], pat, rep)
    else [s[0]] + Replace(s[1..], pat, rep)
  }

  /** Python `sub in s`. */
  predicate Contains(s: string, sub: string)
    decreases |s|
  {
    |sub| <= |s| && (s[..|sub|] == sub || Contains(s[1..], sub))
  }

  lemma {:induction false} ContainsAt(s: string, sub: string, i: nat)
    requires i + |sub| <= |s| && s[i..i + |sub|] == sub
    ensures Contains(s, sub)
    decreases i
  {
    if i > 0 {
      assert s[1..][i - 1..i - 1 + |sub|] == s[i..i + |sub|];
      ContainsAt(s[1..], sub, i - 1);
    }
  }

  /** Every character of a contained string occurs in the string. */
  lemma {:induction false} ContainsChar(s: string, sub: string, k: nat)
    requires Contains(s, sub) && k < |sub|
    ensures sub[k] in s
    decreases |s|
  {
    if s[..|sub|] == sub {
      assert s[k] == sub[k];
    } else {
      ContainsChar(s[1..], sub, k);
    }
  }

  /** A two-character string is contained in `x + y` exactly when it is in
      one of them or straddles the seam. */
  lemma {:induction false} ContainsPairAppend(x: string, y: string, sub: string)
    requires |sub| == 2
    ensures Contains(x + y, sub) <==>
      Contains(x, sub) || Contains(y, sub) || (|x| > 0 && |y| > 0 && x[|x| - 1] == sub[0] && y[0] == sub[1])
    decreases |x|
  {
    if |x| == 1 {
      assert (x + y)[1..] == y;
      if |y| > 0 {
        assert (x + y)[..2] == [x[0], y[0]];
      }
    } else if |x| > 1 {
      assert (x + y)[1..] == x[1..] + y;
      assert (x + y)[..2] == x[..2];
      assert x[1..][|x| - 2] == x[|x| - 1];
      ContainsPairAppend(x[1..], y, sub);
      assert Contains(x, sub) <==> x[..2] == sub || Contains(x[1..], sub);
    } else {
      assert x + y == y;
    }
  }

  /** Without an occurrence of `pat`, `replace` changes nothing. */
  lemma {:induction false} ReplaceAbsent(s: string, pat: string, rep: string)
    requires |pat| > 0 && !Contains(s, pat)
    ensures Replace(s, pat, rep) == s
    decreases |s|
  {
    if |s| >= |pat| {
      ReplaceAbsent(s[1..], pat, rep);
    }
  }

  lemma ReplaceAbsentChar(s: string, pat: string, rep: string, k: nat)
    requires |pat| > 0 && k < |pat| && pat[k] !in s
    ensures Replace(s, pat, rep) == s
  {
    if Contains(s, pat) {
      ContainsChar(s, pat, k);
    }
    ReplaceAbsent(s, pat, rep);
  }

  /** Replacing one character distributes over concatenation. */
  lemma {:induction false} ReplaceCharAppend(a: string, b: string, c: char, rep: string)
    ensures Replace(a + b, [c], rep) == Replace(a, [c], rep) + Replace(b, [c], rep)
    decreases |a|
  {
    if |a| > 0 {
      assert (a + b)[1..] == a[1..] + b;
      assert (a + b)[..1] == a[..1];
      ReplaceCharAppend(a[1..], b, c, rep);
      if a[..1] == [c] {
        assert Replace(a + b, [c], rep) == rep + Replace(a[1..] + b, [c], rep);
        assert Replace(a, [c], rep) == rep + Replace(a[1..], [c], rep);
      } else {
        assert Replace(a + b, [c], rep) == [a[0]] + Replace(a[1..] + b, [c], rep);
        assert Replace(a, [c], rep) == [a[0]] + Replace(a[1..], [c], rep);
      }
    } else {
      assert a + b == b;
    }
  }

  /** Replacing a character in a one-character string. */
  lemma ReplaceCharSingle(d: char, c: char, rep: string)
    ensures Replace([d], [c], rep) == if d == c then rep else [d]
  {
    assert [d][..1] == [d];
  }

  /** Python `s.endswith(suf)`. */
  predicate EndsWith(s: string, suf: string) {
    |suf| <= |s| && s[|s| - |suf|..] == suf
  }

  /** Python `s.rsplit(sep, 1)[0]`: everything before the last `sep`, or
      the whole string when there is none. */
  function RSplitHead(s: string, sep: char): (r: string)
    ensures sep !in s ==> r == s
    ensures sep in s ==> |r| < |s| && s[..|r|] == r && s[|r|] == sep && sep !in s[|r| + 1..]
    decreases |s|
  {
    if |s| == 0 then s
    else if s[|s| - 1] == sep then s[..|s| - 1]
    else
      var h := RSplitHead(s[..|s| - 1], sep);
      if sep in s[..|s| - 1] then
        assert s[|h| + 1..] == s[..|s| - 1][|h| + 1..] + [s[|s| - 1]];
        h
      else
        assert sep !in s by {
          assert s == s[..|s| - 1] + [s[|s| - 1]];
        }
        s
  }

  /** `head + [sep] + tail` with `sep` absent from `tail` has `head` as its
      `rsplit(sep, 1)[0]`, whatever `head` holds. */
  lemma RSplitHeadOf(head: string, sep: char, tail: string)
    requires sep !in tail
    ensures RSplitHead(head + [sep] + tail, sep) == head
  {
    var s := head + [sep] + tail;
    assert s[|head|] == sep;
    assert s[..|head|] == head;
    assert s[|head| + 1..] == tail;
  }

  /** A capital `lower()` changes: `A`-`Z`, or a Latin-1 capital from
      U+00C0 to U+00DE other than the multiplication sign U+00D7. */
  predicate Capital(c: char) {
    var n := c as int;
    ('A' as int <= n <= 'Z' as int) || (0xC0 <= n <= 0xDE && n != 0xD7)
  }

  /** `str.lower()` on one code point, for ASCII and Latin-1 letters: its
      small letter lies 32 code points on. */
  function LowerChar(c: char): char {
    if Capital(c) then (c as int + 32) as char else c
  }

  /** Python `s.lower()`: no capital is left, every other character is
      kept, and every capital becomes its small letter. */
  function Lower(s: string): (r: string)
    ensures |r| == |s|
    ensures forall k :: 0 <= k < |r| ==> !Capital(r[k])
    ensures forall k :: 0 <= k < |s| ==> !Capital(s[k]) ==> r[k] == s[k]
    ensures forall k :: 0 <= k < |s| ==> Capital(s[k]) ==> r[k] as int == s[k] as int + 32
  {
    seq(|s|, k requires 0 <= k < |s| => LowerChar(s[k]))
  }

  /** Lower-casing twice is lower-casing once. */
  lemma LowerIdempotent(s: string)
    ensures Lower(Lower(s)) == Lower(s)
  {
  }

  lemma LowerAppend(a: string, b: string)
    ensures Lower(a + b) == Lower(a) + Lower(b)
  {
  }
}

=== FILE: wrap.dfy ===
/** The line counter `ReportPDF._nb_lines` (app.py:96-136; the same code is
    netlify/functions/submit.py:75-115). Text widths come from an abstract
    per-character width: FPDF's `get_string_width` is the sum of the widths
    of the characters of the string in the current font. */
module Wrap {
  import opened Wrappers
  import opened Text
  import opened Latin1

  /** An FPDF font selection: family, style and size in points. */
  datatype Font = Font(family: string, style: string, size: real)

  /** The part of the PDF object the counter reads and changes. */
  datatype Pdf = Pdf(unicodeOk: bool, font: Font)

  const FontRegular: string := "DejaVu"
  const FontBold: string := "DejaVuB"

  /** `ufont(size, bold)`: the DejaVu pair when the Unicode fonts are loaded,
      Arial with style `B` for bold otherwise. */
  function UFont(unicodeOk: bool, size: real, bold: bool): Font {
    Font(if bold && unicodeOk then FontBold else if unicodeOk then FontRegular else "Arial",
      if unicodeOk then "" else if bold then "B" else "", size)
  }

  /** The advance of a character in a font. */
  type CharWidth = (Font, char) -> real

  ghost predicate NonNegative(cw: CharWidth) {
    forall f, c :: cw(f, c) >= 0.0
  }

  /** `get_string_width(s)`. */
  function Width(cw: CharWidth, font: Font, s: string): real
    decreases |s|
  {
    if |s| == 0 then 0.0 else Width(cw, font, s[..|s| - 1]) + cw(font, s[|s| - 1])
  }

  lemma {:induction false} WidthAppend(cw: CharWidth, font: Font, a: string, b: string)
    ensures Width(cw, font, a + b) == Width(cw, font, a) + Width(cw, font, b)
    decreases |b|
  {
    if |b| == 0 {
      assert a + b == a;
    } else {
      assert (a + b)[..|a + b| - 1] == a + b[..|b| - 1];
      WidthAppend(cw, font, a, b[..|b| - 1]);
    }
  }

  lemma {:induction false} WidthNonNegative(cw: CharWidth, font: Font, s: string)
    requires NonNegative(cw)
    ensures Width(cw, font, s) >= 0.0
    decreases |s|
  {
    if |s| > 0 {
      WidthNonNegative(cw, font, s[..|s| - 1]);
    }
  }

  /** A prefix is never wider than the whole string. */
  lemma WidthPrefix(cw: CharWidth, font: Font, a: string, b: string)
    requires NonNegative(cw)
    ensures Width(cw, font, a) <= Width(cw, font, a + b)
  {
    WidthAppend(cw, font, a, b);
    WidthNonNegative(cw, font, b);
  }

  // The hard break of a word too wide for an empty line. `_nb_lines` only
  // counts the lines it starts (`lines += 1; ch = c`); the model keeps the
  // finished pieces, so that the count is their number.

  function Break(cw: CharWidth, font: Font, w: real, s: string, done: seq<string>, ch: string): (seq<string>, string)
    decreases |s|
  {
    if |s| == 0 then (done, ch)
    else if Width(cw, font, ch + [s[0]]) <= w then Break(cw, font, w, s[1..], done, ch + [s[0]])
    else Break(cw, font, w, s[1..], done + [ch], [s[0]])
  }

  function Concat(ps: seq<string>): string
    decreases |ps|
  {
    if |ps| == 0 then "" else Concat(ps[..|ps| - 1]) + ps[|ps| - 1]
  }

  /** A piece a line can hold: it fits, or it is one character. */
  predicate Placeable(cw: CharWidth, font: Font, w: real, p: string) {
    Width(cw, font, p) <= w || |p| <= 1
  }

  /** The pieces put the word back together, each of them fits or is a
      single character, and each is closed only when its next character
      would not fit. */
  lemma {:induction false} BreakSpec(cw: CharWidth, font: Font, w: real, s: string, done: seq<string>, ch: string)
    requires Placeable(cw, font, w, ch)
    requires forall i :: 0 <= i < |done| ==> Placeable(cw, font, w, done[i])
    ensures var (ps, last) := Break(cw, font, w, s, done, ch);
      && Concat(ps) + last == Concat(done) + ch + s
      && |ps| >= |done| && ps[..|done|] == done
      && Placeable(cw, font, w, last)
      && (forall i :: 0 <= i < |ps| ==> Placeable(cw, font, w, ps[i]))
    decreases |s|
  {
    if |s| > 0 {
      var c := s[0];
      assert s == [c] + s[1..];
      if Width(cw, font, ch + [c]) <= w {
        BreakSpec(cw, font, w, s[1..], done, ch + [c]);
      } else {
        var d := done + [ch];
        assert d[..|done|] == done;
        assert Concat(d) == Concat(done) + ch;
        BreakSpec(cw, font, w, s[1..], d, [c]);
        var ps := Break(cw, font, w, s[1..], d, [c]).0;
        assert ps[..|done|] == ps[..|d|][..|done|];
      }
    }
  }

  /** Greedy: a finished piece followed by the next character is too wide. */
  lemma {:induction false} BreakGreedy(cw: CharWidth, font: Font, w: real, s: string, done: seq<string>, ch: string, i: nat)
    requires |done| <= i < |Break(cw, font, w, s, done, ch).0|
    ensures var (ps, last) := Break(cw, font, w, s, done, ch);
      var next := if i + 1 < |ps| then ps[i + 1] else last;
      |next| > 0 && Width(cw, font, ps[i] + [next[0]]) > w
    decreases |s|
  {
    var c := s[0];
    if Width(cw, font, ch + [c]) <= w {
      BreakGreedy(cw, font, w, s[1..], done, ch + [c], i);
    } else {
      var d := done + [ch];
      BreakPrefix(cw, font, w, s[1..], d, [c]);
      if i == |done| {
        var (ps, last) := Break(cw, font, w, s[1..], d, [c]);
        BreakStartsWith(cw, font, w, s[1..], d, [c]);
        assert ps[i] == ch;
      } else {
        BreakGreedy(cw, font, w, s[1..], d, [c], i);
      }
    }
  }

  lemma {:induction false} BreakPrefix(cw: CharWidth, font: Font, w: real, s: string, done: seq<string>, ch: string)
    ensures |Break(cw, font, w, s, done, ch).0| >= |done|
    ensures Break(cw, font, w, s, done, ch).0[..|done|] == done
    decreases |s|
  {
    if |s| > 0 {
      var c := s[0];
      if Width(cw, font, ch + [c]) <= w {
        BreakPrefix(cw, font, w, s[1..], done, ch + [c]);
      } else {
        var d := done + [ch];
        BreakPrefix(cw, font, w, s[1..], d, [c]);
        var ps := Break(cw, font, w, s[1..], d, [c]).0;
        assert ps[..|done|] == ps[..|d|][..|done|];
      }
    }
  }

  /** The piece after a break starts with the character that did not fit. */
  lemma {:induction false} BreakStartsWith(cw: CharWidth, font: Font, w: real, s: string, done: seq<string>, ch: string)
    requires |ch| > 0
    ensures var (ps, last) := Break(cw, font, w, s, done, ch);
      var next := if |done| < |ps| then ps[|done|] else last;
      |next| > 0 && next[0] == ch[0]
    decreases |s|
  {
    if |s| > 0 {
      var c := s[0];
      if Width(cw, font, ch + [c]) <= w {
        BreakStartsWith(cw, font, w, s[1..], done, ch + [c]);
      } else {
        var d := done + [ch];
        BreakPrefix(cw, font, w, s[1..], d, [c]);
        assert Break(cw, font, w, s[1..], d, [c]).0[|done|] == Break(cw, font, w, s[1..], d, [c]).0[..|d|][|done|];
      }
    }
  }

  /** The word comes back as one piece only when it fits: a word that does
      not fit is broken into at least two lines. */
  lemma {:induction false} BreakWide(cw: CharWidth, font: Font, w: real, s: string, ch: string)
    requires Width(cw, font, ch) <= w || (ch == "" && |s| > 0)
    ensures |Break(cw, font, w, s, [], ch).0| == 0 ==> Width(cw, font, ch + s) <= w
    decreases |s|
  {
    if |s| == 0 {
      assert ch + s == ch;
    } else {
      var c := s[0];
      assert ch + s == (ch + [c]) + s[1..];
      if Width(cw, font, ch + [c]) <= w {
        BreakWide(cw, font, w, s[1..], ch + [c]);
      } else {
        assert [] + [ch] == [ch];
        BreakPrefix(cw, font, w, s[1..], [ch], [c]);
      }
    }
  }

  // The word loop of one paragraph.

  datatype Cursor = Cursor(lines: nat, cur: string)

  /** One pass of `for w2 in words`. A word that fits joins the line.
      After another word, a word that does not fit starts exactly one new
      line and becomes that line: it is never broken, however wide it is.
      Breaking by character happens only on an empty line. */
  function WordStep(cw: CharWidth, font: Font, w: real, st: Cursor, word: string): (r: Cursor)
    ensures Width(cw, font, Strip(st.cur + " " + word)) <= w ==> r == Cursor(st.lines, Strip(st.cur + " " + word))
    ensures st.cur != "" ==>
      && (r.lines == st.lines || r.lines == st.lines + 1)
      && (r.lines == st.lines + 1 <==> Width(cw, font, Strip(st.cur + " " + word)) > w)
      && (r.lines == st.lines + 1 ==> r.cur == word)
  {
    var test := Strip(st.cur + " " + word);
    if Width(cw, font, test) <= w then Cursor(st.lines, test)
    else if st.cur == "" then
      var (pieces, last) := Break(cw, font, w, word, [], "");
      Cursor(st.lines + |pieces|, last)
    else Cursor(st.lines + 1, word)
  }

  function Words(cw: CharWidth, font: Font, w: real, st: Cursor, words: seq<string>): Cursor
    decreases |words|
  {
    if |words| == 0 then st else Words(cw, font, w, WordStep(cw, font, w, st, words[0]), words[1..])
  }

  /** The lines one paragraph adds: the lines the word loop starts, plus the
      last one. `par.split(" ")` is never empty, so the `if not words`
      branch cannot be taken. */
  function ParLines(cw: CharWidth, font: Font, w: real, par: string): (n: nat)
    ensures n >= 1
  {
    Words(cw, font, w, Cursor(0, ""), Split(par, ' ')).lines + 1
  }

  /** The paragraph loop. Its counter is never read inside the loop, so the
      total is the sum over the paragraphs. */
  function CountLines(cw: CharWidth, font: Font, w: real, pars: seq<string>): (n: nat)
    ensures n >= |pars|
    decreases |pars|
  {
    if |pars| == 0 then 0 else CountLines(cw, font, w, pars[..|pars| - 1]) + ParLines(cw, font, w, pars[|pars| - 1])
  }

  /** `_nb_lines(w, txt, bold, size)`: the count, and the PDF as it was
      before the call: the measuring font is switched back. */
  function NbLines(pdf: Pdf, cw: CharWidth, w: real, txt: Option<string>, bold: bool, size: real): (r: (nat, Pdf))
    ensures r.0 >= 1
    ensures r.0 >= |Split(txt.GetOr(""), '\n')|
    ensures r.1 == pdf
  {
    var measuring := pdf.(font := UFont(pdf.unicodeOk, size, bold));
    var text := UText(measuring.unicodeOk, txt.GetOr(""));
    UTextParagraphs(measuring.unicodeOk, txt.GetOr(""));
    var lines := CountLines(cw, measuring.font, w, Split(text, '\n'));
    (if lines > 1 then lines else 1, measuring.(font := pdf.font))
  }

  /** No text, or the empty text, is one line. */
  lemma NbLinesEmpty(pdf: Pdf, cw: CharWidth, w: real, txt: Option<string>, bold: bool, size: real)
    requires txt.GetOr("") == ""
    ensures NbLines(pdf, cw, w, txt, bold, size).0 == 1
  {
    var font := UFont(pdf.unicodeOk, size, bold);
    SanitizeEmpty();
    assert UText(pdf.unicodeOk, txt.GetOr("")) == "";
    assert Split("", '\n') == [""];
    assert Split("", ' ') == [""];
    assert Strip("" + " " + "") == "" by {
      TrimStartStep(' ', "", PyStrip);
    }
    assert Break(cw, font, w, "", [], "") == ([], "");
    assert WordStep(cw, font, w, Cursor(0, ""), "") == Cursor(0, "");
    assert CountLines(cw, font, w, [""]) == ParLines(cw, font, w, "");
  }

  lemma SanitizeEmpty()
    ensures Sanitize("") == ""
  {
    SanitizeIsReference("");
  }

  // Paragraphs of single-spaced words.

  /** A word the wrap loop sees as it is: not empty, no whitespace. */
  predicate PlainWord(s: string) {
    |s| > 0 && forall k :: 0 <= k < |s| ==> !IsPyWhitespace(s[k])
  }

  lemma {:induction false} JoinAppend(a: seq<string>, b: seq<string>, sep: char)
    requires |a| > 0 && |b| > 0
    ensures Join(a + b, sep) == Join(a, sep) + [sep] + Join(b, sep)
    decreases |a|
  {
    if |a| == 1 {
      assert (a + b)[1..] == b;
    } else {
      assert (a + b)[1..] == a[1..] + b;
      JoinAppend(a[1..], b, sep);
    }
  }

  lemma {:induction false} SplitOfJoin(ws: seq<string>, sep: char)
    requires |ws| > 0 && forall i :: 0 <= i < |ws| ==> sep !in ws[i]
    ensures Split(Join(ws, sep), sep) == ws
    decreases |ws|
  {
    if |ws| == 1 {
      SplitNoSep(ws[0], sep);
    } else {
      SplitOfJoin(ws[1..], sep);
      SplitConcat(ws[0], Join(ws[1..], sep), sep);
      SplitNoSep(ws[0], sep);
      assert ws == [ws[0]] + ws[1..];
    }
  }

  /** Words joined by single spaces have no whitespace at either end. */
  lemma {:induction false} JoinEdges(ws: seq<string>)
    requires |ws| > 0 && forall i :: 0 <= i < |ws| ==> PlainWord(ws[i])
    ensures |Join(ws, ' ')| > 0
    ensures !IsPyWhitespace(Join(ws, ' ')[0]) && !IsPyWhitespace(Join(ws, ' ')[|Join(ws, ' ')| - 1])
    decreases |ws|
  {
    if |ws| > 1 {
      JoinEdges(ws[1..]);
    }
  }

  lemma StripSpaceWord(word: string)
    requires PlainWord(word)
    ensures Strip("" + " " + word) == word
  {
    assert "" + " " + word == [' '] + word;
    TrimStartStep(' ', word, PyStrip);
    StripNoEdgeWhitespace(word);
  }

  lemma StripJoin(done: seq<string>, word: string)
    requires |done| > 0 && forall i :: 0 <= i < |done| ==> PlainWord(done[i])
    requires PlainWord(word)
    ensures Strip(Join(done, ' ') + " " + word) == Join(done + [word], ' ')
  {
    JoinAppend(done, [word], ' ');
    assert Join(done, ' ') + " " + word == Join(done + [word], ' ');
    JoinEdges(done + [word]);
    StripNoEdgeWhitespace(Join(done + [word], ' '));
  }

  /** While the text read so far fits, the loop extends the current line and
      starts none. */
  lemma {:induction false} FittingWords(cw: CharWidth, font: Font, w: real, done: seq<string>, rest: seq<string>)
    requires NonNegative(cw)
    requires forall i :: 0 <= i < |done| ==> PlainWord(done[i])
    requires forall i :: 0 <= i < |rest| ==> PlainWord(rest[i])
    requires |done + rest| > 0 && Width(cw, font, Join(done + rest, ' ')) <= w
    ensures Words(cw, font, w, Cursor(0, Join(done, ' ')), rest).lines == 0
    decreases |rest|
  {
    if |rest| > 0 {
      var d := done + [rest[0]];
      var st := Cursor(0, Join(done, ' '));
      if |done| == 0 {
        StripSpaceWord(rest[0]);
        assert Join(done, ' ') == "";
        assert Join(d, ' ') == rest[0];
      } else {
        StripJoin(done, rest[0]);
      }
      assert Strip(st.cur + " " + rest[0]) == Join(d, ' ');
      assert done + rest == d + rest[1..];
      if |rest| > 1 {
        JoinAppend(d, rest[1..], ' ');
        WidthPrefix(cw, font, Join(d, ' '), [' '] + Join(rest[1..], ' '));
        assert Join(d + rest[1..], ' ') == Join(d, ' ') + ([' '] + Join(rest[1..], ' '));
      } else {
        assert d == done + rest;
      }
      assert WordStep(cw, font, w, st, rest[0]) == Cursor(0, Join(d, ' '));
      FittingWords(cw, font, w, d, rest[1..]);
    }
  }

  /** A paragraph of single-spaced words that fits the column is one line. */
  lemma FittingParagraphOneLine(cw: CharWidth, font: Font, w: real, words: seq<string>)
    requires NonNegative(cw)
    requires |words| > 0 && forall i :: 0 <= i < |words| ==> PlainWord(words[i])
    requires Width(cw, font, Join(words, ' ')) <= w
    ensures ParLines(cw, font, w, Join(words, ' ')) == 1
  {
    SplitOfJoin(words, ' ');
    assert [] + words == words;
    FittingWords(cw, font, w, [], words);
  }

  lemma {:induction false} JoinNoNewline(words: seq<string>)
    requires |words| > 0 && forall i :: 0 <= i < |words| ==> PlainWord(words[i])
    ensures '\n' !in Join(words, ' ')
    decreases |words|
  {
    assert IsPyWhitespace('\n');
    if |words| > 1 {
      JoinNoNewline(words[1..]);
    }
  }

  /** With the Unicode fonts loaded, a text without a newline counts the
      lines of its one paragraph. */
  lemma NbLinesOneParagraph(pdf: Pdf, cw: CharWidth, w: real, par: string, bold: bool, size: real)
    requires pdf.unicodeOk && '\n' !in par
    ensures NbLines(pdf, cw, w, Some(par), bold, size).0 == ParLines(cw, UFont(true, size, bold), w, par)
  {
    SplitNoSep(par, '\n');
    CountLinesOne(cw, UFont(true, size, bold), w, par);
  }

  lemma CountLinesOne(cw: CharWidth, font: Font, w: real, par: string)
    ensures CountLines(cw, font, w, [par]) == ParLines(cw, font, w, par)
  {
    assert [par][..0] == [];
  }

  /** The same for the whole counter when the Unicode fonts are loaded. */
  lemma NbLinesFittingWords(pdf: Pdf, cw: CharWidth, w: real, words: seq<string>, bold: bool, size: real)
    requires pdf.unicodeOk && NonNegative(cw)
    requires |words| > 0 && forall i :: 0 <= i < |words| ==> PlainWord(words[i])
    requires Width(cw, UFont(true, size, bold), Join(words, ' ')) <= w
    ensures NbLines(pdf, cw, w, Some(Join(words, ' ')), bold, size).0 == 1
  {
    JoinNoNewline(words);
    NbLinesOneParagraph(pdf, cw, w, Join(words, ' '), bold, size);
    FittingParagraphOneLine(cw, UFont(true, size, bold), w, words);
  }

  /** A word too wide for the column, alone on its line, is broken into at
      least two lines. */
  lemma WideWordAloneBreaks(cw: CharWidth, font: Font, w: real, word: string)
    requires PlainWord(word) && Width(cw, font, word) > w
    ensures ParLines(cw, font, w, word) >= 2
  {
    SplitNoSep(word, ' ');
    StripSpaceWord(word);
    assert "" + word == word;
    BreakWide(cw, font, w, word, "");
    var st := WordStep(cw, font, w, Cursor(0, ""), word);
    assert st.lines == |Break(cw, font, w, word, [], "").0|;
    assert Words(cw, font, w, Cursor(0, ""), [word]) == Words(cw, font, w, st, []);
  }

  const AnswerLabel: string := "Antwoord:"

  lemma AnswerLabelShape()
    ensures PlainWord(AnswerLabel) && ' ' !in AnswerLabel
  {
  }

  /** What a right cell `"Antwoord: " + X` counts when `X` is one word and
      the label fits: one line if everything fits, and otherwise two,
      however wide `X` is: the counter never breaks the word after the label. */
  lemma AnswerAtMostTwoLines(cw: CharWidth, font: Font, w: real, x: string)
    requires PlainWord(x)
    requires Width(cw, font, AnswerLabel) <= w
    ensures ParLines(cw, font, w, AnswerLabel + " " + x) ==
      if Width(cw, font, AnswerLabel + " " + x) <= w then 1 else 2
  {
    AnswerLabelShape();
    var words := [AnswerLabel, x];
    assert AnswerLabel + " " + x == Join(words, ' ') by {
      assert words[1..] == [x];
    }
    assert ' ' !in x;
    SplitOfJoin(words, ' ');
    StripSpaceWord(AnswerLabel);
    var st := WordStep(cw, font, w, Cursor(0, ""), AnswerLabel);
    assert st == Cursor(0, AnswerLabel);
    assert Join([AnswerLabel], ' ') == AnswerLabel;
    StripJoin([AnswerLabel], x);
    assert [AnswerLabel] + [x] == words;
    var st2 := WordStep(cw, font, w, st, x);
    assert Strip(st.cur + " " + x) == AnswerLabel + " " + x;
    assert st2.lines == if Width(cw, font, AnswerLabel + " " + x) <= w then 0 else 1;
    assert words[1..] == [x];
    assert Words(cw, font, w, Cursor(0, ""), words) == Words(cw, font, w, st, [x]);
    assert Words(cw, font, w, st, [x]) == Words(cw, font, w, st2, []);
  }

  /** The same holds for the whole counter when the Unicode fonts are
      loaded (no sanitising) and the answer is one word. */
  lemma AnswerCellLines(pdf: Pdf, cw: CharWidth, w: real, x: string, size: real)
    requires pdf.unicodeOk && PlainWord(x)
    requires Width(cw, UFont(true, size, false), AnswerLabel) <= w
    ensures NbLines(pdf, cw, w, Some(AnswerLabel + " " + x), false, size).0 ==
      if Width(cw, UFont(true, size, false), AnswerLabel + " " + x) <= w then 1 else 2
  {
    var t := AnswerLabel + " " + x;
    AnswerLabelShape();
    assert '\n' !in t by {
      assert forall k :: 0 <= k < |x| ==> x[k] != '\n';
    }
    NbLinesOneParagraph(pdf, cw, w, t, false, size);
    AnswerAtMostTwoLines(cw, UFont(true, size, false), w, x);
  }
}

=== FILE: wrappers.dfy ===
/** Optional values and results, in the shape the rest of the model uses for
    a missing form field, a failed number parse or a handler that throws. */
module Wrappers {

  datatype Option<+T> = None | Some(value: T) {

    /** The value, or `default` when there is none (Python's `dict.get(k, d)`). */
    function GetOr(default: T): T {
      match this
      case Some(v) => v
      case None => default
    }
  }

  datatype Result<+R, +E> = Success(value: R) | Failure(error: E)
}
